=== FILE: README.md ===
# Friend Tracker, modelled in Dafny

Friend Tracker is an Obsidian plugin that keeps one Markdown note per contact in a
contacts folder. Each note's YAML header (its frontmatter) holds the contact's name,
birthday, email, phone, relationship, notes and a list of dated interactions. The plugin
exists in two generations: the legacy single-file plugin (`main.ts`) and the current
sources under `src/`. This project models the logic both generations run on top of the
vault, as pure functions over immutable values:

- **Dates** (`calendar.dfy`, `datemath.dfy`):
  - ECMAScript `Date` arithmetic: day numbers from 1970-01-01, `MakeDay` overflow of
    months and days, and the civil date a day number denotes;
  - the age in whole years and the detailed "Y years, M months old";
  - the days until the next birthday, in both the legacy and the current form;
  - the "Month D" birthday label, from an ISO parse or from `split("-")` and `Number`;
  - the "N days" label since the last interaction.
- **The contact list** (`contacts.dfy`, `table.dfy`):
  - one record per note that has a header, with its defaults;
  - the relationship types in use;
  - the two row comparators and the sorted copy they produce;
  - the sort-header state, the arrows and the rendered cells;
  - the `refresh` latch and the contacts-folder test.
- **One contact's page** (`contactpage.dfy`, `fields.dfy`, `frontmatter.dfy`, `note.dfy`):
  - interactions kept newest first;
  - add, edit and delete by position;
  - custom fields, and the standard/system/custom partition of header keys;
  - the input each field gets and the key its edit is saved under;
  - the two phone normalisers;
  - the merge of the record into the header;
  - the legacy hand-written header serialiser and the regular expressions that find the
    header.
- **Settings and the new-contact dialog** (`settings.dfy`, `addcontact.dfy`):
  - the relationship-type vocabulary (add, rename, delete);
  - folder suggestions and the default-sort options;
  - the record the dialog builds, its guard, and the path and text of the new note.

The generic modules model the JavaScript runtime the plugin leans on:

- `text.dfy`: `toLowerCase`, `trim`, `includes`, `split`, `join`, `Number` on integers,
  and `localeCompare` as code-point order;
- `optional.dfy`: values that may be null or undefined;
- `seqs.dfy`: `filter`, `indexOf`, `splice`, and `Array.from(new Set(...))`;
- `sorting.dfy`: `sort` with a comparator, as a stable insertion sort on a copy.

"Today" is a parameter, a valid calendar date. Where a result depends on the time of day,
the milliseconds since local midnight are a parameter too. The host's YAML writer is a
function parameter. The header a note yields is a value of the model, an ordered list of
properties. The local timezone is taken to be UTC.

Two source quirks are reproduced as written rather than fixed:

- **Stale positions in the interaction list.** The list hands edit and delete the
  position of an entry in its sorted copy, while the handlers apply that position to the
  stored array (`ContactPage.ShownIndexMismatch`; the intended edits are
  `ContactPage.DeleteShown` and `ContactPage.EditShown`). In the legacy plugin
  (main.ts:895-955) the stored array is never sorted, so the mismatch persists. In the
  current plugin it shows whenever the stored array is out of order, as in a note written
  by hand. The current save sorts the stored array, so after a save the two orders agree (`ContactPage.ShownOrderIsStoredAfterSave`).
- **Deleting a type that is no longer listed.** `indexOf` gives -1, and `splice(-1, 1)`
  then removes the last entry (`Settings.DeleteType`).

Where the plugin's documented behaviour and its code differ, the model follows the code:

- A header without a name gives a contact named "Unknown"; it is not left out.
- The current table comparator keeps nulls last in both directions; it does not invert
  them for a descending sort.
- The detailed age has years and months only, with no days.
- The list view has no filtering step; every contact is shown.

## Model

| member | source | states |
|---|---|---|
| `AddContact.OptionalEntry` | src/modals/AddContactModal.ts:102-106 | An optional input contributes its entry exactly when it is non-empty, with the input as its value. |
| `AddContact.FormRecord` | src/modals/AddContactModal.ts:98-106 | The record starts with the name and holds at most the five form fields. |
| `AddContact.FormRecordFields` | src/modals/AddContactModal.ts:98-106 | Reading the record back gives the name, and each optional field exactly when its input was non-empty. |
| `AddContact.Submit` | src/modals/AddContactModal.ts:108-111 | The dialog submits exactly when the name is non-empty, and a submitted record has a truthy name. |
| `AddContact.ContactPath` | src/modals/AddContactModal.ts:116-117 | The new note's path lies inside the contacts folder: the folder and a slash, followed by exactly the name and `.md`. |
| `AddContact.ContactPathInjective` | src/modals/AddContactModal.ts:116-117 | Within one folder, two names give the same path exactly when they are the same name. |
| `AddContact.CreateContact` | src/modals/AddContactModal.ts:115-127 | A note is created exactly for a non-empty name, at the folder, a slash, the name and `.md`, and opening it reads back the header the YAML writer produced. |
| `Calendar.Normalize` | src/services/ContactOperations.ts:101-107 | `Date.UTC` with any month and day lands on a real date whose day number is ECMAScript's `MakeDay`; in-range fields are kept as given. |
| `Calendar.OverflowIntoNextMonth` | src/services/ContactOperations.ts:77 | A day past a month's end that fits in the next month is that day of the next month. |
| `Calendar.LeapDayRollsOver` | src/services/ContactOperations.ts:101-107 | February 29 of a common year becomes March 1. |
| `Calendar.NextYearSameDay` | src/services/ContactOperations.ts:111 | Moving a date on one year adds 365 days, or 366 across a February 29. |
| `Calendar.DayNumberOrder` | src/services/ContactOperations.ts:110 | Comparing instants at midnight orders valid dates as the calendar does, and equal instants are equal dates. |
| `ContactPage.InteractionCmp` | src/components/InteractionView.ts:13-15 | The newest-first comparator is positive exactly when the second date is later and zero exactly for equal dates; an invalid date compares as zero. |
| `ContactPage.InteractionCmpAntisymmetric` | src/components/InteractionView.ts:14 | Swapping two interactions negates their comparison. |
| `ContactPage.InteractionCmpConnex` | src/components/InteractionView.ts:13-15 | The comparator never asks for both orders of a pair. |
| `ContactPage.SortInteractions` | src/components/InteractionView.ts:13-15 | The shown list is a permutation of the stored one, ordered by the comparator. |
| `ContactPage.DaysNonIncreasing` | src/components/InteractionView.ts:13-15 | In the sorted list of dated entries, later positions never hold later days. |
| `ContactPage.NewestFirst` | src/components/InteractionView.ts:13-15 | When all dates are valid, no entry of the shown list is followed by a later one. |
| `ContactPage.SaveContactData` | src/views/ContactPageView/index.ts:425-442 | Saving sorts the stored interactions newest first as a permutation, leaves every other property alone, and writes every record property into the header while keeping the header's other properties; a truthy non-array `interactions` makes the sort throw and nothing is saved. |
| `ContactPage.SaveTwice` | src/views/ContactPageView/index.ts:428-441 | A second save leaves the record as the first one left it. |
| `ContactPage.ShownOrderIsStoredAfterSave` | src/components/InteractionView.ts:13-18 | After a save, the list shows the entries in stored order, so a shown position is the stored position. |
| `ContactPage.AddInteraction` | src/views/ContactPageView/index.ts:463-466 | Adding creates the list when missing and appends exactly one entry; no other property changes. |
| `ContactPage.EditInteraction` | src/views/ContactPageView/index.ts:482-485 | Editing replaces only the entry at the index; the length and every other entry and property are unchanged. |
| `ContactPage.DeleteInteraction` | src/views/ContactPageView/index.ts:493-494 | Deleting removes only the entry at the index, shifting the later ones up; an index past the end changes nothing, and a record without a list makes the call throw. |
| `ContactPage.DeleteUndoesAdd` | src/views/ContactPageView/index.ts:458-497 | Deleting the entry just added restores the stored list. |
| `ContactPage.EditBack` | src/views/ContactPageView/index.ts:485 | Editing an entry back to its old value restores the stored list. |
| `ContactPage.ShownIndexMismatch` | src/components/InteractionView.ts:13-18 | With two dated entries stored oldest first, the list shows the newer first, and deleting that first row removes the older entry. |
| `ContactPage.DeleteShown` | src/components/InteractionView.ts:64-74 | Deleting a shown row removes exactly one copy of the entry that row shows and keeps every other entry and property. |
| `ContactPage.EditShown` | src/components/InteractionView.ts:64-74 | Editing a shown row swaps exactly one copy of the entry that row shows for the new one and keeps every other entry and property. |
| `ContactPage.DeleteShownRemovesShownEntry` | src/components/InteractionView.ts:13-18 | With two dated entries stored oldest first, deleting the first shown row removes the newer entry, the one shown there. |
| `ContactPage.SubmittedFieldName` | src/modals/AddFieldModal.ts:20-21 | The dialog submits exactly the non-empty names, lower-cased. |
| `ContactPage.AddCustomField` | src/views/ContactPageView/index.ts:445-456 | A field that is absent or falsy becomes `""`; a truthy field is left alone and a notice is reported; no other property changes. |
| `ContactPage.AddCustomFieldTwice` | src/views/ContactPageView/index.ts:447-450 | Adding the same field twice has the effect of adding it once. |
| `ContactPage.UpdateContactData` | src/views/ContactPageView/index.ts:499-502 | Updating a field sets it in both the record and the header and keeps the header's other properties; it fails exactly when the save's sort throws, which for the `interactions` field means any non-empty text. |
| `ContactPage.Heading` | src/views/ContactPageView/index.ts:100-106 | The page shows a contact exactly when its name is truthy, headed by that name. |
| `Contacts.LastInteraction` | src/services/ContactOperations.ts:30-33 | Null without interactions or with an empty list; otherwise the "N days" label of the first entry's date. |
| `Contacts.ToContact` | src/services/ContactOperations.ts:35-46 | Building the record throws exactly when the birthday is truthy but not a string. Otherwise the record keeps the note's path, defaults the name to "Unknown" and birthday and relationship to `""`, and derives age, countdown, label and last interaction from the birthday it shows. |
| `Contacts.RecordOf` | src/services/ContactOperations.ts:35-46 | Building a note's record fails exactly when that note's birthday throws. |
| `Contacts.ContactsOf` | src/services/ContactOperations.ts:18-48 | The loop fails exactly when some note with a header has a birthday that throws; otherwise the records are those of the notes with a header, one each, in folder order. |
| `Contacts.GetContacts` | src/services/ContactOperations.ts:8-51 | A missing folder gives no contacts; otherwise the records of its notes with a header, or a rejection when one of them throws. |
| `Contacts.GetContactsCoversNotes` | src/services/ContactOperations.ts:23-48 | When the list is built, every note with a header has a record carrying its path, and every record carries such a note's path. |
| `Contacts.Relationships` | src/services/ContactOperations.ts:130-131 | The relationship column of the contacts, position by position. |
| `Contacts.GetContactTypes` | src/services/ContactOperations.ts:128-136 | The types hold no empty string and no duplicate; each is some contact's relationship, every non-empty relationship is among them, and they come in the order of their first appearance among the contacts. |
| `Contacts.TypesInFirstOrder` | src/services/ContactOperations.ts:130-135 | Filtering out empty relationships and then removing duplicates keeps the types in order of first appearance in the relationship column. |
| `Contacts.TypesCoverRelationships` | src/services/ContactOperations.ts:130-135 | The types are exactly the non-empty relationships of the contacts. |
| `DateMath.ParseDate` | src/services/ContactOperations.ts:56-57 | Only the `YYYY`, `YYYY-MM` and `YYYY-MM-DD` forms parse. A missing month or day is 1. The month must lie in 1..12 and the day in 1..31, and the date is that of `MakeDay`, so a day past the month's end rolls over. |
| `DateMath.RollDay` | src/services/ContactOperations.ts:56-57 | A day from 1 to 31 gives the date `MakeDay` names: the day itself when the month has it, otherwise the matching day of the next month of the same year. |
| `DateMath.ParseIsoDate` | src/services/ContactOperations.ts:56-57 | The reading of a date string with a four-digit year: only a string of the four-two-two digit shape parses, and what it parses to is a real calendar date. |
| `DateMath.ParseDateOfIso` | src/services/ContactOperations.ts:56-57 | On a string naming a real day, the engine's reading agrees with the strict one. |
| `DateMath.IsoDateString` | src/components/ContactFields.ts:31-34 | A date's ISO text has the four-two-two digit shape. |
| `DateMath.IsoDateRoundTrip` | src/components/ContactFields.ts:31-34 | Parsing the ISO text of a real date gives the date back. |
| `DateMath.IsoDateStringOfParse` | src/components/ContactFields.ts:31-34 | Printing a parsed ISO date gives back the text it was parsed from. |
| `DateMath.InputDate` | src/components/ContactFields.ts:31 | A date input holds a date only when its value has a year of four or more digits above zero, a two-digit month and day naming a real day, and lies in the range a `Date` holds; the year then has at most six digits. |
| `DateMath.InputDateOfIso` | src/components/ContactFields.ts:31 | On a value with a four-digit year, the date input's reading is the strict one, except that the year 0 names no date. |
| `DateMath.IsoDayText` | src/components/ContactFields.ts:33 | `toISOString` up to the `T` writes a year up to 9999 in four digits and a later one as a plus sign and six digits. |
| `DateMath.IsoDayTextRoundTrip` | src/components/ContactFields.ts:31-33 | The saved day text names the day the input held again: read whole for a four-digit year, or after its plus sign for a later one. |
| `DateMath.InputDateOfFields` | src/components/ContactFields.ts:31 | A value whose pieces name a real day of a year from 1 to 200000 is read as that day. |
| `DateMath.Age` | src/services/ContactOperations.ts:53-71 | The age is null exactly for an empty or unparseable birthday. |
| `DateMath.AgeCountsAnniversaries` | src/services/ContactOperations.ts:60-68 | The age is the number of anniversaries reached: the age-th anniversary is not after today and the next one is. |
| `DateMath.AgeNegativeIffUnborn` | src/services/ContactOperations.ts:60-68 | The age is negative exactly when today is before the birth date. |
| `DateMath.ThisYearsBirthday` | src/services/ContactOperations.ts:101-107 | This year's birthday is a real date of today's year at `MakeDay` of the birth month and day; February 29 in a common year becomes March 1. |
| `DateMath.DaysUntil` | src/services/ContactOperations.ts:87-117 | The countdown is a whole number of days from 0 to 365. |
| `DateMath.DaysUntilBirthday` | src/services/ContactOperations.ts:87-94 | The countdown is null exactly for an empty or invalid birthday. |
| `DateMath.NextYearGap` | src/services/ContactOperations.ts:110-112 | Next year's occurrence lies 365 or 366 days after this year's. |
| `DateMath.OccurrenceBounds` | src/services/ContactOperations.ts:109-116 | The occurrence counted to lies between today and a year from today, strictly after today once this year's has passed. |
| `DateMath.DaysUntilZeroIff` | src/services/ContactOperations.ts:97-116 | The countdown is zero exactly on the day this year's birthday falls on. |
| `DateMath.DaysUntilZeroOnBirthday` | src/services/ContactOperations.ts:97-116 | Except for February 29, the countdown is zero exactly when today has the birthday's month and day. |
| `DateMath.DaysUntilIsNextOccurrence` | src/services/ContactOperations.ts:109-116 | Except for February 29, the countdown ends on a day with the birthday's month and day, and no day from today up to it has them. |
| `DateMath.DaysUntilTarget` | src/services/ContactOperations.ts:101-112 | Except for February 29, the countdown ends on this year's occurrence while it is ahead and on next year's once it has passed; `DateMath.DaysUntilLeapDayTarget` states the February 29 case. |
| `DateMath.DaysUntilLeapDayTarget` | src/services/ContactOperations.ts:101-112 | For a February 29 birthday, the countdown ends on this year's (rolled-over) birthday while it is ahead, and on March 1 of next year once it has passed, never on a February 29 of next year. |
| `DateMath.NextYearRebuilt` | src/services/ContactOperations.ts:101-112 | Next year's birthday built from the birth month and day is this year's moved on a year, except for a February 29 birthday before a leap year, where it is that February 29, one day earlier. |
| `DateMath.DaysUntilRebuilt` | src/services/ContactOperations.ts:109-112 | The countdown with next year's birthday built afresh, as the comment there intends: from 0 to 365, and zero exactly on this year's birthday. |
| `DateMath.DaysUntilRebuiltAgrees` | src/services/ContactOperations.ts:101-112 | The intended countdown equals the source's except for a passed February 29 birthday before a leap year, where it is one day shorter and ends on that February 29. |
| `DateMath.LeapDayCountdownExample` | src/services/ContactOperations.ts:109-112 | Born 2000-02-29, asked on 2023-03-02: the source counts 365 days, while 2024-02-29 is 364 days away and the intended countdown says 364. |
| `DateMath.CeilDiv` | main.ts:463 | `Math.ceil` of a quotient is the least integer whose multiple reaches the dividend. |
| `DateMath.LegacyDaysUntilBirthday` | main.ts:442-466 | The legacy countdown is null exactly for an empty or invalid birthday. |
| `DateMath.LegacyDaysUntil` | main.ts:449-463 | The legacy countdown from a parsed birthday; `DateMath.LegacyAgreesAtMidnight` shows it equals the current one at midnight and `DateMath.LegacyNeverZeroAfterMidnight` that it is at least one once the day has begun. |
| `DateMath.LegacyAgreesAtMidnight` | main.ts:449-463 | At midnight the legacy countdown equals the current one. |
| `DateMath.LegacyNeverZeroAfterMidnight` | main.ts:456-463 | Once the day has begun, the legacy countdown is at least one, even on the birthday. |
| `DateMath.LegacyBirthdayTodayExample` | main.ts:456-463 | On the birthday, one millisecond after midnight, the legacy countdown is 365 where the current one is 0. |
| `DateMath.LegacyFormatBirthday` | main.ts:431-440 | The legacy label is `""` for an empty string, the string itself when it does not parse, and the month name and day otherwise. |
| `DateMath.FullYear` | src/services/ContactOperations.ts:77 | The local-date constructor moves years 0 to 99 to the 1900s and keeps every other year. |
| `DateMath.LocalDate` | src/services/ContactOperations.ts:77-79 | Whatever date the constructor gives on numbers is a real calendar date. |
| `DateMath.LocalDateOfPieces` | src/services/ContactOperations.ts:76-79 | Fewer than three pieces give no date; any date given is a real date. |
| `DateMath.FormatBirthday` | src/services/ContactOperations.ts:73-85 | The label is `""` for an empty string, the string itself when its pieces name no date, and otherwise the month name and day of the date they name. |
| `DateMath.SplitIsoShape` | src/services/ContactOperations.ts:76 | An ISO date splits on dashes into its year, month and day digits. |
| `DateMath.IsoPieceNumbers` | src/services/ContactOperations.ts:76 | The three pieces of an ISO date read as their digit values. |
| `DateMath.LocalDateOfIsoPieces` | src/services/ContactOperations.ts:76-77 | From year 1 on, the pieces of an ISO date name its month and day in the year the constructor reads. |
| `DateMath.FormatBirthdayAgreesOnIsoDates` | src/services/ContactOperations.ts:73-85 | From year 1 on, the current label of a real ISO date equals the legacy label. |
| `DateMath.LocalDateOfPiecesAgreesOnIsoDates` | src/components/InteractionView.ts:32-33 | From year 100 on, the pieces of an ISO date name the date it parses to. |
| `DateMath.FormatBirthdayFebruaryOverflow` | src/services/ContactOperations.ts:76-84 | A February day past the month's end is labelled as the matching day of March. |
| `DateMath.LegacyFormatBirthdayFebruaryOverflow` | main.ts:433-434 | The legacy label rolls such a day into March too, as the current one does. |
| `DateMath.LegacyFormatBirthdayDayPast31` | main.ts:433-437 | A day number past 31 makes the date invalid, and the legacy label gives the string back unchanged. |
| `DateMath.DaysAgo` | src/services/ContactOperations.ts:119-123 | The floored day difference is the difference of day numbers whatever the time of day, and none for an invalid date. |
| `DateMath.FormatDaysAgo` | src/services/ContactOperations.ts:119-126 | The label is the day difference followed by " days", or "NaN days" for an invalid date. |
| `DateMath.DetailedAgeParts` | src/views/ContactPageView/index.ts:275-287 | After the borrows, months lie in 0..11 and years and months together count the completed months. |
| `DateMath.DetailedAgeYearsIsAge` | src/views/ContactPageView/index.ts:275-287 | The years of the detailed age are the age the table shows. |
| `DateMath.DetailedAge` | src/views/ContactPageView/index.ts:268-290 | The text is "Y years, M months old" of the completed months, or NaN in both places for an invalid birthday. |
| `Fields.SpecialInput` | src/constants.ts:29-33 | Exactly birthday, phone and email have a special input. |
| `Fields.SystemFieldsAreStandard` | src/constants.ts:19-26 | Every system field is a standard field. |
| `Fields.StandardFieldsDistinct` | src/constants.ts:4-16 | The standard field values are pairwise distinct. |
| `Fields.SpecialFieldsAreShown` | src/constants.ts:19-33 | The fields with a special input are standard and not system fields. |
| `Fields.ShownStandardFieldsAreNonSystem` | src/views/ContactPageView/index.ts:129-131 | The standard fields shown on their own are exactly the standard fields that are not system fields. |
| `Fields.FieldPartition` | src/views/ContactPageView/index.ts:141-146 | Every header key is, by its lower-cased form, exactly one of system, shown standard or custom. |
| `Fields.CustomFields` | src/views/ContactPageView/index.ts:145-153 | The custom list holds exactly the header's custom entries, in header order. |
| `Fields.CustomFieldsExcludeKnown` | src/views/ContactPageView/index.ts:141-146 | No custom entry is a standard field, whatever its case. |
| `Fields.FieldKindAsWritten` | src/components/ContactFields.ts:10-16 | The date input goes exactly to "Birthday", the phone input exactly to "Phone", and every other label gets text. |
| `Fields.NoSpecialInputRendered` | src/components/ContactFields.ts:10-16 | As written, no label the page passes reaches the date or phone input. |
| `Fields.FieldKind` | src/components/ContactFields.ts:10-16 | With the label compared lower-cased, the date input goes exactly to "birthday" and the phone input exactly to "phone". |
| `Fields.FieldKindMatchesSpecialInputs` | src/constants.ts:29-33 | The lower-cased dispatch gives birthday and phone the inputs the special-input table names, and keeps the capitalised labels' inputs. |
| `Fields.SaveKey` | src/components/ContactFields.ts:29-76 | A text input saves under the lower-cased label. |
| `Fields.SaveKeyIsLowerLabel` | src/components/ContactFields.ts:35-75 | Whatever input a label gets, its edit is saved under the lower-cased label. |
| `Fields.BirthdayValue` | src/components/ContactFields.ts:29-36 | The date input saves its raw value when it holds no date; otherwise text naming the same day, in the four-two-two digit shape up to the year 9999 and with a plus sign and a six-digit year after it. |
| `Fields.BirthdayValueUnchanged` | src/components/ContactFields.ts:31-34 | A value with a four-digit year, or one that names no date, is saved exactly as the input holds it. |
| `Fields.BirthdayValueExpanded` | src/components/ContactFields.ts:31-34 | A year of five or more digits is saved as a plus sign, the year in six digits, and the value's month and day. |
| `Fields.BirthdayValueYear10000` | src/components/ContactFields.ts:31-34 | The value "10000-01-01" is saved as "+010000-01-01". |
| `Fields.SanitizePhone` | src/components/ContactFields.ts:50-53 | The sanitised number holds only digits, '+' and '-', exactly the allowed characters of the input, in their original order. |
| `Fields.SanitizePhoneIdempotent` | src/components/ContactFields.ts:52 | Sanitising twice is sanitising once. |
| `Fields.SanitizePhoneKeeps` | src/components/ContactFields.ts:52 | A number of allowed characters is unchanged, and sanitising works piece by piece. |
| `Fields.Digits` | main.ts:1005 | The digits of a value, no longer than it. |
| `Fields.FormatPhone` | main.ts:1003-1018 | A value without digits is unchanged; otherwise the result holds only digits and dashes, and its digits are the first ten of the input. |
| `Fields.FormatPhoneTwoGroups` | main.ts:1009-1010 | Four to six digits become `ddd-rest`, keeping every digit. |
| `Fields.FormatPhoneThreeGroups` | main.ts:1011-1016 | Seven or more digits become `ddd-ddd-dddd`, keeping the first ten. |
| `Fields.FormatPhoneIdempotent` | main.ts:1003-1018 | Formatting a formatted number changes nothing. |
| `Frontmatter.Get` | src/views/ContactPageView/index.ts:136 | A property reads as undefined exactly when the record lacks it, and otherwise as one of its entries. |
| `Frontmatter.Merge` | src/views/ContactPageView/index.ts:436-441 | `Object.assign(frontmatter, contactData)` as a property-by-property write; `Frontmatter.MergeGet` and `Frontmatter.MergeKeys` state what it yields. |
| `Frontmatter.Set` | src/views/ContactPageView/index.ts:500 | Setting a property makes it read as the value and leaves every other property; an existing property keeps its place, a new one goes last. |
| `Frontmatter.SetCurrentValue` | src/views/ContactPageView/index.ts:500 | Writing a property's own value back leaves the record unchanged. |
| `Frontmatter.MergeGet` | src/views/ContactPageView/index.ts:436-441 | After `Object.assign`, every record property has the record's value and every other header property keeps its own. |
| `Frontmatter.MergeKeys` | src/views/ContactPageView/index.ts:439 | The merge keeps every property of both the header and the record, and adds no other. |
| `Frontmatter.TextOr` | src/services/ContactOperations.ts:36-39 | A falsy property gives the fallback, and a non-empty string property gives itself. |
| `Note.CloseFrom` | src/views/ContactPageView/index.ts:83 | The lazy group ends at the earliest closing fence from the given position, or nowhere when there is none. |
| `Note.MatchAt` | main.ts:1053 | A match starts with the opening fence and ends just after a closing fence, at least the minimum length later. |
| `Note.HeaderText` | src/views/ContactPageView/index.ts:83-84 | A header is found only in a note that starts with the opening fence. |
| `Note.FirstMatch` | main.ts:1053 | The unanchored search returns a position at or after the start where a match begins, with its end. |
| `Note.SplitFrom` | main.ts:1053 | The split has one part exactly when no fenced block follows. |
| `Note.SplitByFence` | main.ts:1053 | `split` on the fence expression with its capture group; `Note.SplitFrom` and `Note.SplitByFenceThirdPart` state its parts. |
| `Note.SplitByFenceThirdPart` | main.ts:1053-1055 | The split has three or more parts exactly when the note holds a fenced block; its third part runs from the first block's end to the next block or to the end of the note. |
| `Note.YamlLine` | main.ts:1057-1072 | Every property except an `interactions` list is written as `key: value`. |
| `Note.YamlText` | main.ts:1057-1075 | A non-empty record gives a non-empty header text. |
| `Note.SaveLegacyAsWritten` | main.ts:1046-1081 | The legacy save writes exactly when the note holds a fenced block. |
| `Note.Body` | main.ts:1075 | A note has a body after its header exactly when it holds a fenced block. |
| `Note.SaveLegacy` | main.ts:1052-1075 | The serialiser writes exactly when the note holds a fenced block: the new header between fences, then the whole body. |
| `Note.SaveLegacyAsWrittenDropsBody` | main.ts:1053-1075 | When the body holds a second fenced block, the legacy save keeps only the text before it. |
| `Note.SaveLegacyAsWrittenExample` | main.ts:1053-1075 | A note whose body holds a rule pair loses the text from the second rule on. |
| `Note.SaveLegacyRoundTrip` | main.ts:1053-1075 | After saving with a header free of closing fences, the note keeps its body, and saving again gives what saving the original would. |
| `Note.NewNoteContent` | src/modals/AddContactModal.ts:127 | A new note starts with the opening fence. |
| `Note.NewNoteHeaderRoundTrip` | src/modals/AddContactModal.ts:126-127 | Opening a new note reads back the header it was written with, when that holds no closing fence. |
| `Seqs.Filter` | src/views/FriendTrackerView/settings.ts:25-27 | The kept elements are exactly the input's elements that pass, and no more of them. |
| `Seqs.FilterIsSubsequence` | src/views/FriendTrackerView/settings.ts:25-27 | Filtering keeps the original order. |
| `Seqs.Dedupe` | src/services/ContactOperations.ts:135 | The distinct values hold no duplicate and exactly the input's values, form a subsequence of the input, and come in the order of their first occurrence. |
| `Seqs.FilterKeepsFirstOrder` | src/services/ContactOperations.ts:130-132 | Filtering keeps the order of first occurrence of the values it keeps. |
| `Seqs.IndexOf` | src/views/FriendTrackerView/settings.ts:227-230 | `indexOf` is the first position holding the value, or -1 exactly when it is absent. |
| `Seqs.SpliceOne` | src/views/FriendTrackerView/settings.ts:231-234 | `splice(i, 1)` removes the element at `i`, counting a negative start from the end, and nothing past the end. |
| `Settings.TypeName` | src/views/FriendTrackerView/settings.ts:126-130 | A blank input gives no type; otherwise a non-empty lower-case name. |
| `Settings.AddType` | src/views/FriendTrackerView/settings.ts:124-144 | The trimmed, lower-cased value is appended unless blank or already listed, so no duplicate appears and nothing else changes. |
| `Settings.DeleteType` | src/views/FriendTrackerView/settings.ts:226-237 | A listed type is removed at its first position; an unlisted one removes the last entry; a non-empty list loses exactly one entry. |
| `Settings.DeleteTypeRemoves` | src/views/FriendTrackerView/settings.ts:227-234 | On a duplicate-free list, deleting a type removes it and keeps every other. |
| `Settings.DeleteUndoesAdd` | src/views/FriendTrackerView/settings.ts:227-234 | Deleting a type just added restores the list. |
| `Settings.RenameType` | src/views/FriendTrackerView/settings.ts:192-217 | A rename that is no change leaves the list; otherwise the lower-cased name is listed and every other entry is an old one that does not read as it. |
| `Settings.RenameTypeNoDuplicates` | src/views/FriendTrackerView/settings.ts:202-214 | On a duplicate-free list the rename keeps the list duplicate-free. |
| `Settings.RenameTypeKeepsOthers` | src/views/FriendTrackerView/settings.ts:203-211 | Entries that differ from the new name, ignoring case, survive the rename. |
| `Settings.RenameAsWritten` | src/views/FriendTrackerView/settings.ts:203-214 | The rename as the source writes it, with a missing position shown as an absent entry; `Settings.RenameAsWrittenAgrees` and `Settings.RenameAsWrittenExample` state where it agrees with and departs from `Settings.RenameType`. |
| `Settings.RenameAsWrittenAgrees` | src/views/FriendTrackerView/settings.ts:203-214 | When nothing before the renamed entry is dropped, the rename as written is the intended one. |
| `Settings.RenameAsWrittenExample` | src/views/FriendTrackerView/settings.ts:203-214 | Renaming "b" to "A" in ["a", "b"] should give ["a"]; as written, "b" survives and "a" is appended. |
| `Settings.FolderSuggestions` | src/views/FriendTrackerView/settings.ts:20-28 | The suggestions are exactly the folders containing the input, ignoring case, in original order. |
| `Settings.FolderSuggestionsEmptyInput` | src/views/FriendTrackerView/settings.ts:25-27 | An empty input suggests every folder, and the input's case does not matter. |
| `Settings.SortColumnOptionsDistinct` | src/views/FriendTrackerView/settings.ts:50-60 | Six distinct columns are offered: every column but the birthday label. |
| `Sorting.SortBy` | src/views/FriendTrackerView/TableView.ts:97 | Sorting a copy gives a permutation of the input. |
| `Sorting.SortBySorted` | src/views/FriendTrackerView/TableView.ts:97 | With a comparator that never asks for both orders, the result is sorted. |
| `Sorting.SortBySortedIdentity` | src/views/ContactPageView/index.ts:430 | Sorting an already sorted list changes nothing. |
| `Sorting.SortByIdempotent` | main.ts:349 | Sorting twice is sorting once. |
| `Table.HandleSort` | src/views/FriendTrackerView/index.ts:35-43 | A click sorts by the clicked column: the same column flips the direction, a new one sorts ascending. |
| `Table.HandleSortTwice` | src/views/FriendTrackerView/index.ts:35-43 | Two clicks on the sorted column restore the configuration; two clicks on a new one sort it descending. |
| `Table.Indicator` | src/views/FriendTrackerView/TableView.ts:73-81 | Only the sorted column shows an arrow, up for ascending and down for descending. |
| `Table.OneIndicator` | src/views/FriendTrackerView/TableView.ts:48-81 | The header shows one arrow when the sorted column has a button, and none otherwise. |
| `Table.ColumnValue` | src/views/FriendTrackerView/TableView.ts:98-99 | Age and countdown are numbers or null; the other columns are text or null, and name, birthday, label and relationship are always text. |
| `Table.ValueText` | src/views/FriendTrackerView/TableView.ts:111 | `String` of a text is itself, of a number its decimal numeral. |
| `Table.LegacyKey` | main.ts:350-359 | Null compares as `""`, and every key is lower case. |
| `Table.LegacyCompare` | main.ts:349-363 | The legacy comparison is zero exactly for equal lower-cased texts, and ascending it is their text comparison. |
| `Table.LegacyDescNegates` | main.ts:361-362 | Descending negates exactly the ascending comparison. |
| `Table.LegacyCaseInsensitive` | main.ts:358-361 | Values that differ only in case compare equal. |
| `Table.LegacyConnex` | main.ts:358-362 | The legacy comparator never asks for both orders of a pair. |
| `Table.LegacySortContacts` | main.ts:345-364 | The legacy sort returns a permutation of the contacts, ordered by the legacy comparator. |
| `Table.LegacyEmptyFirst` | main.ts:353-361 | Ascending, every null or empty value comes before every non-empty one. |
| `Table.LegacyAgeOrderExample` | main.ts:358-361 | Compared as text, age 10 sorts before age 9 ascending. |
| `Table.CompareAsWritten` | src/views/FriendTrackerView/TableView.ts:97-112 | A null first value sorts after; otherwise a null second value sorts before. |
| `Table.CompareAsWrittenInconsistent` | src/views/FriendTrackerView/TableView.ts:102-103 | Two null values each ask to go after the other. |
| `Table.Compare` | src/views/FriendTrackerView/TableView.ts:97-112 | Two nulls compare equal; every other pair compares as written. |
| `Table.CompareNumbers` | src/views/FriendTrackerView/TableView.ts:106-110 | Two numbers compare by value: ascending puts the smaller first, descending the larger; equal values compare equal. |
| `Table.CompareDescNegates` | src/views/FriendTrackerView/TableView.ts:106-111 | For two values present, descending negates the ascending comparison. |
| `Table.CompareAntisymmetric` | src/views/FriendTrackerView/TableView.ts:102-111 | Swapping two contacts negates their comparison. |
| `Table.CompareTransitive` | src/views/FriendTrackerView/TableView.ts:102-111 | "Not after" is transitive. |
| `Table.SortContacts` | src/views/FriendTrackerView/TableView.ts:97-112 | The rows are a permutation of the contacts, ordered by the comparator. |
| `Table.NullsLast` | src/views/FriendTrackerView/TableView.ts:102-103 | In either direction, every contact with a value comes before every contact without one. |
| `Table.NumbersInOrder` | src/views/FriendTrackerView/TableView.ts:108-110 | Sorting by age or countdown, any two values present are in order, however far apart. |
| `Table.AgeOrderExample` | src/views/FriendTrackerView/TableView.ts:108-110 | Compared as numbers, age 9 sorts before age 10 ascending. |
| `Table.RowOf` | src/views/FriendTrackerView/TableView.ts:114-138 | A missing age, label, countdown or relationship shows "N/A"; a countdown shows as "n days"; the name is shown as it is. |
| `Table.Render` | src/views/FriendTrackerView/TableView.ts:27-43 | An empty list shows exactly the empty-state message; otherwise one row per contact, in sorted order. |
| `Table.RenderShowsEveryContact` | src/views/FriendTrackerView/TableView.ts:97-114 | Every contact gets a row, and every row belongs to a contact. |
| `Table.Enter` | src/views/FriendTrackerView/index.ts:97-99 | A refresh starts exactly when the latch is free, and takes it. |
| `Table.Release` | src/views/FriendTrackerView/index.ts:110-112 | The `finally` block always frees the latch, counting the refresh as finished. |
| `Table.Run` | src/views/FriendTrackerView/index.ts:97-113 | Counts of begun and finished refreshes never go down. |
| `Table.RunKeepsInvariant` | src/views/FriendTrackerView/index.ts:97-113 | From a consistent latch, at most one refresh is ever in flight. |
| `Table.CallAfterFinish` | src/views/FriendTrackerView/index.ts:110-112 | After a refresh ends, even by throwing, the next call renders. |
| `Table.IsContactFile` | src/views/FriendTrackerView/index.ts:115-118 | `startsWith(folder + "/")`; `Table.IsContactFileIff` states it as the folder, a slash and some rest. |
| `Table.IsContactFileIff` | src/views/FriendTrackerView/index.ts:115-118 | A path is a contact file exactly when it is the folder, a slash and some rest. |
| `Text.Lower` | src/views/FriendTrackerView/settings.ts:26 | Lower-casing keeps the length and folds each ASCII capital to its small letter, leaving every other character. |
| `Text.LowerFixedPoint` | src/views/FriendTrackerView/settings.ts:199-200 | A string equals its lower-case form exactly when it has no ASCII capital. |
| `Text.Trim` | src/views/FriendTrackerView/settings.ts:127 | `trim` keeps a slice whose both ends are not white space, and everything cut is white space. |
| `Text.ContainsAtOffset` | src/views/FriendTrackerView/settings.ts:26 | `includes` holds exactly when the needle occurs at some offset. |
| `Text.Split` | src/services/ContactOperations.ts:76 | `split` gives at least one piece and no piece holds the separator. |
| `Text.SplitJoin` | src/services/ContactOperations.ts:76 | Joining the pieces with the separator gives the string back. |
| `Text.JsNumber` | src/services/ContactOperations.ts:76 | `Number` reads a digit string as its value and a blank string as 0. |
| `Text.IntToString` | src/views/FriendTrackerView/TableView.ts:128 | A number's text starts with a digit exactly when it is not negative. |
| `Text.NatToStringRoundTrip` | src/views/FriendTrackerView/TableView.ts:135 | Reading a printed count back gives the count. |
| `Text.CodePointCompare` | src/views/FriendTrackerView/TableView.ts:111 | The comparison is -1, 0 or 1, and the empty string comes first. |
| `Text.CodePointCompareZeroIff` | src/views/FriendTrackerView/TableView.ts:111 | Two strings compare equal exactly when they are equal. |
| `Text.CodePointCompareAntisymmetric` | src/views/FriendTrackerView/TableView.ts:111 | Swapping two strings negates the comparison. |
| `Text.CodePointCompareTransitive` | src/views/FriendTrackerView/TableView.ts:111 | "Not after" is transitive. |

## Left out

- Vault, workspace and DOM work is not modelled. This covers reading, creating, renaming and trashing files; `metadataCache`; leaves and views; element creation and event wiring; textarea sizing; Markdown rendering; icons; notices. The contacts folder is a list of entries, each with its parsed header or none.
- `processFrontMatter` is not modelled: the header it reads is a parameter of `ContactPage.SaveContactData`, and the merge is modelled on that value.
- `parseYaml` and `stringifyYaml` are not modelled. A header is an ordered list of properties, and the YAML writer is a function parameter of `AddContact.CreateContact`.
- Only string, integer, boolean, null and interaction-list values are told apart.
- `Contacts.ToContact`: of the values that are not strings, only the birthday's is followed to its failure (`Contacts.BirthdayThrows`). The name and relationship are read through their text form, where the engine would keep the value itself in the record.
- Property order in the header is insertion order; the engine's rule that integer-like keys come first is not modelled.
- The clock and the timezone are not modelled: today's date, and where needed the milliseconds since midnight, are parameters, and local time is taken to be UTC.
- The date input's value sanitisation is not modelled. Its value is a parameter, and one that is not a valid date string is saved as given, where a browser would have emptied it.
- `DateMath.ParseDate`: only the date-only forms `YYYY`, `YYYY-MM` and `YYYY-MM-DD` are read. The date-time forms, the six-digit signed years and the engine's fallback parser for other strings give no date here. A birthday written as a date-time would give an age but not a countdown in the engine, because the countdown appends `T00:00:00Z` to it.
- `toLocaleDateString` is replaced by the English month names and the plain day number. The interaction list's short date format is not modelled.
- `Text.CodePointCompare`: `localeCompare` is modelled as comparison of code points, not the locale's collation.
- `Text.Lower`: `toLowerCase` is modelled as folding the ASCII capitals only. The engine folds every cased letter, and some change the length ("İ" becomes two code points). Where a string holds a non-ASCII capital the model can differ: adding the type "ÉCOLE" next to "école" appends it here, where the plugin sees it as listed. The same holds for `Settings.AddType`, `Settings.RenameType`, `Settings.FolderSuggestions`, `Fields.FieldPartition`, `Fields.CustomFields`, `Fields.SaveKey`, `Table.LegacyKey` and `Table.LegacyCaseInsensitive`.
- `Text.LowerFixedPoint`: "no upper-case letter" means no ASCII capital, as for `Text.Lower`.
- `Text.JsNumber`: `Number` is modelled on integers only. Fractions, exponents, hexadecimal and `Infinity` read as NaN here.
- The engine's sort algorithm is modelled as a stable insertion sort. Where a comparator is inconsistent, the order the engine picks is not modelled; `Table.CompareAsWrittenInconsistent` shows the inconsistency.
- `ContactPage.EditInteraction`: requires the index to lie within the stored list. The list hands out positions of a copy of the same length, so an out-of-range write cannot arise.
- `Settings.RenameType`: when the type is no longer listed, the source's write at index -1 creates a non-index property, which neither the list nor the saved settings see. The model keeps only the filtered list.
- The `email` entry of the special-input table is never used by the field dispatch. The model states this (`Fields.FieldKindAsWritten` never yields the email input).
- The name editor is not modelled. This covers the save of a changed name, the file rename and the "Unnamed Contact" fallback text after editing.
- The additional-notes section of the contact page and `normalizePath` are not modelled.
- The legacy `getContacts` is modelled by `Contacts.GetContacts`. Its records have no last-interaction field and are not sorted by that column. The legacy code hands a birthday that is not a string to `new Date` instead of throwing, so it builds a record where the model rejects; that case is not modelled for it.
- The legacy contact page's field list, which compares keys case-sensitively, is not modelled; the current page's field partition is.
- The legacy name editor, the add-contact and delete modals, and plugin loading and settings storage are not modelled.
- The `setTimeout` refresh on file change and the asynchronous interleavings of `refresh` are not modelled; only the latch is kept, as sequential state.

## Findings

| source | as written | input that shows it | evidently intended | confidence | as-written member | corrected member |
|---|---|---|---|---|---|---|
| main.ts:449-463 | This year's birthday is built at local midnight and compared with the current instant, so it counts as passed from the first millisecond of the day. | Born 1990-03-04, asked on 2024-03-04 at 00:00:00.001: the countdown is 365. | The countdown is 0 on the birthday, as in the current source (`DateMath.DaysUntilZeroIff`). | not executed | `DateMath.LegacyBirthdayTodayExample` | `DateMath.DaysUntil` |
| main.ts:354-361 | The legacy comparator compares every column as lower-cased text, ages and countdowns included. | Ages 10 and 9 sorted ascending: 10 comes first. | Numbers compare by value, as in the current source (`Table.NumbersInOrder`). | not executed | `Table.LegacyAgeOrderExample` | `Table.Compare` |
| src/views/FriendTrackerView/TableView.ts:102-103 | A null first value returns 1 before the second value is looked at, so two nulls each ask to go after the other. | Two contacts without a birthday, sorted by age: the comparator is 1 both ways round. | Two nulls compare equal and nulls stay last in both directions (`Table.NullsLast`). | not executed | `Table.CompareAsWritten` | `Table.Compare` |
| src/components/ContactFields.ts:10-16 | The date and phone inputs are chosen for the labels "Birthday" and "Phone", but the page passes the lower-case field names. | The field `birthday` gets a plain text input. | The label is compared lower-cased, so birthday and phone get the inputs the special-input table names (`Fields.FieldKindMatchesSpecialInputs`). | not executed | `Fields.NoSpecialInputRendered` | `Fields.FieldKind` |
| src/views/FriendTrackerView/settings.ts:203-214 | The new name is written at the renamed entry's old position, after the filter may have shifted it. | Renaming "b" to "A" in ["a", "b"] gives ["b", "a"]. | The renamed entry is replaced and clashing entries dropped, giving ["a"] (`Settings.RenameTypeNoDuplicates`). | not executed | `Settings.RenameAsWrittenExample` | `Settings.RenameType` |
| src/components/InteractionView.ts:13-18 | Edit and delete receive the row's position in the sorted copy the list shows and apply it to the stored array. | Stored [2020-01-01 entry, 2024-01-01 entry], as a hand-written note may hold them; deleting the first row shown (2024) removes the 2020 entry. | The row the user picked is the one removed or replaced. | not executed | `ContactPage.ShownIndexMismatch` | `ContactPage.DeleteShown` |
| src/services/ContactOperations.ts:109-112 | Once this year's birthday has passed, next year's is this year's date moved on a year, so a February 29 birthday that rolled over to March 1 stays on March 1. | Born 2000-02-29, asked on 2023-03-02: the countdown is 365, to 2024-03-01, while 2024-02-29 is 364 days away. | Next year's birthday is built from the birth month and day as this year's is, landing on February 29 when next year has one (`DateMath.DaysUntilRebuiltAgrees`). | not executed | `DateMath.LeapDayCountdownExample` | `DateMath.DaysUntilRebuilt` |
| main.ts:1053-1075 | The rewritten note keeps only the third part of the split, which ends where the next fenced block begins. | The note "---\na: 1\n---\nx\n---\ny\n---\n": the text from the second rule on is lost. | The whole body after the header is kept (`Note.SaveLegacyRoundTrip`). | not executed | `Note.SaveLegacyAsWrittenDropsBody` | `Note.SaveLegacy` |

=== FILE: addcontact.dfy ===
/** The new-contact dialog: the record built from the form, the guard on submitting it,
    and the note it creates in the contacts folder. */
module AddContact {
  import opened Optional
  import opened Text
  import opened Frontmatter
  import Table
  import Note

  /** The dialog's inputs, as typed. */
  datatype Form = Form(name: string, birthday: string, email: string, phone: string, relationship: string)

  /** An entry for an optional input, present only when the input is non-empty. */
  function OptionalEntry(key: string, input: string): (r: Fields)
    ensures input == "" <==> r == []
    ensures input != "" ==> r == [(key, Str(input))]
  {
    if input == "" then [] else [(key, Str(input))]
  }

  /** The record the dialog builds: `name` always, then `birthday`, `email`, `phone` and
      `relationship` when their inputs are non-empty. */
  function FormRecord(f: Form): (r: Fields)
    ensures 1 <= |r| <= 5 && r[0] == ("name", Str(f.name))
  {
    [("name", Str(f.name))] + OptionalEntry("birthday", f.birthday) + OptionalEntry("email", f.email)
    + OptionalEntry("phone", f.phone) + OptionalEntry("relationship", f.relationship)
  }

  /** The record holds the name, and each optional field exactly when its input is
      non-empty, with the input as its value. */
  lemma FormRecordFields(f: Form)
    ensures Get(FormRecord(f), "name") == Some(Str(f.name))
    ensures Get(FormRecord(f), "birthday") == (if f.birthday == "" then None else Some(Str(f.birthday)))
    ensures Get(FormRecord(f), "email") == (if f.email == "" then None else Some(Str(f.email)))
    ensures Get(FormRecord(f), "phone") == (if f.phone == "" then None else Some(Str(f.phone)))
    ensures Get(FormRecord(f), "relationship") == (if f.relationship == "" then None else Some(Str(f.relationship)))
  {
    RecordGet(f, "name");
    RecordGet(f, "birthday");
    RecordGet(f, "email");
    RecordGet(f, "phone");
    RecordGet(f, "relationship");
  }

  /** Reading one key of the record: the last entry for it wins. */
  lemma RecordGet(f: Form, k: string)
    ensures Get(FormRecord(f), k) ==
              if k == "relationship" && f.relationship != "" then Some(Str(f.relationship))
              else if k == "phone" && f.phone != "" then Some(Str(f.phone))
              else if k == "email" && f.email != "" then Some(Str(f.email))
              else if k == "birthday" && f.birthday != "" then Some(Str(f.birthday))
              else if k == "name" then Some(Str(f.name))
              else None
  {
    var a := [("name", Str(f.name))];
    var b := a + OptionalEntry("birthday", f.birthday);
    var c := b + OptionalEntry("email", f.email);
    var d := c + OptionalEntry("phone", f.phone);
    assert FormRecord(f) == d + OptionalEntry("relationship", f.relationship);
    assert Get(a, k) == if k == "name" then Some(Str(f.name)) else None;
    AppendOptional(a, "birthday", f.birthday, k);
    AppendOptional(b, "email", f.email, k);
    AppendOptional(c, "phone", f.phone, k);
    AppendOptional(d, "relationship", f.relationship, k);
  }

  /** Appending an optional entry sets its key when the input is non-empty and leaves
      every other key as it was. */
  lemma AppendOptional(h: Fields, key: string, input: string, k: string)
    ensures Get(h + OptionalEntry(key, input), k) ==
              if k == key && input != "" then Some(Str(input)) else Get(h, k)
  {
    if input != "" {
      Snoc(h, (key, Str(input)));
    } else {
      assert h + [] == h;
    }
  }

  /** The dialog submits the record only when the name is non-empty. */
  function Submit(f: Form): (r: Option<Fields>)
    ensures r.Some? <==> f.name != ""
    ensures r.Some? ==> TruthyField(r.value, "name")
  {
    FormRecordFields(f);
    if f.name != "" then Some(FormRecord(f)) else None
  }

  /** The new note's path: the contacts folder, a slash, the name and `.md`. */
  function ContactPath(folder: string, name: string): (path: string)
    ensures Table.IsContactFile(path, folder)
    ensures |path| == |folder| + |name| + 4
    ensures path[..|folder| + 1] == folder + "/" && path[|folder| + 1..] == name + ".md"
  {
    var path := folder + "/" + name + ".md";
    assert path == folder + "/" + (name + ".md");
    Table.IsContactFileIff(path, folder);
    path
  }

  /** Two names in one folder give the same path exactly when they are the same name,
      so a note's name can be read back from its path. */
  lemma ContactPathInjective(folder: string, a: string, b: string)
    ensures ContactPath(folder, a) == ContactPath(folder, b) <==> a == b
  {
    if ContactPath(folder, a) == ContactPath(folder, b) {
      var pa, pb := ContactPath(folder, a), ContactPath(folder, b);
      assert a + ".md" == b + ".md" by {
        assert pa[|folder| + 1..] == pb[|folder| + 1..];
      }
      assert a == (a + ".md")[..|a|] && b == (b + ".md")[..|b|];
    }
  }

  /** The note a submitted record becomes: its path and text. The header text is what
      the host's YAML writer makes of the record, given as `stringify`. */
  function CreateContact(folder: string, f: Form, stringify: Fields -> string): (r: Option<(string, string)>)
    ensures r.Some? <==> f.name != ""
    ensures r.Some? ==> Table.IsContactFile(r.value.0, folder)
    ensures r.Some? ==> r.value.0 == folder + "/" + f.name + ".md"
    ensures r.Some? && Note.NoClose(stringify(FormRecord(f))) ==>
              Note.HeaderText(r.value.1) == Some(stringify(FormRecord(f)))
  {
    match Submit(f)
    case None => None
    case Some(record) =>
      var yaml := stringify(record);
      Note.NewNoteHeaderRoundTrip(yaml);
      Some((ContactPath(folder, f.name), Note.NewNoteContent(yaml)))
  }
}

=== FILE: calendar.dfy ===
/** Proleptic Gregorian calendar arithmetic, as ECMAScript's `Date` performs it:
    day numbers counted from 1970-01-01, `MakeDay`'s month and day overflow,
    and the civil date a day number denotes. */
module Calendar {

  /** A civil date; `month` is 1-based (January is 1). */
  datatype Date = Date(year: int, month: int, day: int)

  predicate IsLeapYear(y: int) {
    y % 4 == 0 && (y % 100 != 0 || y % 400 == 0)
  }

  function DaysInMonth(y: int, m: int): (n: int)
    requires 1 <= m <= 12
    ensures 28 <= n <= 31
    ensures n == 29 <==> m == 2 && IsLeapYear(y)
  {
    if m == 2 then (if IsLeapYear(y) then 29 else 28)
    else if m == 4 || m == 6 || m == 9 || m == 11 then 30
    else 31
  }

  function YearLength(y: int): int {
    if IsLeapYear(y) then 366 else 365
  }

  /** The date names a real calendar day. */
  predicate Valid(d: Date) {
    1 <= d.month <= 12 && 1 <= d.day <= DaysInMonth(d.year, d.month)
  }

  /** Days from 1970-01-01 (the ECMAScript epoch) to January 1 of year `y`;
      negative for earlier years. */
  function DaysBeforeYear(y: int): int
    decreases if y < 1970 then 1970 - y else y - 1970
  {
    if y == 1970 then 0
    else if y > 1970 then DaysBeforeYear(y - 1) + YearLength(y - 1)
    else DaysBeforeYear(y + 1) - YearLength(y)
  }

  /** Days from January 1 to the first day of month `m` of year `y`. */
  function DaysBeforeMonth(y: int, m: int): (n: int)
    requires 1 <= m <= 12
  {
    var cumulative :=
      if m == 1 then 0 else if m == 2 then 31 else if m == 3 then 59
      else if m == 4 then 90 else if m == 5 then 120 else if m == 6 then 151
      else if m == 7 then 181 else if m == 8 then 212 else if m == 9 then 243
      else if m == 10 then 273 else if m == 11 then 304 else 334;
    cumulative + (if m > 2 && IsLeapYear(y) then 1 else 0)
  }

  /** The day number (days since 1970-01-01) of day `d` of month `m` of year `y`;
      `d` may lie outside the month, and then counts on from the month's first day. */
  function DayNumber(y: int, m: int, d: int): int
    requires 1 <= m <= 12
  {
    DaysBeforeYear(y) + DaysBeforeMonth(y, m) + d - 1
  }

  function DaysFromCivil(d: Date): int
    requires 1 <= d.month <= 12
  {
    DayNumber(d.year, d.month, d.day)
  }

  /** ECMAScript `MakeDay(year, month, date)` with a 0-based `month` of any size:
      whole years are carried out of the month first, the date is added linearly. */
  function MakeDay(y: int, m0: int, d: int): int {
    DayNumber(y + m0 / 12, m0 % 12 + 1, d)
  }

  /** A year has 365 days, one more when it is a leap year. */
  lemma YearLengthStep(y: int)
    ensures DaysBeforeYear(y + 1) == DaysBeforeYear(y) + YearLength(y)
  {
  }

  /** ECMAScript's `DayFromYear(y)`: 365 days a year plus the leap days counted
      by floor division. */
  function DayFromYear(y: int): int
  {
    365 * (y - 1970) + (y - 1969) / 4 - (y - 1901) / 100 + (y - 1601) / 400
  }

  lemma DayFromYearStep(y: int)
    ensures DayFromYear(y + 1) == DayFromYear(y) + YearLength(y)
  {
    DivStep(y - 1969, y + 1 - 1969, 4);
    DivStep(y - 1901, y + 1 - 1901, 100);
    DivStep(y - 1601, y + 1 - 1601, 400);
    LeapTermsShift(y);
    assert y % 400 == 0 ==> y % 100 == 0 by {
      if y % 400 == 0 {
        assert y == 400 * (y / 400);
        assert y == 100 * (4 * (y / 400));
      }
    }
    assert y % 100 == 0 ==> y % 4 == 0 by {
      if y % 100 == 0 {
        assert y == 100 * (y / 100);
        assert y == 4 * (25 * (y / 100));
      }
    }
    CountStep(y, (y - 1969) / 4, (y + 1 - 1969) / 4, (y - 1901) / 100, (y + 1 - 1901) / 100,
              (y - 1601) / 400, (y + 1 - 1601) / 400, y % 4 == 0, y % 100 == 0, y % 400 == 0);
  }

  /** The closed form's step with its three leap-day counts named: each count grows by
      one exactly when the year is a multiple of its period. */
  lemma CountStep(y: int, a4: int, c4: int, a100: int, c100: int, a400: int, c400: int,
                  l4: bool, l100: bool, l400: bool)
    requires c4 == a4 + (if l4 then 1 else 0)
    requires c100 == a100 + (if l100 then 1 else 0)
    requires c400 == a400 + (if l400 then 1 else 0)
    requires (l400 ==> l100) && (l100 ==> l4)
    ensures 365 * (y + 1 - 1970) + c4 - c100 + c400
            == 365 * (y - 1970) + a4 - a100 + a400 + (if l4 && (!l100 || l400) then 366 else 365)
  {
  }

  /** The epoch offsets in `DayFromYear` are multiples of the leap-year periods. */
  lemma LeapTermsShift(y: int)
    ensures (y + 1 - 1969) % 4 == 0 <==> y % 4 == 0
    ensures (y + 1 - 1901) % 100 == 0 <==> y % 100 == 0
    ensures (y + 1 - 1601) % 400 == 0 <==> y % 400 == 0
  {
    assert (y + 1 - 1969) % 4 == y % 4 by {
      assert y + 1 - 1969 == y + 4 * (-492);
    }
    assert (y + 1 - 1901) % 100 == y % 100 by {
      assert y + 1 - 1901 == y + 100 * (-19);
    }
    assert (y + 1 - 1601) % 400 == y % 400 by {
      assert y + 1 - 1601 == y + 400 * (-4);
    }
  }

  /** The recursive count agrees with the closed form for every year. */
  lemma {:induction false} DayFromYearClosedForm(y: int)
    ensures DaysBeforeYear(y) == DayFromYear(y)
    decreases if y < 1970 then 1970 - y else y - 1970
  {
    if y > 1970 {
      DayFromYearClosedForm(y - 1);
      DayFromYearStep(y - 1);
    } else if y < 1970 {
      DayFromYearClosedForm(y + 1);
      DayFromYearStep(y);
    }
  }

  lemma DivStep(x: int, x1: int, k: int)
    requires x1 == x + 1 && (k == 4 || k == 100 || k == 400)
    ensures x1 / k == x / k + (if x1 % k == 0 then 1 else 0)
  {
    if k == 4 {
      assert (x + 1) / 4 == x / 4 + (if (x + 1) % 4 == 0 then 1 else 0);
    } else if k == 100 {
      assert (x + 1) / 100 == x / 100 + (if (x + 1) % 100 == 0 then 1 else 0);
    } else {
      assert (x + 1) / 400 == x / 400 + (if (x + 1) % 400 == 0 then 1 else 0);
    }
  }

  /** Stepping from one month to the next adds the length of the month. */
  lemma MonthStep(y: int, m: int)
    requires 1 <= m <= 12
    ensures m < 12 ==> DaysBeforeMonth(y, m + 1) == DaysBeforeMonth(y, m) + DaysInMonth(y, m)
    ensures m == 12 ==> DaysBeforeMonth(y, m) + DaysInMonth(y, m) == YearLength(y)
  {
  }

  /** `NormalizeDay(y, m, d)` is the civil date of day `d` counted from the first of month
      `m` of year `y` (days before the first and past the month's end roll back or
      forward), which is what the `Date` getters report after `MakeDay`. */
  function NormalizeDay(y: int, m: int, d: int): (r: Date)
    requires 1 <= m <= 12
    ensures Valid(r)
    ensures DaysFromCivil(r) == DayNumber(y, m, d)
    ensures 1 <= d <= DaysInMonth(y, m) ==> r == Date(y, m, d)
    decreases if d < 1 then 132 - d else d
  {
    if d < 1 then
      if m == 1 then
        YearLengthStep(y - 1);
        MonthStep(y - 1, 12);
        NormalizeDay(y - 1, 12, d + 31)
      else
        MonthStep(y, m - 1);
        NormalizeDay(y, m - 1, d + DaysInMonth(y, m - 1))
    else if d > DaysInMonth(y, m) then
      if m == 12 then
        YearLengthStep(y);
        MonthStep(y, 12);
        NormalizeDay(y + 1, 1, d - 31)
      else
        MonthStep(y, m);
        NormalizeDay(y, m + 1, d - DaysInMonth(y, m))
    else
      Date(y, m, d)
  }

  /** A day past the end of a month (other than December) that still fits in the next
      month lands there. */
  lemma OverflowIntoNextMonth(y: int, m: int, d: int)
    requires 1 <= m < 12 && DaysInMonth(y, m) < d <= DaysInMonth(y, m) + DaysInMonth(y, m + 1)
    ensures NormalizeDay(y, m, d) == Date(y, m + 1, d - DaysInMonth(y, m))
  {
  }

  /** The civil date `Date.UTC(y, m0, d)` (or the local constructor, in UTC) denotes. */
  function Normalize(y: int, m0: int, d: int): (r: Date)
    ensures Valid(r)
    ensures DaysFromCivil(r) == MakeDay(y, m0, d)
    ensures 0 <= m0 < 12 && 1 <= d <= DaysInMonth(y, m0 + 1) ==> r == Date(y, m0 + 1, d)
  {
    NormalizeDay(y + m0 / 12, m0 % 12 + 1, d)
  }

  /** For a month already in range, normalising starts from that month. */
  lemma NormalizeInRangeMonth(y: int, m0: int, d: int)
    requires 0 <= m0 < 12
    ensures Normalize(y, m0, d) == NormalizeDay(y, m0 + 1, d)
  {
  }

  /** For a month already in range, `MakeDay` is the plain day number. */
  lemma MakeDayInRange(y: int, m0: int, d: int)
    requires 0 <= m0 < 12
    ensures MakeDay(y, m0, d) == DayNumber(y, m0 + 1, d)
  {
  }

  /** The same month and day one year later is 365 days on, or 366 when a February 29
      lies in between. */
  lemma NextYearSameDay(y: int, m: int, d: int)
    requires 1 <= m <= 12
    ensures DayNumber(y + 1, m, d) - DayNumber(y, m, d)
            == 365 + (if m > 2 then (if IsLeapYear(y + 1) then 1 else 0)
                      else (if IsLeapYear(y) then 1 else 0))
  {
    YearLengthStep(y);
  }

  /** February 29 in a common year rolls over to March 1. */
  lemma LeapDayRollsOver(y: int)
    requires !IsLeapYear(y)
    ensures Normalize(y, 1, 29) == Date(y, 3, 1)
  {
    assert DaysInMonth(y, 2) == 28;
    assert NormalizeDay(y, 2, 29) == NormalizeDay(y, 3, 1);
  }

  /** Lexicographic order on (year, month, day). */
  predicate Before(a: Date, b: Date) {
    a.year < b.year
    || (a.year == b.year && (a.month < b.month || (a.month == b.month && a.day < b.day)))
  }

  /** A valid date's day number lies within its year. */
  lemma WithinYear(a: Date)
    requires Valid(a)
    ensures DaysBeforeYear(a.year) <= DaysFromCivil(a)
    ensures DaysFromCivil(a) < DaysBeforeYear(a.year + 1)
  {
    YearLengthStep(a.year);
    MonthStep(a.year, a.month);
    MonthsOrdered(a.year, a.month, 12);
  }
  /** A day of a four-digit year lies within a million days before the epoch and three
      million after it, far inside the range a `Date` can hold. */
  lemma FourDigitYearBounds(a: Date)
    requires Valid(a) && 1 <= a.year <= 9999
    ensures -1000000 < DaysFromCivil(a) < 3000000
  {
    WithinYear(a);
    DayFromYearClosedForm(a.year);
    DayFromYearClosedForm(a.year + 1);
  }


  /** Earlier months start earlier: month `m1` ends no later than month `m2` begins. */
  lemma {:induction false} MonthsOrdered(y: int, m1: int, m2: int)
    requires 1 <= m1 <= m2 <= 12
    ensures m1 < m2 ==> DaysBeforeMonth(y, m1) + DaysInMonth(y, m1) <= DaysBeforeMonth(y, m2)
    ensures DaysBeforeMonth(y, m1) + DaysInMonth(y, m1) <= DaysBeforeMonth(y, m2) + DaysInMonth(y, m2)
    decreases m2 - m1
  {
    MonthStep(y, m1);
    if m1 < m2 {
      MonthsOrdered(y, m1 + 1, m2);
      MonthStep(y, m1 + 1);
    }
  }

  /** Later years start later, by at least a year's worth of days per year. */
  lemma {:induction false} YearsOrdered(y1: int, y2: int)
    requires y1 < y2
    ensures DaysBeforeYear(y1) + 365 * (y2 - y1) <= DaysBeforeYear(y2)
    ensures DaysBeforeYear(y1 + 1) <= DaysBeforeYear(y2)
    decreases y2 - y1
  {
    YearLengthStep(y1);
    if y1 + 1 < y2 {
      YearsOrdered(y1 + 1, y2);
    }
  }

  /** Day numbers order valid dates exactly as the calendar does. */
  lemma DayNumberOrder(a: Date, b: Date)
    requires Valid(a) && Valid(b)
    ensures DaysFromCivil(a) < DaysFromCivil(b) <==> Before(a, b)
    ensures DaysFromCivil(a) == DaysFromCivil(b) <==> a == b
  {
    WithinYear(a);
    WithinYear(b);
    if a.year < b.year {
      YearsOrdered(a.year, b.year);
    } else if b.year < a.year {
      YearsOrdered(b.year, a.year);
    } else if a.month < b.month {
      MonthsOrdered(a.year, a.month, b.month);
    } else if b.month < a.month {
      MonthsOrdered(a.year, b.month, a.month);
    }
  }
}

=== FILE: contactpage.dfy ===
/** The contact page's edits of one contact's record: the interaction list (kept newest
    first), custom fields, single-field updates, and the save that merges the record into
    the note's header. */
module ContactPage {
  import opened Optional
  import opened Seqs
  import opened Text
  import opened Calendar
  import opened DateMath
  import opened Frontmatter
  import opened Sorting

  // ---------------------------------------------------------------------------
  // Ordering interactions

  /** The day `new Date(x.date)` names, `None` when that date is invalid. */
  function DayOf(x: Interaction): (r: Option<int>)
    ensures r.Some? <==> ParseDate(x.date).Some?
  {
    match ParseDate(x.date)
    case Some(d) => Some(DaysFromCivil(d))
    case None => None
  }

  /** `new Date(b.date).getTime() - new Date(a.date).getTime()`, the newest-first
      comparator: positive exactly when `b` is the later date. Times are day numbers
      scaled by a constant, so the sign is that of the day difference; an invalid date
      makes the difference NaN, which the sort reads as 0. */
  function InteractionCmp(a: Interaction, b: Interaction): (r: int)
    ensures DayOf(a).None? || DayOf(b).None? ==> r == 0
    ensures DayOf(a).Some? && DayOf(b).Some? ==>
              var da, db := ParseDate(a.date).value, ParseDate(b.date).value;
              (r > 0 <==> Before(da, db)) && (r == 0 <==> da == db)
  {
    match (ParseDate(a.date), ParseDate(b.date))
    case (Some(da), Some(db)) =>
      DayNumberOrder(da, db);
      DaysFromCivil(db) - DaysFromCivil(da)
    case _ => 0
  }

  /** Swapping the arguments negates the comparison. */
  lemma InteractionCmpAntisymmetric(a: Interaction, b: Interaction)
    ensures InteractionCmp(a, b) == -InteractionCmp(b, a)
  {
  }

  /** So the comparator never asks to swap both ways round. */
  lemma InteractionCmpConnex()
    ensures Connex(InteractionCmp)
  {
    forall a: Interaction, b: Interaction | InteractionCmp(a, b) > 0
      ensures InteractionCmp(b, a) <= 0
    {
      InteractionCmpAntisymmetric(a, b);
    }
  }

  /** `[...interactions].sort(newest first)`: a reordering of the list in which no entry
      is followed by one the comparator puts before it. */
  function SortInteractions(xs: seq<Interaction>): (r: seq<Interaction>)
    ensures multiset(r) == multiset(xs)
    ensures Sorted(r, InteractionCmp)
  {
    InteractionCmpConnex();
    SortBySorted(xs, InteractionCmp);
    SortBy(xs, InteractionCmp)
  }

  /** Every entry's date is a valid date. */
  ghost predicate AllDated(xs: seq<Interaction>) {
    forall i :: 0 <= i < |xs| ==> DayOf(xs[i]).Some?
  }

  /** In a sorted list of dated entries the day numbers never increase. */
  lemma {:induction false} DaysNonIncreasing(xs: seq<Interaction>, i: int, j: int)
    requires AllDated(xs) && Sorted(xs, InteractionCmp)
    requires 0 <= i < j < |xs|
    ensures DayOf(xs[j]).value <= DayOf(xs[i]).value
    decreases j - i
  {
    assert NotAfter(InteractionCmp, xs[i], xs[i + 1]);
    if j > i + 1 {
      DaysNonIncreasing(xs, i + 1, j);
    }
  }

  /** When every date is valid, the sorted list runs newest first: no entry is followed
      by a later one. */
  lemma NewestFirst(xs: seq<Interaction>)
    requires AllDated(xs)
    ensures AllDated(SortInteractions(xs))
    ensures var r := SortInteractions(xs);
            forall i, j :: 0 <= i < j < |r| && DayOf(r[i]).Some? && DayOf(r[j]).Some? ==>
              !Before(ParseDate(r[i].date).value, ParseDate(r[j].date).value)
  {
    var r := SortInteractions(xs);
    assert AllDated(r) by {
      forall i | 0 <= i < |r|
        ensures DayOf(r[i]).Some?
      {
        assert r[i] in multiset(xs);
      }
    }
    forall i, j | 0 <= i < j < |r| && DayOf(r[i]).Some? && DayOf(r[j]).Some?
      ensures !Before(ParseDate(r[i].date).value, ParseDate(r[j].date).value)
    {
      DaysNonIncreasing(r, i, j);
      DayNumberOrder(ParseDate(r[i].date).value, ParseDate(r[j].date).value);
    }
  }

  // ---------------------------------------------------------------------------
  // The stored list

  /** The record holds an `interactions` array. */
  predicate HasList(data: Fields) {
    Get(data, "interactions").Some? && Get(data, "interactions").value.List?
  }

  /** The stored interactions, empty when there is no array. */
  function Stored(data: Fields): seq<Interaction> {
    if HasList(data) then Get(data, "interactions").value.items else []
  }

  /** The record with its interaction list replaced. */
  function WithList(data: Fields, xs: seq<Interaction>): (r: Fields)
    ensures HasList(r) && Stored(r) == xs
    ensures forall k :: k != "interactions" ==> Get(r, k) == Get(data, k)
    ensures HasList(data) ==> Keys(r) == Keys(data)
  {
    Set(data, "interactions", List(xs))
  }

  /** `.sort` on a truthy `interactions` value that is not an array throws. */
  predicate SortThrows(data: Fields) {
    var v := Get(data, "interactions");
    v.Some? && Truthy(v.value) && !v.value.List?
  }

  /** The view's record and the note's header after a save. */
  datatype Saved = Saved(data: Fields, header: Fields)

  /** `saveContactData`: the interactions are sorted newest first in the record itself,
      then every property of the record is written into the note's header. A truthy
      `interactions` value that is not an array makes the sort throw and nothing is
      written. */
  function SaveContactData(data: Fields, header: Fields): (r: Option<Saved>)
    ensures r.None? <==> SortThrows(data)
    ensures r.Some? ==> Keys(r.value.data) == Keys(data)
    ensures r.Some? ==> forall k :: k != "interactions" ==> Get(r.value.data, k) == Get(data, k)
    ensures r.Some? ==> HasList(r.value.data) == HasList(data)
    ensures r.Some? && !HasList(data) ==> r.value.data == data
    ensures r.Some? ==> multiset(Stored(r.value.data)) == multiset(Stored(data))
    ensures r.Some? ==> Sorted(Stored(r.value.data), InteractionCmp)
    ensures r.Some? ==> forall k :: Get(r.value.header, k) ==
                          if k in Keys(data) then Get(r.value.data, k) else Get(header, k)
  {
    if SortThrows(data) then None
    else
      var data' := if HasList(data) then WithList(data, SortInteractions(Stored(data))) else data;
      forall k
        ensures Get(Merge(header, data'), k) == if k in Keys(data) then Get(data', k) else Get(header, k)
      {
        MergeGet(header, data', k);
      }
      Some(Saved(data', Merge(header, data')))
  }

  /** Saving again changes nothing more in the record: the list is already in order. */
  lemma SaveTwice(data: Fields, h1: Fields, h2: Fields)
    requires SaveContactData(data, h1).Some?
    ensures var s := SaveContactData(data, h1).value;
            SaveContactData(s.data, h2).Some? && SaveContactData(s.data, h2).value.data == s.data
  {
    var s := SaveContactData(data, h1).value;
    if HasList(s.data) {
      SortBySortedIdentity(Stored(s.data), InteractionCmp);
      SetCurrentValue(s.data, "interactions");
    }
  }

  /** After a save the list shows the entries in stored order, so the position the list
      hands to edit and delete is the stored position. */
  lemma ShownOrderIsStoredAfterSave(data: Fields, header: Fields)
    requires SaveContactData(data, header).Some?
    ensures var s := SaveContactData(data, header).value;
            SortInteractions(Stored(s.data)) == Stored(s.data)
  {
    var s := SaveContactData(data, header).value;
    SortBySortedIdentity(Stored(s.data), InteractionCmp);
  }

  // ---------------------------------------------------------------------------
  // Interaction edits

  /** Adding an interaction: the array is created when missing, then one entry is
      appended. */
  function AddInteraction(data: Fields, date: string, text: string): (r: Fields)
    ensures HasList(r)
    ensures Stored(r) == Stored(data) + [Interaction(date, text)]
    ensures forall k :: k != "interactions" ==> Get(r, k) == Get(data, k)
  {
    WithList(data, Stored(data) + [Interaction(date, text)])
  }

  /** Editing the entry at `index`: only that entry is replaced. The list hands out
      positions within the array it shows, so the index is in range. */
  function EditInteraction(data: Fields, index: int, date: string, text: string): (r: Fields)
    requires 0 <= index < |Stored(data)|
    ensures HasList(r) && |Stored(r)| == |Stored(data)|
    ensures Stored(r)[index] == Interaction(date, text)
    ensures forall j :: 0 <= j < |Stored(r)| && j != index ==> Stored(r)[j] == Stored(data)[j]
    ensures forall k :: k != "interactions" ==> Get(r, k) == Get(data, k)
  {
    WithList(data, Stored(data)[index := Interaction(date, text)])
  }

  /** Deleting the entry at `index` with `splice(index, 1)`: the entries before it stay
      where they are and those after it move up by one. Without an array the call
      throws. */
  function DeleteInteraction(data: Fields, index: int): (r: Option<Fields>)
    requires 0 <= index
    ensures r.Some? <==> HasList(data)
    ensures r.Some? && index < |Stored(data)| ==>
              Stored(r.value) == Stored(data)[..index] + Stored(data)[index + 1..]
    ensures r.Some? && index >= |Stored(data)| ==> Stored(r.value) == Stored(data)
    ensures r.Some? ==> HasList(r.value) && forall k :: k != "interactions" ==> Get(r.value, k) == Get(data, k)
  {
    if HasList(data) then Some(WithList(data, SpliceOne(Stored(data), index))) else None
  }

  /** Deleting the entry just added restores the list. */
  lemma DeleteUndoesAdd(data: Fields, date: string, text: string)
    ensures var added := AddInteraction(data, date, text);
            Stored(DeleteInteraction(added, |Stored(data)|).value) == Stored(data)
  {
    var xs := Stored(data);
    assert (xs + [Interaction(date, text)])[..|xs|] == xs;
  }

  /** Editing an entry back to what it was restores the list. */
  lemma EditBack(data: Fields, index: int, date: string, text: string)
    requires 0 <= index < |Stored(data)|
    ensures var old_ := Stored(data)[index];
            Stored(EditInteraction(EditInteraction(data, index, date, text), index, old_.date, old_.text))
              == Stored(data)
  {
  }

  /** Positions handed out by the list are positions in the sorted copy, while edits
      and deletes apply them to the stored array. With two dated entries stored oldest
      first, the list shows the newer one first, and deleting that first row removes
      the older entry instead. */
  lemma ShownIndexMismatch(data: Fields, x: Interaction, y: Interaction)
    requires Stored(data) == [x, y]
    requires DayOf(x).Some? && DayOf(y).Some?
    requires Before(ParseDate(x.date).value, ParseDate(y.date).value)
    ensures SortInteractions(Stored(data)) == [y, x]
    ensures Stored(DeleteInteraction(data, 0).value) == [y]
  {
    assert InteractionCmp(x, y) > 0;
    SortPairSwapped(x, y, InteractionCmp);
    assert [x, y][1..] == [y];
  }

  /** Deleting the row the list shows at position `i`, as the list evidently intends:
      the entry shown there leaves the stored array, whatever its stored position, and
      every other entry stays. */
  function DeleteShown(data: Fields, i: int): (r: Fields)
    requires 0 <= i < |Stored(data)|
    ensures HasList(r)
    ensures multiset(Stored(r)) == multiset(Stored(data)) - multiset{SortInteractions(Stored(data))[i]}
    ensures forall k :: k != "interactions" ==> Get(r, k) == Get(data, k)
  {
    var xs := Stored(data);
    ShownIsStored(xs, i);
    var shown := SortInteractions(xs)[i];
    var k := IndexOf(xs, shown);
    RemoveAtMultiset(xs, k);
    WithList(data, SpliceOne(xs, k))
  }

  /** Editing the row the list shows at position `i`, as evidently intended: the entry
      shown there is replaced and every other entry stays. */
  function EditShown(data: Fields, i: int, date: string, text: string): (r: Fields)
    requires 0 <= i < |Stored(data)|
    ensures HasList(r) && |Stored(r)| == |Stored(data)|
    ensures multiset(Stored(r)) ==
              multiset(Stored(data)) - multiset{SortInteractions(Stored(data))[i]} + multiset{Interaction(date, text)}
    ensures forall k :: k != "interactions" ==> Get(r, k) == Get(data, k)
  {
    var xs := Stored(data);
    ShownIsStored(xs, i);
    var shown := SortInteractions(xs)[i];
    var k := IndexOf(xs, shown);
    ReplaceAtMultiset(xs, k, Interaction(date, text));
    WithList(data, xs[k := Interaction(date, text)])
  }

  /** The entry the list shows at position `i` is one of the stored entries. */
  lemma ShownIsStored(xs: seq<Interaction>, i: int)
    requires 0 <= i < |xs|
    ensures |SortInteractions(xs)| == |xs| && SortInteractions(xs)[i] in xs
  {
    var r := SortInteractions(xs);
    assert |r| == |multiset(r)| == |multiset(xs)| == |xs|;
    assert r[i] in multiset(r);
  }

  /** Removing the element at `k` takes one copy of it out of the multiset. */
  lemma RemoveAtMultiset(xs: seq<Interaction>, k: int)
    requires 0 <= k < |xs|
    ensures multiset(xs[..k] + xs[k + 1..]) == multiset(xs) - multiset{xs[k]}
  {
    assert xs == xs[..k] + [xs[k]] + xs[k + 1..];
  }

  /** Replacing the element at `k` swaps one copy of it for the new value. */
  lemma ReplaceAtMultiset(xs: seq<Interaction>, k: int, v: Interaction)
    requires 0 <= k < |xs|
    ensures multiset(xs[k := v]) == multiset(xs) - multiset{xs[k]} + multiset{v}
  {
    assert xs == xs[..k] + [xs[k]] + xs[k + 1..];
    assert xs[k := v] == xs[..k] + [v] + xs[k + 1..];
  }

  /** On the two entries of the mismatch example, deleting the first shown row removes
      the newer entry, the one that row displays. */
  lemma DeleteShownRemovesShownEntry(data: Fields, x: Interaction, y: Interaction)
    requires Stored(data) == [x, y]
    requires DayOf(x).Some? && DayOf(y).Some?
    requires Before(ParseDate(x.date).value, ParseDate(y.date).value)
    ensures Stored(DeleteShown(data, 0)) == [x]
  {
    ShownIndexMismatch(data, x, y);
    assert x != y by {
      assert ParseDate(x.date).value != ParseDate(y.date).value;
    }
    RemoveSecond(x, y);
  }

  /** Of two different entries, removing the second by value leaves the first. */
  lemma RemoveSecond(x: Interaction, y: Interaction)
    requires x != y
    ensures SpliceOne([x, y], IndexOf([x, y], y)) == [x]
  {
    assert IndexOf([x, y], y) == 1;
  }

  // ---------------------------------------------------------------------------
  // Fields

  /** The custom-field dialog submits a non-empty name, lower-cased. */
  function SubmittedFieldName(input: string): (r: Option<string>)
    ensures r.None? <==> input == ""
    ensures r.Some? ==> IsLower(r.value) && |r.value| == |input|
  {
    if input == "" then None else Some(Lower(input))
  }

  /** Adding a custom field: a field that is absent or falsy is set to `""`; a truthy one
      is left alone and a notice is shown instead (the second component). */
  function AddCustomField(data: Fields, field: string): (r: (Fields, bool))
    ensures r.1 <==> TruthyField(data, field)
    ensures r.1 ==> r.0 == data
    ensures !r.1 ==> Get(r.0, field) == Some(Str(""))
    ensures forall k :: k != field ==> Get(r.0, k) == Get(data, k)
  {
    if TruthyField(data, field) then (data, true) else (Set(data, field, Str("")), false)
  }

  /** Adding the same field twice is adding it once: the second time the field is `""`,
      which is falsy, so it is set to `""` again. */
  lemma AddCustomFieldTwice(data: Fields, field: string)
    ensures var once := AddCustomField(data, field);
            AddCustomField(once.0, field) == (once.0, once.1)
  {
    var once := AddCustomField(data, field);
    if !once.1 {
      SetCurrentValue(once.0, field);
    }
  }

  /** `updateContactData`: set one field to a string and save. */
  function UpdateContactData(data: Fields, header: Fields, field: string, value: string): (r: Option<Saved>)
    ensures field != "interactions" ==> (r.Some? <==> !SortThrows(data))
    ensures field == "interactions" ==> (r.Some? <==> value == "")
    ensures r.Some? && field != "interactions" ==>
              Get(r.value.data, field) == Some(Str(value)) && Get(r.value.header, field) == Some(Str(value))
    ensures r.Some? ==> forall k :: k != field && k !in Keys(data) ==> Get(r.value.header, k) == Get(header, k)
  {
    var data' := Set(data, field, Str(value));
    assert forall k :: k != field ==> (k in Keys(data') <==> k in Keys(data)) by {
      forall k | k != field
        ensures k in Keys(data') <==> k in Keys(data)
      {
        assert Get(data', k) == Get(data, k);
      }
    }
    SaveContactData(data', header)
  }

  /** The page shows a contact only when its record has a truthy name. */
  predicate ShowsContact(data: Fields) {
    TruthyField(data, "name")
  }

  /** The heading above a shown contact is its name. */
  function Heading(data: Fields): (r: Option<string>)
    ensures r.Some? <==> ShowsContact(data)
    ensures r.Some? && Get(data, "name").value.Str? ==> r.value == Get(data, "name").value.s
  {
    if ShowsContact(data) then Some(TextOr(data, "name", "Unnamed Contact")) else None
  }
}

=== FILE: contacts.dfy ===
/** The contact list: one record per note with a header in the contacts folder, with
    the derived birthday values, and the relationship types in use. */
module Contacts {
  import opened Optional
  import opened Seqs
  import opened Calendar
  import opened DateMath
  import opened Frontmatter

  /** A child of the contacts folder: a note with its parsed header, if it has one, or a
      sub-folder. */
  datatype Entry = File(path: string, header: Option<Fields>) | Folder(path: string)

  /** A row of the contact list (`ContactWithCountdown`). `None` stands for `null`. */
  datatype Contact = Contact(
    name: string,
    birthday: string,
    formattedBirthday: string,
    relationship: string,
    age: Option<int>,
    daysUntilBirthday: Option<int>,
    lastInteraction: Option<string>,
    path: string)

  /** The notes that become contacts: files whose header is present. */
  predicate HasHeader(e: Entry) {
    e.File? && e.header.Some?
  }

  /** The "N days" label of the most recent interaction: taken from the first entry of a
      non-empty `interactions` list; `None` when there is nothing with a positive length.
      A non-empty string in that place has no `date`, which prints as "NaN days". */
  function LastInteraction(h: Fields, today: Date, msOfDay: int): (r: Option<string>)
    requires Valid(today) && 0 <= msOfDay < MsPerDay
    ensures Get(h, "interactions").None? ==> r.None?
    ensures var v := Get(h, "interactions");
            v.Some? && v.value.List? && |v.value.items| > 0 ==>
              r == Some(FormatDaysAgo(v.value.items[0].date, today, msOfDay))
    ensures var v := Get(h, "interactions");
            v.Some? && v.value.List? && |v.value.items| == 0 ==> r.None?
  {
    match Get(h, "interactions")
    case Some(List(xs)) =>
      if |xs| > 0 then Some(FormatDaysAgo(xs[0].date, today, msOfDay)) else None
    case Some(Str(s)) => if |s| > 0 then Some("NaN days") else None
    case _ => None
  }

  /** A truthy birthday that is not a string: `formatBirthday` calls `split` on it,
      which throws a `TypeError`. */
  predicate BirthdayThrows(h: Fields) {
    TruthyField(h, "birthday") && !Get(h, "birthday").value.Str?
  }

  /** The record built for a note with header `h`, or `None` when building it throws.
      The birthday-derived values are those of the birthday field the record shows, so a
      missing birthday gives `null` age and countdown and an empty label. */
  function ToContact(path: string, h: Fields, today: Date, msOfDay: int): (r: Option<Contact>)
    requires Valid(today) && 0 <= msOfDay < MsPerDay
    ensures r.None? <==> BirthdayThrows(h)
    ensures r.Some? ==> var c := r.value;
            && c.path == path
            && (!TruthyField(h, "name") ==> c.name == "Unknown")
            && (!TruthyField(h, "birthday") ==> c.birthday == "")
            && (TruthyField(h, "birthday") ==> Get(h, "birthday").value == Str(c.birthday))
            && (!TruthyField(h, "relationship") ==> c.relationship == "")
            && (TruthyField(h, "relationship") ==> c.relationship == Display(Get(h, "relationship").value))
            && c.age == Age(c.birthday, today)
            && (c.age.None? <==> c.birthday == "" || ParseDate(c.birthday).None?)
            && c.daysUntilBirthday == DaysUntilBirthday(c.birthday, today)
            && c.formattedBirthday == FormatBirthday(c.birthday)
            && c.lastInteraction == LastInteraction(h, today, msOfDay)
  {
    if BirthdayThrows(h) then None
    else
      var birthday := TextOr(h, "birthday", "");
      Some(Contact(
        TextOr(h, "name", "Unknown"),
        birthday,
        FormatBirthday(birthday),
        TextOr(h, "relationship", ""),
        Age(birthday, today),
        DaysUntilBirthday(birthday, today),
        LastInteraction(h, today, msOfDay),
        path))
  }

  /** A child whose record cannot be built: a note with a header holding a birthday that
      throws. */
  predicate Throws(e: Entry) {
    HasHeader(e) && BirthdayThrows(e.header.value)
  }

  /** The record for a child that is a note with a header, or `None` when building it
      throws. */
  function RecordOf(e: Entry, today: Date, msOfDay: int): (r: Option<Contact>)
    requires HasHeader(e) && Valid(today) && 0 <= msOfDay < MsPerDay
    ensures r.None? <==> Throws(e)
  {
    ToContact(e.path, e.header.value, today, msOfDay)
  }

  /** The records for a folder's children, in folder order; `None` when one of them
      throws, which rejects the whole `getContacts` call. */
  function ContactsOf(children: seq<Entry>, today: Date, msOfDay: int): (r: Option<seq<Contact>>)
    requires Valid(today) && 0 <= msOfDay < MsPerDay
    ensures r.None? <==> exists i :: 0 <= i < |children| && Throws(children[i])
    ensures r.Some? ==> RecordsOf(Filter(children, HasHeader), r.value, today, msOfDay)
  {
    if |children| == 0 then Some([])
    else
      var e := children[0];
      var tail := children[1..];
      ThrowsCons(children);
      FilterCons(children);
      match ContactsOf(tail, today, msOfDay)
      case None => None
      case Some(rest) =>
        if HasHeader(e) then
          match RecordOf(e, today, msOfDay)
          case None => None
          case Some(c) =>
            RecordsCons(e, Filter(tail, HasHeader), c, rest, today, msOfDay);
            Some([c] + rest)
        else Some(rest)
  }

  /** `rs` holds the records of `notes`, one each, in order. */
  predicate RecordsOf(notes: seq<Entry>, rs: seq<Contact>, today: Date, msOfDay: int)
    requires Valid(today) && 0 <= msOfDay < MsPerDay
  {
    && |rs| == |notes|
    && forall i :: 0 <= i < |rs| ==> HasHeader(notes[i]) && Some(rs[i]) == RecordOf(notes[i], today, msOfDay)
  }

  /** Some child throws exactly when the first one does or one of the rest does. */
  lemma ThrowsCons(children: seq<Entry>)
    requires |children| > 0
    ensures (exists i :: 0 <= i < |children| && Throws(children[i])) <==>
            Throws(children[0]) || exists i :: 0 <= i < |children[1..]| && Throws(children[1..][i])
  {
    if exists i :: 0 <= i < |children| && Throws(children[i]) {
      var i :| 0 <= i < |children| && Throws(children[i]);
      if i > 0 {
        assert children[1..][i - 1] == children[i];
      }
    }
    if exists i :: 0 <= i < |children[1..]| && Throws(children[1..][i]) {
      var i :| 0 <= i < |children[1..]| && Throws(children[1..][i]);
      assert children[i + 1] == children[1..][i];
    }
  }

  /** The notes among the children: the first child, if it is one, then those of the rest. */
  lemma FilterCons(children: seq<Entry>)
    requires |children| > 0
    ensures Filter(children, HasHeader) ==
              (if HasHeader(children[0]) then [children[0]] else []) + Filter(children[1..], HasHeader)
  {
  }

  /** A record put in front of the records of the remaining notes. */
  lemma RecordsCons(e: Entry, notes: seq<Entry>, c: Contact, rest: seq<Contact>, today: Date, msOfDay: int)
    requires Valid(today) && 0 <= msOfDay < MsPerDay
    requires HasHeader(e) && Some(c) == RecordOf(e, today, msOfDay)
    requires RecordsOf(notes, rest, today, msOfDay)
    ensures RecordsOf([e] + notes, [c] + rest, today, msOfDay)
  {
    var ns, rs := [e] + notes, [c] + rest;
    forall i | 0 <= i < |rs|
      ensures HasHeader(ns[i]) && Some(rs[i]) == RecordOf(ns[i], today, msOfDay)
    {
      if i > 0 {
        assert ns[i] == notes[i - 1] && rs[i] == rest[i - 1];
      }
    }
  }

  /** `getContacts`: no contacts when the folder is missing; otherwise exactly one record
      per note that has a header, in folder order, with sub-folders and header-less notes
      skipped; `None` when building a record throws. */
  function GetContacts(folder: Option<seq<Entry>>, today: Date, msOfDay: int): (r: Option<seq<Contact>>)
    requires Valid(today) && 0 <= msOfDay < MsPerDay
    ensures folder.None? ==> r == Some([])
    ensures folder.Some? ==> r == ContactsOf(folder.value, today, msOfDay)
  {
    match folder
    case None => Some([])
    case Some(children) => ContactsOf(children, today, msOfDay)
  }

  /** Every note with a header has a record carrying its path, and every record carries
      the path of such a note. */
  predicate CoversNotes(children: seq<Entry>, r: seq<Contact>) {
    && (forall i :: 0 <= i < |children| && HasHeader(children[i]) ==>
          exists j :: 0 <= j < |r| && r[j].path == children[i].path)
    && (forall j :: 0 <= j < |r| ==>
          exists i :: 0 <= i < |children| && HasHeader(children[i]) && r[j].path == children[i].path)
  }

  /** `getContacts` yields exactly one record per note that has a header. */
  lemma GetContactsCoversNotes(children: seq<Entry>, today: Date, msOfDay: int)
    requires Valid(today) && 0 <= msOfDay < MsPerDay
    ensures var r := GetContacts(Some(children), today, msOfDay);
            r.Some? ==> CoversNotes(children, r.value)
  {
    var r := GetContacts(Some(children), today, msOfDay);
    if r.Some? {
      var notes := Filter(children, HasHeader);
      forall j | 0 <= j < |r.value|
        ensures r.value[j].path == notes[j].path
      {
        assert HasHeader(notes[j]) && Some(r.value[j]) == RecordOf(notes[j], today, msOfDay);
      }
      PathsCorrespond(children, notes, r.value);
    }
  }

  /** The path-level correspondence, with the records reduced to their paths. */
  lemma PathsCorrespond(children: seq<Entry>, notes: seq<Entry>, r: seq<Contact>)
    requires notes == Filter(children, HasHeader)
    requires |r| == |notes| && forall j :: 0 <= j < |r| ==> r[j].path == notes[j].path
    ensures CoversNotes(children, r)
  {
    forall i | 0 <= i < |children| && HasHeader(children[i])
      ensures exists j :: 0 <= j < |r| && r[j].path == children[i].path
    {
      NoteHasRecord(children, notes, r, i);
    }
    forall j | 0 <= j < |r|
      ensures exists i :: 0 <= i < |children| && HasHeader(children[i]) && r[j].path == children[i].path
    {
      RecordHasNote(children, notes, r, j);
    }
  }

  /** A note with a header has a record carrying its path. */
  lemma NoteHasRecord(children: seq<Entry>, notes: seq<Entry>, r: seq<Contact>, i: int)
    requires notes == Filter(children, HasHeader)
    requires |r| == |notes| && forall j :: 0 <= j < |r| ==> r[j].path == notes[j].path
    requires 0 <= i < |children| && HasHeader(children[i])
    ensures exists j :: 0 <= j < |r| && r[j].path == children[i].path
  {
    var e := children[i];
    assert e in children;
    assert e in notes;
    var j :| 0 <= j < |notes| && notes[j] == e;
    assert 0 <= j < |r| && r[j].path == e.path;
  }

  /** A record carries the path of a note with a header. */
  lemma RecordHasNote(children: seq<Entry>, notes: seq<Entry>, r: seq<Contact>, j: int)
    requires notes == Filter(children, HasHeader)
    requires |r| == |notes| && forall k :: 0 <= k < |r| ==> r[k].path == notes[k].path
    requires 0 <= j < |r|
    ensures exists i :: 0 <= i < |children| && HasHeader(children[i]) && r[j].path == children[i].path
  {
    var e := notes[j];
    assert e in notes;
    assert e in children && HasHeader(e);
    var i :| 0 <= i < |children| && children[i] == e;
    assert HasHeader(children[i]) && r[j].path == children[i].path;
  }

  /** The relationship column, in list order. */
  function Relationships(contacts: seq<Contact>): (r: seq<string>)
    ensures |r| == |contacts|
    ensures forall i :: 0 <= i < |r| ==> r[i] == contacts[i].relationship
  {
    seq(|contacts|, i requires 0 <= i < |contacts| => contacts[i].relationship)
  }

  predicate NonEmpty(s: string) {
    s != ""
  }

  /** `getContactTypes`: the non-empty relationships of the contacts, each once, in order
      of first appearance. */
  function GetContactTypes(contacts: seq<Contact>): (r: seq<string>)
    ensures NoDuplicates(r)
    ensures forall i :: 0 <= i < |r| ==> r[i] != ""
    ensures forall i :: 0 <= i < |r| ==> exists j :: 0 <= j < |contacts| && contacts[j].relationship == r[i]
    ensures forall j :: 0 <= j < |contacts| && contacts[j].relationship != "" ==> contacts[j].relationship in r
    ensures forall i, j :: 0 <= i < j < |r| ==>
              IndexOf(Relationships(contacts), r[i]) < IndexOf(Relationships(contacts), r[j])
  {
    TypesCoverRelationships(contacts);
    TypesInFirstOrder(Relationships(contacts));
    Dedupe(Filter(Relationships(contacts), NonEmpty))
  }

  /** The relationship types are exactly the non-empty relationships of the contacts. */
  lemma TypesCoverRelationships(contacts: seq<Contact>)
    ensures var r := Dedupe(Filter(Relationships(contacts), NonEmpty));
            && (forall i :: 0 <= i < |r| ==> exists j :: 0 <= j < |contacts| && contacts[j].relationship == r[i])
            && (forall j :: 0 <= j < |contacts| && contacts[j].relationship != "" ==> contacts[j].relationship in r)
  {
    var rels := Relationships(contacts);
    var kept := Filter(rels, NonEmpty);
    var r := Dedupe(kept);
    assert forall i :: 0 <= i < |r| ==> r[i] in kept && r[i] in rels;
    assert forall j :: 0 <= j < |contacts| && contacts[j].relationship != "" ==> rels[j] in kept;
  }

  /** The relationship types keep the order in which the contacts first show them. */
  lemma TypesInFirstOrder(rels: seq<string>)
    ensures var r := Dedupe(Filter(rels, NonEmpty));
            forall i, j :: 0 <= i < j < |r| ==> IndexOf(rels, r[i]) < IndexOf(rels, r[j])
  {
    var kept := Filter(rels, NonEmpty);
    var r := Dedupe(kept);
    forall i, j | 0 <= i < j < |r|
      ensures IndexOf(rels, r[i]) < IndexOf(rels, r[j])
    {
      assert r[i] in kept && r[j] in kept;
      FilterKeepsFirstOrder(rels, NonEmpty, r[i], r[j]);
    }
  }
}

=== FILE: datemath.dfy ===
/** Values derived from a contact's birthday and interaction dates.
    "Today" is a parameter: the calendar date of the local clock, and where the
    source's result depends on it, the milliseconds elapsed since local midnight. */
module DateMath {
  import opened Optional
  import opened Text
  import opened Calendar

  /** Milliseconds in a day. */
  const MsPerDay: int := 86400000

  /** The four-digit, two-digit, two-digit shape of a date-only ISO string. */
  predicate IsIsoShape(s: string) {
    && |s| == 10 && s[4] == '-' && s[7] == '-'
    && AllDigits(s[..4]) && AllDigits(s[5..7]) && AllDigits(s[8..])
  }

  /** The `YYYY` form of a date-only string. */
  predicate IsYearShape(s: string) {
    |s| == 4 && AllDigits(s)
  }

  /** The `YYYY-MM` form of a date-only string. */
  predicate IsYearMonthShape(s: string) {
    |s| == 7 && s[4] == '-' && AllDigits(s[..4]) && AllDigits(s[5..])
  }

  /** The date a `YYYY-MM-DD` string with a day from 1 to 31 denotes: a day past the
      month's end rolls into the next month, which stays in the same year. */
  function RollDay(y: int, m: int, d: int): (r: Date)
    requires 1 <= m <= 12 && 1 <= d <= 31
    ensures Valid(r) && r.year == y
    ensures DaysFromCivil(r) == MakeDay(y, m - 1, d)
    ensures d <= DaysInMonth(y, m) ==> r == Date(y, m, d)
    ensures d > DaysInMonth(y, m) ==> m < 12 && r == Date(y, m + 1, d - DaysInMonth(y, m))
  {
    if d > DaysInMonth(y, m) then
      NormalizeInRangeMonth(y, m - 1, d);
      OverflowIntoNextMonth(y, m, d);
      Normalize(y, m - 1, d)
    else Normalize(y, m - 1, d)
  }

  /** `new Date(s)` on the date-only forms of the ECMAScript date-time string format
      (`YYYY`, `YYYY-MM`, `YYYY-MM-DD`, read as UTC midnight), as V8 reads them: a missing
      month or day is 1, the month must lie in 1..12 and the day in 1..31, and a day
      past the month's end rolls over. `None` stands for an invalid date. The same forms
      followed by `T00:00:00Z` denote the same instant. */
  function ParseDate(s: string): (r: Option<Date>)
    ensures r.Some? ==> Valid(r.value) && 0 <= r.value.year <= 9999
    ensures r.Some? ==> IsYearShape(s) || IsYearMonthShape(s) || IsIsoShape(s)
    ensures IsYearShape(s) ==> r == Some(Date(DigitsValue(s), 1, 1))
    ensures IsYearMonthShape(s) ==>
              var m := DigitsValue(s[5..]);
              && (r.Some? <==> 1 <= m <= 12)
              && (r.Some? ==> r.value == Date(DigitsValue(s[..4]), m, 1))
    ensures IsIsoShape(s) ==>
              var y, m, d := DigitsValue(s[..4]), DigitsValue(s[5..7]), DigitsValue(s[8..]);
              && (r.Some? <==> 1 <= m <= 12 && 1 <= d <= 31)
              && (r.Some? ==> r.value.year == y && DaysFromCivil(r.value) == MakeDay(y, m - 1, d))
  {
    if IsYearShape(s) then
      DigitsValueBound(s);
      Some(Date(DigitsValue(s), 1, 1))
    else if IsYearMonthShape(s) then
      DigitsValueBound(s[..4]);
      var m := DigitsValue(s[5..]);
      if 1 <= m <= 12 then Some(Date(DigitsValue(s[..4]), m, 1)) else None
    else if IsIsoShape(s) then
      DigitsValueBound(s[..4]);
      var m, d := DigitsValue(s[5..7]), DigitsValue(s[8..]);
      if 1 <= m <= 12 && 1 <= d <= 31 then Some(RollDay(DigitsValue(s[..4]), m, d)) else None
    else None
  }

  /** On a `YYYY-MM-DD` string naming a real day, the engine's reading is the strict
      one. */
  lemma ParseDateOfIso(s: string)
    requires ParseIsoDate(s).Some?
    ensures ParseDate(s) == ParseIsoDate(s)
  {
    ParseIsoDateFields(s);
  }

  /** The strict reading of a date input's value: exactly `YYYY-MM-DD` naming a real
      calendar day, the only text a date input produces. */
  function ParseIsoDate(s: string): (r: Option<Date>)
    ensures r.Some? ==> Valid(r.value) && 0 <= r.value.year <= 9999
    ensures r.Some? ==> IsIsoShape(s)
  {
    if IsIsoShape(s) then
      DigitsValueBound(s[..4]);
      var d := Date(DigitsValue(s[..4]), DigitsValue(s[5..7]), DigitsValue(s[8..]));
      if Valid(d) then Some(d) else None
    else None
  }

  /** `n` written with exactly `width` digits (leading zeros, high digits dropped). */
  function PadNat(n: nat, width: nat): (r: string)
    ensures |r| == width && AllDigits(r)
  {
    if width == 0 then "" else PadNat(n / 10, width - 1) + [DigitChar(n % 10)]
  }

  function Pow10(w: nat): (p: nat)
    ensures p >= 1
  {
    if w == 0 then 1 else 10 * Pow10(w - 1)
  }

  /** `width` digits never make a number of `Pow10(width)` or more. */
  lemma {:induction false} DigitsValueBound(s: string)
    requires AllDigits(s)
    ensures DigitsValue(s) < Pow10(|s|)
  {
    if |s| > 0 {
      DigitsValueBound(s[..|s| - 1]);
    }
  }

  /** A number that fits in `width` digits reads back from its padded form. */
  lemma {:induction false} PadNatRoundTrip(n: nat, width: nat)
    requires n < Pow10(width)
    ensures DigitsValue(PadNat(n, width)) == n
  {
    if width > 0 {
      SplitLastDigit(n, Pow10(width - 1));
      PadNatRoundTrip(n / 10, width - 1);
      var s := PadNat(n, width);
      assert s[..|s| - 1] == PadNat(n / 10, width - 1);
      assert DigitValue(s[|s| - 1]) == n % 10 by {
        assert s[|s| - 1] == DigitChar(n % 10);
      }
    }
  }

  /** A number below `10 * p` is ten times a number below `p` plus its last digit. */
  lemma SplitLastDigit(n: nat, p: nat)
    requires n < 10 * p
    ensures n / 10 < p && 10 * (n / 10) + n % 10 == n
  {
  }

  /** Ten times `v` plus a digit `d` has quotient `v` and remainder `d` by ten. */
  lemma AppendDigit(v: nat, d: nat)
    requires d < 10
    ensures (10 * v + d) / 10 == v && (10 * v + d) % 10 == d
  {
  }

  /** The `YYYY-MM-DD` text of a date, as a date input produces it. */
  function IsoDateString(d: Date): (s: string)
    requires 0 <= d.year <= 9999 && 1 <= d.month <= 12 && 1 <= d.day <= 31
    ensures IsIsoShape(s)
  {
    PadNat(d.year, 4) + "-" + PadNat(d.month, 2) + "-" + PadNat(d.day, 2)
  }

  /** Parsing the ISO text of a real date gives the date back. */
  lemma IsoDateRoundTrip(d: Date)
    requires Valid(d) && 0 <= d.year <= 9999
    ensures ParseIsoDate(IsoDateString(d)) == Some(d)
  {
    var s := IsoDateString(d);
    assert s[..4] == PadNat(d.year, 4);
    assert s[5..7] == PadNat(d.month, 2);
    assert s[8..] == PadNat(d.day, 2);
    PadNatRoundTrip(d.year, 4);
    PadNatRoundTrip(d.month, 2);
    PadNatRoundTrip(d.day, 2);
  }

  /** Re-padding the value of a digit string to its own width gives the string back. */
  lemma {:induction false} PadNatOfDigits(s: string)
    requires AllDigits(s)
    ensures PadNat(DigitsValue(s), |s|) == s
  {
    if |s| > 0 {
      var init := s[..|s| - 1];
      PadNatOfDigits(init);
      AppendDigit(DigitsValue(init), DigitValue(s[|s| - 1]));
      assert s == init + [s[|s| - 1]];
    }
  }

  /** Printing a parsed ISO date gives back the text it was parsed from. */
  lemma IsoDateStringOfParse(s: string)
    requires ParseIsoDate(s).Some?
    ensures IsoDateString(ParseIsoDate(s).value) == s
  {
    var d := ParseIsoDate(s).value;
    ParseIsoDateFields(s);
    PadNatOfDigits(s[..4]);
    PadNatOfDigits(s[5..7]);
    PadNatOfDigits(s[8..]);
    assert IsoDateString(d) == PadNat(d.year, 4) + "-" + PadNat(d.month, 2) + "-" + PadNat(d.day, 2);
    IsoShapePieces(s);
  }

  /** A string of the ISO shape is its three pieces joined by dashes. */
  lemma IsoShapePieces(s: string)
    requires IsIsoShape(s)
    ensures s == s[..4] + "-" + s[5..7] + "-" + s[8..]
  {
  }

  // ---------------------------------------------------------------------------
  // The date input

  /** A valid date string of HTML: a year of four or more digits, then a two-digit month
      and a two-digit day, joined by dashes. */
  predicate IsInputShape(s: string) {
    && |s| >= 10 && s[|s| - 6] == '-' && s[|s| - 3] == '-'
    && AllDigits(s[..|s| - 6]) && AllDigits(s[|s| - 5..|s| - 3]) && AllDigits(s[|s| - 2..])
  }

  /** `valueAsDate` of a date input: the day its value names when that value is a valid
      date string (a year above zero and a real day of the month) and the day lies in the
      range a `Date` holds; `None` stands for `null`. */
  function InputDate(s: string): (r: Option<Date>)
    ensures r.Some? ==> IsInputShape(s) && Valid(r.value) && 1 <= r.value.year <= 999999
    ensures r.Some? ==> DaysFromCivil(r.value) <= MaxDayNumber
    ensures r.Some? ==> r.value.month == DigitsValue(s[|s| - 5..|s| - 3])
    ensures r.Some? ==> r.value.day == DigitsValue(s[|s| - 2..])
  {
    if IsInputShape(s) then
      var d := Date(DigitsValue(s[..|s| - 6]), DigitsValue(s[|s| - 5..|s| - 3]), DigitsValue(s[|s| - 2..]));
      if Valid(d) && d.year >= 1 && DaysFromCivil(d) <= MaxDayNumber then
        YearBelowMillion(d);
        Some(d)
      else None
    else None
  }

  /** A value whose pieces name a real day of a year from 1 to 200000 is read as that day. */
  lemma InputDateOfFields(s: string, d: Date)
    requires IsInputShape(s) && Valid(d) && 1 <= d.year <= 200000
    requires DigitsValue(s[..|s| - 6]) == d.year
    requires DigitsValue(s[|s| - 5..|s| - 3]) == d.month && DigitsValue(s[|s| - 2..]) == d.day
    ensures InputDate(s) == Some(d)
  {
    YearInDateRange(d);
  }

  /** A day within the range a `Date` holds has a year of at most six digits. */
  lemma YearBelowMillion(d: Date)
    requires Valid(d) && DaysFromCivil(d) <= MaxDayNumber
    ensures d.year <= 999999
  {
    if d.year > 999999 {
      WithinYear(d);
      YearsOrdered(1970, d.year);
    }
  }

  /** Every day of a year from 1 to 200000 lies in the range a `Date` holds. */
  lemma YearInDateRange(d: Date)
    requires Valid(d) && 1 <= d.year <= 200000
    ensures -MaxDayNumber <= DaysFromCivil(d) <= MaxDayNumber
  {
    WithinYear(d);
    DayFromYearClosedForm(d.year);
    DayFromYearClosedForm(d.year + 1);
  }

  /** `toISOString().split("T")[0]` of UTC midnight of `d`: the year in four digits up to
      9999, past it a plus sign and six digits. */
  function IsoDayText(d: Date): (s: string)
    requires 0 <= d.year && 1 <= d.month <= 12 && 1 <= d.day <= 31
    ensures d.year <= 9999 <==> IsIsoShape(s)
    ensures d.year > 9999 ==> |s| == 13 && s[0] == '+' && IsInputShape(s[1..])
  {
    if d.year <= 9999 then IsoDateString(d)
    else
      var t := PadNat(d.year, 6) + "-" + PadNat(d.month, 2) + "-" + PadNat(d.day, 2);
      JoinedInputShape(PadNat(d.year, 6), PadNat(d.month, 2), PadNat(d.day, 2));
      assert ("+" + t)[1..] == t;
      "+" + t
  }

  /** A date input's value with a four-digit year is the strict reading's text. */
  lemma InputDateOfIso(s: string)
    requires IsIsoShape(s)
    ensures InputDate(s) == (if ParseIsoDate(s).Some? && ParseIsoDate(s).value.year >= 1
                             then ParseIsoDate(s) else None)
  {
    assert s[|s| - 5..|s| - 3] == s[5..7] && s[|s| - 2..] == s[8..] && s[..|s| - 6] == s[..4];
    var d := Date(DigitsValue(s[..4]), DigitsValue(s[5..7]), DigitsValue(s[8..]));
    if Valid(d) && d.year >= 1 {
      DigitsValueBound(s[..4]);
      assert Pow10(4) == 10000 by {
        assert Pow10(1) == 10 && Pow10(2) == 100 && Pow10(3) == 1000;
      }
      YearInDateRange(d);
    }
  }

  /** The day text a date input's day is saved as names that day again: read whole with
      four digits, or after its plus sign with six. */
  lemma IsoDayTextRoundTrip(d: Date)
    requires Valid(d) && 1 <= d.year && DaysFromCivil(d) <= MaxDayNumber
    ensures d.year <= 9999 ==> InputDate(IsoDayText(d)) == Some(d)
    ensures d.year > 9999 ==> InputDate(IsoDayText(d)[1..]) == Some(d)
  {
    YearBelowMillion(d);
    assert Pow10(6) == 1000000 by {
      assert Pow10(1) == 10 && Pow10(2) == 100 && Pow10(3) == 1000 && Pow10(4) == 10000 && Pow10(5) == 100000;
    }
    PadNatRoundTrip(d.month, 2);
    PadNatRoundTrip(d.day, 2);
    if d.year <= 9999 {
      IsoDateRoundTrip(d);
      InputDateOfIso(IsoDateString(d));
    } else {
      PadNatRoundTrip(d.year, 6);
      IsoDayTextExpandedPieces(d);
    }
  }

  /** Past the year 9999 the text is a plus sign, then the year, month and day pieces. */
  lemma IsoDayTextExpandedPieces(d: Date)
    requires 9999 < d.year && 1 <= d.month <= 12 && 1 <= d.day <= 31
    ensures IsoDayText(d) == "+" + PadNat(d.year, 6) + "-" + PadNat(d.month, 2) + "-" + PadNat(d.day, 2)
    ensures var t := IsoDayText(d)[1..];
            && t[..|t| - 6] == PadNat(d.year, 6)
            && t[|t| - 5..|t| - 3] == PadNat(d.month, 2)
            && t[|t| - 2..] == PadNat(d.day, 2)
  {
    var t := PadNat(d.year, 6) + "-" + PadNat(d.month, 2) + "-" + PadNat(d.day, 2);
    assert ("+" + t)[1..] == t;
    JoinedInputShape(PadNat(d.year, 6), PadNat(d.month, 2), PadNat(d.day, 2));
  }

  /** A year of four or more digits, a two-digit month and a two-digit day joined by
      dashes have the date input's shape, and its pieces are those three. */
  lemma JoinedInputShape(year: string, month: string, day: string)
    requires |year| >= 4 && |month| == 2 && |day| == 2
    requires AllDigits(year) && AllDigits(month) && AllDigits(day)
    ensures var t := year + "-" + month + "-" + day;
            && IsInputShape(t)
            && t[..|t| - 6] == year && t[|t| - 5..|t| - 3] == month && t[|t| - 2..] == day
  {
    var t := year + "-" + month + "-" + day;
    assert t[..|t| - 6] == year;
    assert t[|t| - 5..|t| - 3] == month;
    assert t[|t| - 2..] == day;
  }

  /** The tail of a date input's value is a dash, the month, a dash and the day. */
  lemma InputShapeTail(s: string)
    requires IsInputShape(s)
    ensures s[|s| - 6..] == "-" + s[|s| - 5..|s| - 3] + "-" + s[|s| - 2..]
  {
  }

  /** The `en-US` long month names. */
  function MonthName(m: int): (r: string)
    requires 1 <= m <= 12
    ensures |r| >= 3
  {
    if m == 1 then "January" else if m == 2 then "February" else if m == 3 then "March"
    else if m == 4 then "April" else if m == 5 then "May" else if m == 6 then "June"
    else if m == 7 then "July" else if m == 8 then "August" else if m == 9 then "September"
    else if m == 10 then "October" else if m == 11 then "November" else "December"
  }

  /** The birthday has been reached `n` times by `today`: the `n`-th anniversary,
      compared field by field, is not after today. */
  predicate AnniversaryReached(b: Date, today: Date, n: int) {
    !Before(today, Date(b.year + n, b.month, b.day))
  }

  /** `calculateAge`: whole years since the birthday, or `None` when the birthday is
      empty or does not parse. */
  function Age(birthday: string, today: Date): (r: Option<int>)
    ensures r.None? <==> birthday == "" || ParseDate(birthday).None?
  {
    if birthday == "" then None
    else match ParseDate(birthday)
      case None => None
      case Some(b) =>
        var age := today.year - b.year;
        var monthDiff := today.month - b.month;
        if monthDiff < 0 || (monthDiff == 0 && today.day < b.day) then Some(age - 1)
        else Some(age)
  }

  /** The age is the number of anniversaries reached: the `age`-th is reached and
      the next one is not. */
  lemma AgeCountsAnniversaries(birthday: string, today: Date)
    requires Age(birthday, today).Some?
    ensures var b := ParseDate(birthday).value;
            var a := Age(birthday, today).value;
            AnniversaryReached(b, today, a) && !AnniversaryReached(b, today, a + 1)
  {
  }

  /** The age is negative exactly when today comes before the birth date. */
  lemma AgeNegativeIffUnborn(birthday: string, today: Date)
    requires Age(birthday, today).Some?
    ensures Age(birthday, today).value < 0 <==> Before(today, ParseDate(birthday).value)
  {
  }

  /** The date this year's birthday falls on, with February 29 moving to March 1 in a
      common year, as `Date.UTC(year, month, day)` rolls it over. */
  function ThisYearsBirthday(b: Date, today: Date): (r: Date)
    requires Valid(b)
    ensures Valid(r) && r.year == today.year
    ensures DaysFromCivil(r) == MakeDay(today.year, b.month - 1, b.day)
    ensures 1 <= b.day <= DaysInMonth(today.year, b.month) ==> r == Date(today.year, b.month, b.day)
    ensures b.day > DaysInMonth(today.year, b.month) ==>
              b.month == 2 && b.day == 29 && r == Date(today.year, 3, 1)
  {
    if b.day > DaysInMonth(today.year, b.month) then
      assert b.month == 2 && b.day == 29 && !IsLeapYear(today.year);
      LeapDayRollsOver(today.year);
      Normalize(today.year, b.month - 1, b.day)
    else
      Normalize(today.year, b.month - 1, b.day)
  }

  /** The day number of the birthday occurrence `calculateDaysUntilBirthday` counts to:
      this year's if it is not before `todayN`, otherwise the same month and day of
      this year's (rolled-over) birthday moved to next year by `setFullYear`. */
  function OccurrenceDay(b: Date, today: Date, passed: bool): int
    requires Valid(b)
  {
    var thisYear := ThisYearsBirthday(b, today);
    if passed then MakeDay(today.year + 1, thisYear.month - 1, thisYear.day)
    else DaysFromCivil(thisYear)
  }

  /** `calculateDaysUntilBirthday` of the current source on a parsed birthday: days
      from today to the next birthday, counted on UTC-midnight-aligned dates. It is
      never negative and never more than 365. */
  function DaysUntil(b: Date, today: Date): (r: int)
    requires Valid(b) && Valid(today)
    ensures 0 <= r <= 365
  {
    var todayN := DaysFromCivil(today);
    var passed := MakeDay(today.year, b.month - 1, b.day) < todayN;
    OccurrenceBounds(b, today, passed);
    OccurrenceDay(b, today, passed) - todayN
  }

  /** `calculateDaysUntilBirthday`: `None` for an empty or invalid birthday (the source
      returns `null`), the countdown otherwise. */
  function DaysUntilBirthday(birthday: string, today: Date): (r: Option<int>)
    requires Valid(today)
    ensures r.None? <==> birthday == "" || ParseDate(birthday).None?
    ensures r.Some? ==> r.value == DaysUntil(ParseDate(birthday).value, today)
  {
    if birthday == "" then None
    else match ParseDate(birthday)
      case None => None
      case Some(b) => Some(DaysUntil(b, today))
  }

  /** Next year's occurrence lies 365 or 366 days after this year's. */
  lemma NextYearGap(b: Date, today: Date)
    requires Valid(b)
    ensures var thisYear := ThisYearsBirthday(b, today);
            var gap := OccurrenceDay(b, today, true) - DaysFromCivil(thisYear);
            365 <= gap <= 366
  {
    var thisYear := ThisYearsBirthday(b, today);
    MakeDayInRange(today.year + 1, thisYear.month - 1, thisYear.day);
    NextYearSameDay(today.year, thisYear.month, thisYear.day);
  }

  lemma OccurrenceBounds(b: Date, today: Date, passed: bool)
    requires Valid(b) && Valid(today)
    requires passed <==> MakeDay(today.year, b.month - 1, b.day) < DaysFromCivil(today)
    ensures 0 <= OccurrenceDay(b, today, passed) - DaysFromCivil(today) <= 365
    ensures passed ==> OccurrenceDay(b, today, passed) > DaysFromCivil(today)
  {
    if passed {
      PassedOccurrenceBounds(b, today);
    } else {
      UpcomingOccurrenceBounds(b, today);
    }
  }

  /** From this year's birthday on, next year's lies after today, and within a year of
      today once this year's has passed. */
  lemma PassedOccurrenceBounds(b: Date, today: Date)
    requires Valid(b) && Valid(today)
    requires MakeDay(today.year, b.month - 1, b.day) <= DaysFromCivil(today)
    ensures DaysFromCivil(today) < OccurrenceDay(b, today, true)
    ensures MakeDay(today.year, b.month - 1, b.day) < DaysFromCivil(today) ==>
              OccurrenceDay(b, today, true) <= DaysFromCivil(today) + 365
  {
    var thisYear := ThisYearsBirthday(b, today);
    WithinYear(today);
    NextYearGap(b, today);
    MakeDayInRange(today.year + 1, thisYear.month - 1, thisYear.day);
    YearStartBound(today.year + 1, thisYear.month, thisYear.day);
  }

  /** Until this year's birthday has passed, it lies within a year from today. */
  lemma UpcomingOccurrenceBounds(b: Date, today: Date)
    requires Valid(b) && Valid(today)
    requires DaysFromCivil(today) <= MakeDay(today.year, b.month - 1, b.day)
    ensures DaysFromCivil(today) <= OccurrenceDay(b, today, false) <= DaysFromCivil(today) + 365
  {
    var thisYear := ThisYearsBirthday(b, today);
    WithinYear(thisYear);
    WithinYear(today);
    YearLengthStep(today.year);
    assert OccurrenceDay(b, today, false) == DaysFromCivil(thisYear);
  }

  /** The countdown is zero exactly on the day this year's birthday falls on. */
  lemma DaysUntilZeroIff(b: Date, today: Date)
    requires Valid(b) && Valid(today)
    ensures DaysUntil(b, today) == 0 <==> ThisYearsBirthday(b, today) == today
  {
    var thisYear := ThisYearsBirthday(b, today);
    var todayN := DaysFromCivil(today);
    var passed := MakeDay(today.year, b.month - 1, b.day) < todayN;
    OccurrenceBounds(b, today, passed);
    DayNumberOrder(thisYear, today);
  }

  /** For a birthday that is not February 29, the countdown is zero exactly when today
      has the birthday's month and day. */
  lemma DaysUntilZeroOnBirthday(b: Date, today: Date)
    requires Valid(b) && Valid(today) && !(b.month == 2 && b.day == 29)
    ensures DaysUntil(b, today) == 0 <==> today.month == b.month && today.day == b.day
  {
    DaysUntilZeroIff(b, today);
  }

  /** For a birthday that is not February 29, the countdown reaches a day with the
      birthday's month and day, and no day before it (from today on) has them. */
  lemma DaysUntilIsNextOccurrence(b: Date, today: Date)
    requires Valid(b) && Valid(today) && !(b.month == 2 && b.day == 29)
    ensures var target := DaysFromCivil(today) + DaysUntil(b, today);
            && (exists y :: Valid(Date(y, b.month, b.day)) && DaysFromCivil(Date(y, b.month, b.day)) == target)
            && (forall d: Date :: Valid(d) && DaysFromCivil(today) <= DaysFromCivil(d) < target
                  ==> !(d.month == b.month && d.day == b.day))
  {
    var thisYear := Date(today.year, b.month, b.day);
    var next := Date(today.year + 1, b.month, b.day);
    var target := DaysFromCivil(today) + DaysUntil(b, today);
    DaysUntilTarget(b, today);
    if DaysFromCivil(thisYear) < DaysFromCivil(today) {
      assert DaysFromCivil(Date(today.year + 1, b.month, b.day)) == target;
    } else {
      assert DaysFromCivil(Date(today.year, b.month, b.day)) == target;
    }
    forall d: Date | Valid(d) && DaysFromCivil(today) <= DaysFromCivil(d) < target
      ensures !(d.month == b.month && d.day == b.day)
    {
      if d.month == b.month && d.day == b.day {
        NotBetweenOccurrences(d, today, thisYear, next, target);
      }
    }
  }

  /** For a birthday that is not February 29, the countdown ends on this year's
      occurrence when it is still ahead, and on next year's otherwise. */
  lemma DaysUntilTarget(b: Date, today: Date)
    requires Valid(b) && Valid(today) && !(b.month == 2 && b.day == 29)
    ensures var thisYear := Date(today.year, b.month, b.day);
            var next := Date(today.year + 1, b.month, b.day);
            var target := DaysFromCivil(today) + DaysUntil(b, today);
            && Valid(thisYear) && Valid(next)
            && (DaysFromCivil(thisYear) < DaysFromCivil(today) ==> target == DaysFromCivil(next))
            && (DaysFromCivil(today) <= DaysFromCivil(thisYear) ==> target == DaysFromCivil(thisYear))
  {
    assert b.day <= DaysInMonth(today.year, b.month) && b.day <= DaysInMonth(today.year + 1, b.month);
    var thisYear := ThisYearsBirthday(b, today);
    assert thisYear == Date(today.year, b.month, b.day);
    var next := Date(today.year + 1, b.month, b.day);
    var passed := MakeDay(today.year, b.month - 1, b.day) < DaysFromCivil(today);
    assert DaysFromCivil(today) + DaysUntil(b, today) == OccurrenceDay(b, today, passed);
    MakeDayInRange(today.year + 1, b.month - 1, b.day);
    assert passed ==> OccurrenceDay(b, today, passed) == DaysFromCivil(next);
  }

  /** A day with the birthday's month and day lies before today, on this year's or next
      year's occurrence, or after next year's. */
  lemma NotBetweenOccurrences(d: Date, today: Date, thisYear: Date, next: Date, target: int)
    requires Valid(d) && Valid(today) && Valid(thisYear) && Valid(next)
    requires thisYear == Date(today.year, d.month, d.day) && next == Date(today.year + 1, d.month, d.day)
    requires DaysFromCivil(thisYear) < DaysFromCivil(today) ==> target == DaysFromCivil(next)
    requires DaysFromCivil(today) <= DaysFromCivil(thisYear) ==> target == DaysFromCivil(thisYear)
    ensures !(DaysFromCivil(today) <= DaysFromCivil(d) < target)
  {
    DayNumberOrder(d, today);
    DayNumberOrder(d, thisYear);
    DayNumberOrder(d, next);
    DayNumberOrder(thisYear, today);
  }

  /** For a February 29 birthday, the countdown ends on this year's birthday while it is
      still ahead (February 29 in a leap year, March 1 otherwise), and on March 1 of
      next year once it has passed: next year's date is this year's moved on a year,
      so it never lands on a February 29. */
  lemma DaysUntilLeapDayTarget(b: Date, today: Date)
    requires Valid(b) && Valid(today) && b.month == 2 && b.day == 29
    ensures var thisYear := ThisYearsBirthday(b, today);
            var target := DaysFromCivil(today) + DaysUntil(b, today);
            && (DaysFromCivil(today) <= DaysFromCivil(thisYear) ==> target == DaysFromCivil(thisYear))
            && (DaysFromCivil(thisYear) < DaysFromCivil(today) ==> target == DaysFromCivil(Date(today.year + 1, 3, 1)))
  {
    var y := today.year;
    var thisYear := ThisYearsBirthday(b, today);
    var passed := MakeDay(y, b.month - 1, b.day) < DaysFromCivil(today);
    assert DaysFromCivil(today) + DaysUntil(b, today) == OccurrenceDay(b, today, passed);
    if passed {
      MakeDayInRange(y + 1, thisYear.month - 1, thisYear.day);
      if IsLeapYear(y) {
        assert !IsLeapYear(y + 1);
        assert thisYear == Date(y, 2, 29);
        LeapDayBeforeMarch(y + 1);
      } else {
        assert thisYear == Date(y, 3, 1);
      }
    }
  }

  /** The countdown as `calculateDaysUntilBirthday` evidently intends it: once this
      year's birthday has passed, next year's is built afresh from the birth month and
      day, as this year's is, instead of moving this year's rolled-over date on a year.
      It stays within a year, and is zero exactly on this year's birthday. */
  function DaysUntilRebuilt(b: Date, today: Date): (r: int)
    requires Valid(b) && Valid(today)
    ensures 0 <= r <= 365
    ensures r == 0 <==> ThisYearsBirthday(b, today) == today
  {
    var todayN := DaysFromCivil(today);
    var thisYear := ThisYearsBirthday(b, today);
    DayNumberOrder(thisYear, today);
    if DaysFromCivil(thisYear) < todayN then
      RebuiltBounds(b, today);
      MakeDay(today.year + 1, b.month - 1, b.day) - todayN
    else
      OccurrenceBounds(b, today, false);
      DaysFromCivil(thisYear) - todayN
  }

  /** Next year's birthday built afresh is this year's moved on a year, except for a
      February 29 birthday when next year is a leap year: it is then that February 29,
      the day before the moved date. */
  lemma NextYearRebuilt(b: Date, today: Date)
    requires Valid(b)
    ensures var leapAhead := b.month == 2 && b.day == 29 && IsLeapYear(today.year + 1);
            && MakeDay(today.year + 1, b.month - 1, b.day) + (if leapAhead then 1 else 0)
               == OccurrenceDay(b, today, true)
            && (leapAhead ==> MakeDay(today.year + 1, b.month - 1, b.day) == DaysFromCivil(Date(today.year + 1, 2, 29)))
  {
    if b.day > DaysInMonth(today.year, b.month) {
      RebuiltAfterRollOver(b, today);
    } else {
      assert ThisYearsBirthday(b, today) == Date(today.year, b.month, b.day);
      LeapYearThenCommon(today.year);
    }
  }

  /** A February 29 birthday that rolled over to March 1 this year: built afresh, next
      year's is February 29 when next year is a leap year, and March 1 otherwise. */
  lemma RebuiltAfterRollOver(b: Date, today: Date)
    requires Valid(b) && b.day > DaysInMonth(today.year, b.month)
    ensures b.month == 2 && b.day == 29
    ensures MakeDay(today.year + 1, 1, 29) + (if IsLeapYear(today.year + 1) then 1 else 0)
            == OccurrenceDay(b, today, true)
    ensures MakeDay(today.year + 1, 1, 29) == DaysFromCivil(Date(today.year + 1, 2, 29))
  {
    var y := today.year;
    assert ThisYearsBirthday(b, today) == Date(y, 3, 1);
    assert OccurrenceDay(b, today, true) == MakeDay(y + 1, 2, 1);
    MakeDayInRange(y + 1, 2, 1);
    MakeDayInRange(y + 1, 1, 29);
    LeapDayBeforeMarch(y + 1);
  }

  /** A leap year is followed by a common year. */
  lemma LeapYearThenCommon(y: int)
    ensures IsLeapYear(y) ==> !IsLeapYear(y + 1)
  {
  }

  /** Once this year's birthday has passed, next year's built afresh lies after today
      and within a year. */
  lemma RebuiltBounds(b: Date, today: Date)
    requires Valid(b) && Valid(today)
    requires DaysFromCivil(ThisYearsBirthday(b, today)) < DaysFromCivil(today)
    ensures DaysFromCivil(today) < MakeDay(today.year + 1, b.month - 1, b.day) <= DaysFromCivil(today) + 365
  {
    MakeDayInRange(today.year + 1, b.month - 1, b.day);
    WithinYear(today);
    YearStartBound(today.year + 1, b.month, b.day);
    OccurrenceBounds(b, today, true);
    NextYearRebuilt(b, today);
  }

  /** The intended countdown differs from the source's only for a February 29 birthday
      that has passed this year when next year is a leap year: it then ends on that
      February 29, one day before the source's March 1. */
  lemma DaysUntilRebuiltAgrees(b: Date, today: Date)
    requires Valid(b) && Valid(today)
    ensures var differs := b.month == 2 && b.day == 29 && IsLeapYear(today.year + 1)
                           && DaysFromCivil(ThisYearsBirthday(b, today)) < DaysFromCivil(today);
            && (!differs ==> DaysUntilRebuilt(b, today) == DaysUntil(b, today))
            && (differs ==> DaysUntilRebuilt(b, today) == DaysUntil(b, today) - 1)
            && (differs ==> DaysFromCivil(today) + DaysUntilRebuilt(b, today) == DaysFromCivil(Date(today.year + 1, 2, 29)))
  {
    var passed := MakeDay(today.year, b.month - 1, b.day) < DaysFromCivil(today);
    assert DaysFromCivil(today) + DaysUntil(b, today) == OccurrenceDay(b, today, passed);
    NextYearRebuilt(b, today);
  }

  /** Day 29 of February is the day before March 1 in a leap year, and March 1 itself
      in a common year. */
  lemma LeapDayBeforeMarch(y: int)
    ensures DayNumber(y, 2, 29) + (if IsLeapYear(y) then 1 else 0) == DayNumber(y, 3, 1)
  {
  }

  /** The counterexample: born 2000-02-29, asked on 2023-03-02, the source counts 365
      days, to 2024-03-01, while 2024-02-29 is 364 days away and is what the intended
      countdown reaches. */
  lemma LeapDayCountdownExample()
    ensures DaysUntil(Date(2000, 2, 29), Date(2023, 3, 2)) == 365
    ensures DaysFromCivil(Date(2024, 2, 29)) - DaysFromCivil(Date(2023, 3, 2)) == 364
    ensures DaysUntilRebuilt(Date(2000, 2, 29), Date(2023, 3, 2)) == 364
  {
    var b, today := Date(2000, 2, 29), Date(2023, 3, 2);
    assert !IsLeapYear(2023) && IsLeapYear(2024);
    assert ThisYearsBirthday(b, today) == Date(2023, 3, 1);
    assert DaysFromCivil(Date(2023, 3, 1)) < DaysFromCivil(today);
    DaysUntilLeapDayTarget(b, today);
    DaysUntilRebuiltAgrees(b, today);
    NextYearSameDay(2023, 3, 1);
    assert DaysFromCivil(Date(2024, 2, 29)) == DaysFromCivil(Date(2024, 3, 1)) - 1;
  }

  /** `Math.ceil(a / b)` for a positive divisor (Dafny's `/` floors when `b > 0`). */
  function CeilDiv(a: int, b: int): (q: int)
    requires b > 0
    ensures b * (q - 1) < a <= b * q
  {
    -((-a) / b)
  }

  /** `calculateDaysUntilBirthday` of the legacy single-file plugin on a parsed
      birthday: this year's birthday is built at local midnight and compared with the
      current instant, so it counts as passed once any time of its own day has elapsed;
      the millisecond difference is rounded up to days. */
  function LegacyDaysUntil(b: Date, today: Date, msOfDay: int): (r: int)
    requires Valid(b) && Valid(today) && 0 <= msOfDay < MsPerDay
  {
    var nowMs := DaysFromCivil(today) * MsPerDay + msOfDay;
    var thisMs := MakeDay(today.year, b.month - 1, b.day) * MsPerDay;
    var passed := thisMs < nowMs;
    var occurrenceMs := OccurrenceDay(b, today, passed) * MsPerDay;
    CeilDiv(occurrenceMs - nowMs, MsPerDay)
  }

  /** The legacy `calculateDaysUntilBirthday`: `None` for an empty or invalid birthday. */
  function LegacyDaysUntilBirthday(birthday: string, today: Date, msOfDay: int): (r: Option<int>)
    requires Valid(today) && 0 <= msOfDay < MsPerDay
    ensures r.None? <==> birthday == "" || ParseDate(birthday).None?
    ensures r.Some? ==> r.value == LegacyDaysUntil(ParseDate(birthday).value, today, msOfDay)
  {
    if birthday == "" then None
    else match ParseDate(birthday)
      case None => None
      case Some(b) => Some(LegacyDaysUntil(b, today, msOfDay))
  }

  /** At midnight the legacy countdown agrees with the current one. */
  lemma LegacyAgreesAtMidnight(b: Date, today: Date)
    requires Valid(b) && Valid(today)
    ensures LegacyDaysUntil(b, today, 0) == DaysUntil(b, today)
  {
    var todayN := DaysFromCivil(today);
    var passed := MakeDay(today.year, b.month - 1, b.day) < todayN;
    assert (MakeDay(today.year, b.month - 1, b.day) * MsPerDay < todayN * MsPerDay) == passed;
    var k := OccurrenceDay(b, today, passed) - todayN;
    assert OccurrenceDay(b, today, passed) * MsPerDay - todayN * MsPerDay == k * MsPerDay;
  }

  /** Once the day has begun (`msOfDay > 0`), the legacy countdown is never zero:
      on the birthday itself it reports next year's birthday. */
  lemma LegacyNeverZeroAfterMidnight(b: Date, today: Date, msOfDay: int)
    requires Valid(b) && Valid(today) && 0 < msOfDay < MsPerDay
    ensures LegacyDaysUntil(b, today, msOfDay) >= 1
  {
    var todayN := DaysFromCivil(today);
    var thisN := MakeDay(today.year, b.month - 1, b.day);
    var nowMs := todayN * MsPerDay + msOfDay;
    ScaledBefore(thisN, todayN, msOfDay);
    var passed := thisN * MsPerDay < nowMs;
    OccurrenceAfterToday(b, today, passed);
    var occ := OccurrenceDay(b, today, passed);
    ScaledAfter(occ, todayN, msOfDay);
    CeilDivPositive(occ * MsPerDay - nowMs, MsPerDay);
  }

  /** A day's midnight is before an instant `msOfDay` into day `n` exactly when the day
      is not after `n`. */
  lemma ScaledBefore(k: int, n: int, msOfDay: int)
    requires 0 < msOfDay < MsPerDay
    ensures k * MsPerDay < n * MsPerDay + msOfDay <==> k <= n
  {
    if k <= n {
      assert k * MsPerDay <= n * MsPerDay;
    } else {
      assert k * MsPerDay >= (n + 1) * MsPerDay;
    }
  }

  /** The midnight of a later day is after an instant `msOfDay` into day `n`. */
  lemma ScaledAfter(k: int, n: int, msOfDay: int)
    requires 0 <= msOfDay < MsPerDay && k > n
    ensures k * MsPerDay - (n * MsPerDay + msOfDay) > 0
  {
    assert k * MsPerDay >= (n + 1) * MsPerDay;
  }

  /** Rounding a positive quotient up gives at least one. */
  lemma CeilDivPositive(a: int, b: int)
    requires a > 0 && b > 0
    ensures CeilDiv(a, b) >= 1
  {
    var q := CeilDiv(a, b);
    assert b * q > 0;
  }

  /** Counting this year's birthday as passed on the day itself, the occurrence counted
      to is still after today. */
  lemma OccurrenceAfterToday(b: Date, today: Date, passed: bool)
    requires Valid(b) && Valid(today)
    requires passed <==> MakeDay(today.year, b.month - 1, b.day) <= DaysFromCivil(today)
    ensures OccurrenceDay(b, today, passed) > DaysFromCivil(today)
  {
    if passed {
      PassedOccurrenceBounds(b, today);
    } else {
      assert OccurrenceDay(b, today, false) == MakeDay(today.year, b.month - 1, b.day);
    }
  }

  /** A day of a year is not before the year's first day. */
  lemma YearStartBound(y: int, m: int, d: int)
    requires 1 <= m <= 12 && d >= 1
    ensures DayNumber(y, m, d) >= DaysBeforeYear(y)
  {
  }

  /** The counterexample: born 1990-03-04, asked on 2024-03-04 one millisecond after
      midnight, the legacy countdown says 365 where the current one says 0. */
  lemma LegacyBirthdayTodayExample()
    ensures LegacyDaysUntilBirthday("1990-03-04", Date(2024, 3, 4), 1) == Some(365)
    ensures DaysUntilBirthday("1990-03-04", Date(2024, 3, 4)) == Some(0)
  {
    ExampleBirthdayParses();
    ExampleLegacyCountdown();
    ExampleCurrentCountdown();
  }

  /** The legacy countdown of the example, on the parsed birthday. */
  lemma ExampleLegacyCountdown()
    ensures LegacyDaysUntil(Date(1990, 3, 4), Date(2024, 3, 4), 1) == 365
  {
    ExampleOccurrences();
    var n := DaysFromCivil(Date(2024, 3, 4));
    assert (n + 365) * MsPerDay - (n * MsPerDay + 1) == 365 * MsPerDay - 1;
    assert CeilDiv(365 * MsPerDay - 1, MsPerDay) == 365;
  }

  /** The current countdown of the example, on the parsed birthday. */
  lemma ExampleCurrentCountdown()
    ensures DaysUntil(Date(1990, 3, 4), Date(2024, 3, 4)) == 0
  {
    ExampleOccurrences();
  }

  lemma ExampleBirthdayParses()
    ensures ParseDate("1990-03-04") == Some(Date(1990, 3, 4))
  {
    var b := Date(1990, 3, 4);
    assert PadNat(1990, 4) == "1990";
    assert PadNat(3, 2) == "03";
    assert PadNat(4, 2) == "04";
    assert "1990-03-04" == IsoDateString(b);
    IsoDateRoundTrip(b);
    ParseDateOfIso("1990-03-04");
  }

  lemma ExampleOccurrences()
    ensures var b := Date(1990, 3, 4);
            var today := Date(2024, 3, 4);
            && ThisYearsBirthday(b, today) == today
            && MakeDay(2024, 2, 4) == DaysFromCivil(today)
            && OccurrenceDay(b, today, true) == DaysFromCivil(today) + 365
  {
    MakeDayInRange(2024, 2, 4);
    MakeDayInRange(2025, 2, 4);
    NextYearSameDay(2024, 3, 4);
  }

  /** `formatBirthday` of the legacy plugin: the ISO date's month name and day,
      `""` for an empty string, the string itself when it does not parse. */
  function LegacyFormatBirthday(dateStr: string): (r: string)
    ensures dateStr == "" ==> r == ""
    ensures dateStr != "" && ParseDate(dateStr).None? ==> r == dateStr
    ensures ParseDate(dateStr).Some? ==>
              var b := ParseDate(dateStr).value;
              r == MonthName(b.month) + " " + NatToString(b.day)
  {
    if dateStr == "" then ""
    else match ParseDate(dateStr)
      case None => dateStr
      case Some(b) => MonthName(b.month) + " " + NatToString(b.day)
  }

  /** The year the `Date(year, month, day)` constructor uses: 0..99 mean 1900..1999. */
  function FullYear(y: int): (r: int)
    ensures 0 <= y <= 99 ==> r == 1900 + y
    ensures !(0 <= y <= 99) ==> r == y
  {
    if 0 <= y <= 99 then 1900 + y else y
  }

  /** The largest day number a `Date` can hold (8.64e15 ms). */
  const MaxDayNumber: int := 100000000

  /** `new Date(year, month - 1, day)` for numbers: the local date it names, with month
      and day overflow, or `None` when the day lies outside the range a `Date` holds. */
  function LocalDate(y: int, m: int, d: int): (r: Option<Date>)
    ensures r.Some? ==> Valid(r.value)
  {
    var year := FullYear(y);
    var n := MakeDay(year, m - 1, d);
    if n < -MaxDayNumber || n > MaxDayNumber then None
    else Some(Normalize(year, m - 1, d))
  }

  /** The date `new Date(year, month - 1, day)` names when built from the pieces of
      `dateStr.split("-")` read by `Number`, or `None` for an invalid date (too few
      pieces, a piece that is not a number, or out of range). */
  function LocalDateOfPieces(dateStr: string): (r: Option<Date>)
    ensures |Split(dateStr, '-')| < 3 ==> r.None?
    ensures r.Some? ==> Valid(r.value)
  {
    var parts := Split(dateStr, '-');
    if |parts| < 3 then None
    else if JsNumber(parts[0]).None? || JsNumber(parts[1]).None? || JsNumber(parts[2]).None? then None
    else LocalDate(JsNumber(parts[0]).value, JsNumber(parts[1]).value, JsNumber(parts[2]).value)
  }

  /** `formatBirthday` of the current source: the month name and day of the local date
      the string's pieces name. An empty string gives `""`, and a string whose pieces
      name no date is given back unchanged. */
  function FormatBirthday(dateStr: string): (r: string)
    ensures dateStr == "" ==> r == ""
    ensures dateStr != "" && LocalDateOfPieces(dateStr).None? ==> r == dateStr
    ensures dateStr != "" && LocalDateOfPieces(dateStr).Some? ==>
              var date := LocalDateOfPieces(dateStr).value;
              r == MonthName(date.month) + " " + NatToString(date.day)
  {
    if dateStr == "" then ""
    else match LocalDateOfPieces(dateStr)
      case None => dateStr
      case Some(date) => MonthName(date.month) + " " + NatToString(date.day)
  }

  lemma {:induction false} SplitAfterSeparator(a: string, b: string, sep: char)
    requires forall k :: 0 <= k < |a| ==> a[k] != sep
    ensures Split(a + [sep] + b, sep) == [a] + Split(b, sep)
    decreases |a|
  {
    var s := a + [sep] + b;
    if |a| > 0 {
      assert s[1..] == a[1..] + [sep] + b;
      SplitAfterSeparator(a[1..], b, sep);
      assert s[0] == a[0] && s[0] != sep;
      assert [a[0]] + a[1..] == a;
    } else {
      assert s[0] == sep && s[1..] == b;
    }
  }

  lemma {:induction false} SplitNoSeparator(a: string, sep: char)
    requires forall k :: 0 <= k < |a| ==> a[k] != sep
    ensures Split(a, sep) == [a]
    decreases |a|
  {
    if |a| > 0 {
      SplitNoSeparator(a[1..], sep);
      assert [a[0]] + a[1..] == a;
    }
  }

  /** An ISO date string splits into its year, month and day digit groups. */
  lemma SplitIsoShape(s: string)
    requires IsIsoShape(s)
    ensures Split(s, '-') == [s[..4], s[5..7], s[8..]]
  {
    assert s == s[..4] + ['-'] + (s[5..7] + ['-'] + s[8..]);
    SplitAfterSeparator(s[..4], s[5..7] + ['-'] + s[8..], '-');
    SplitAfterSeparator(s[5..7], s[8..], '-');
    SplitNoSeparator(s[8..], '-');
  }

  /** On every real date from year 1 on, the current `formatBirthday` names the same
      month and day as the legacy one; year 0 is the exception, since the constructor
      reads it as the common year 1900. */
  lemma FormatBirthdayAgreesOnIsoDates(dateStr: string)
    requires ParseIsoDate(dateStr).Some? && ParseIsoDate(dateStr).value.year >= 1
    ensures FormatBirthday(dateStr) == LegacyFormatBirthday(dateStr)
  {
    LocalDateOfIsoPieces(dateStr);
    ParseDateOfIso(dateStr);
  }

  /** From year 100 on, the pieces of an ISO date string name the date the string
      parses to: the interaction list shows the date that was stored. */
  lemma LocalDateOfPiecesAgreesOnIsoDates(dateStr: string)
    requires ParseIsoDate(dateStr).Some? && ParseIsoDate(dateStr).value.year >= 100
    ensures LocalDateOfPieces(dateStr) == ParseIsoDate(dateStr)
  {
    LocalDateOfIsoPieces(dateStr);
  }

  /** The pieces of an ISO date string from year 1 on name its month and day in the
      year the constructor reads: two-digit years are moved to the 1900s. */
  lemma LocalDateOfIsoPieces(dateStr: string)
    requires ParseIsoDate(dateStr).Some? && ParseIsoDate(dateStr).value.year >= 1
    ensures var b := ParseIsoDate(dateStr).value;
            LocalDateOfPieces(dateStr) == Some(Date(FullYear(b.year), b.month, b.day))
  {
    var b := ParseIsoDate(dateStr).value;
    ParseIsoDateFields(dateStr);
    IsoPieceNumbers(dateStr);
    LocalDateOfNumbers(dateStr, b.year, b.month, b.day);
    LocalDateOfRealDay(b);
  }

  /** A real date from year 1 to 9999 is a date the constructor accepts as it is, apart
      from moving a two-digit year. */
  lemma LocalDateOfRealDay(b: Date)
    requires Valid(b) && 1 <= b.year <= 9999
    ensures LocalDate(b.year, b.month, b.day) == Some(Date(FullYear(b.year), b.month, b.day))
  {
    DayInFullYear(b);
  }

  /** A parsed ISO date holds the digit values of the string's three pieces. */
  lemma ParseIsoDateFields(s: string)
    requires ParseIsoDate(s).Some?
    ensures ParseIsoDate(s).value == Date(DigitsValue(s[..4]), DigitsValue(s[5..7]), DigitsValue(s[8..]))
  {
  }

  /** Three pieces that read as numbers give the date those numbers name. */
  lemma LocalDateOfNumbers(dateStr: string, y: int, m: int, d: int)
    requires var parts := Split(dateStr, '-');
             |parts| >= 3 && JsNumber(parts[0]) == Some(y)
             && JsNumber(parts[1]) == Some(m) && JsNumber(parts[2]) == Some(d)
    ensures LocalDateOfPieces(dateStr) == LocalDate(y, m, d)
  {
  }

  /** A real date from year 1 to 9999, moved to the year the constructor reads, is in
      range and is its own normal form. */
  lemma DayInFullYear(b: Date)
    requires Valid(b) && 1 <= b.year <= 9999
    ensures -MaxDayNumber <= MakeDay(FullYear(b.year), b.month - 1, b.day) <= MaxDayNumber
    ensures Normalize(FullYear(b.year), b.month - 1, b.day) == Date(FullYear(b.year), b.month, b.day)
  {
    var date := Date(FullYear(b.year), b.month, b.day);
    FullYearLeap(b.year);
    assert Valid(date);
    MakeDayInRange(date.year, b.month - 1, b.day);
    FourDigitYearBounds(date);
  }

  /** Moving a two-digit year to the 1900s keeps it a leap year or a common one; year 0
      is the exception (2000-style 0 is leap, 1900 is not). */
  lemma FullYearLeap(y: int)
    requires y >= 1
    ensures IsLeapYear(FullYear(y)) == IsLeapYear(y)
  {
    if y <= 99 {
      assert (1900 + y) % 4 == y % 4;
      assert (1900 + y) % 100 == y % 100 == y;
    }
  }

  /** `formatBirthday` on three numeric pieces whose date is in range names the
      normalised date. */
  lemma FormatBirthdayOfPieces(dateStr: string, y: int, m: int, d: int, date: Date)
    requires dateStr != ""
    requires var parts := Split(dateStr, '-');
             |parts| >= 3 && JsNumber(parts[0]) == Some(y)
             && JsNumber(parts[1]) == Some(m) && JsNumber(parts[2]) == Some(d)
    requires -MaxDayNumber <= MakeDay(FullYear(y), m - 1, d) <= MaxDayNumber
    requires date == Normalize(FullYear(y), m - 1, d)
    ensures FormatBirthday(dateStr) == MonthName(date.month) + " " + NatToString(date.day)
  {
    LocalDateOfNumbers(dateStr, y, m, d);
    assert LocalDate(y, m, d) == Some(date);
  }

  /** The overflow the source relies on: a day past the end of February in an ISO date
      from year 100 on is named as the matching day of March ("2023-02-30" is March 2). */
  lemma FormatBirthdayFebruaryOverflow(dateStr: string, y: nat, d: nat)
    requires IsIsoShape(dateStr)
    requires y == DigitsValue(dateStr[..4]) && d == DigitsValue(dateStr[8..])
    requires 100 <= y <= 9999 && DigitsValue(dateStr[5..7]) == 2
    requires DaysInMonth(y, 2) < d <= DaysInMonth(y, 2) + 31
    ensures FormatBirthday(dateStr) == "March " + NatToString(d - DaysInMonth(y, 2))
  {
    var day := d - DaysInMonth(y, 2);
    var date := Date(y, 3, day);
    FebruaryOverflowDate(y, d);
    assert FullYear(y) == y && Normalize(y, 1, d) == date;
    FormatBirthdayOfIso(dateStr, y, 2, d, date);
    MarchLabel(date);
    assert FormatBirthday(dateStr) == "March " + NatToString(day);
  }

  /** A date in March is labelled "March " and its day. */
  lemma MarchLabel(date: Date)
    requires date.month == 3 && date.day >= 0
    ensures MonthName(date.month) + " " + NatToString(date.day) == "March " + NatToString(date.day)
  {
    assert MonthName(3) + " " == "March ";
  }

  /** An ISO date string is labelled with the month and day its three numbers make. */
  lemma FormatBirthdayOfIso(dateStr: string, y: nat, m: nat, d: nat, date: Date)
    requires IsIsoShape(dateStr)
    requires y == DigitsValue(dateStr[..4]) && m == DigitsValue(dateStr[5..7]) && d == DigitsValue(dateStr[8..])
    requires -MaxDayNumber <= MakeDay(FullYear(y), m - 1, d) <= MaxDayNumber
    requires date == Normalize(FullYear(y), m - 1, d)
    ensures FormatBirthday(dateStr) == MonthName(date.month) + " " + NatToString(date.day)
  {
    IsoPieceNumbers(dateStr);
    LocalDateOfNumbers(dateStr, y, m, d);
    assert LocalDateOfPieces(dateStr) == Some(date);
    assert dateStr != "";
  }

  /** The pieces of an ISO date string read as their digit values. */
  lemma IsoPieceNumbers(s: string)
    requires IsIsoShape(s)
    ensures var parts := Split(s, '-');
            && |parts| == 3
            && JsNumber(parts[0]) == Some(DigitsValue(s[..4]) as int)
            && JsNumber(parts[1]) == Some(DigitsValue(s[5..7]) as int)
            && JsNumber(parts[2]) == Some(DigitsValue(s[8..]) as int)
  {
    SplitIsoShape(s);
  }

  /** A day `d` past the end of February of year `y` names a March day, within range. */
  lemma FebruaryOverflowDate(y: int, d: int)
    requires 100 <= y <= 9999 && DaysInMonth(y, 2) < d <= DaysInMonth(y, 2) + 31
    ensures FullYear(y) == y
    ensures Normalize(y, 1, d) == Date(y, 3, d - DaysInMonth(y, 2))
    ensures -MaxDayNumber <= MakeDay(y, 1, d) <= MaxDayNumber
  {
    OverflowIntoNextMonth(y, 2, d);
    NormalizeInRangeMonth(y, 1, d);
    FourDigitYearBounds(Date(y, 3, d - DaysInMonth(y, 2)));
  }

  /** The legacy formatter rolls a February day up to the 31st over into March, as the
      current one does. */
  lemma LegacyFormatBirthdayFebruaryOverflow(dateStr: string, y: nat, d: nat)
    requires IsIsoShape(dateStr)
    requires y == DigitsValue(dateStr[..4]) && d == DigitsValue(dateStr[8..])
    requires DigitsValue(dateStr[5..7]) == 2 && DaysInMonth(y, 2) < d <= 31
    ensures LegacyFormatBirthday(dateStr) == "March " + NatToString(d - DaysInMonth(y, 2))
  {
    var b := ParseDate(dateStr).value;
    assert b == RollDay(y, 2, d);
    assert MonthName(3) + " " == "March ";
  }

  /** A day past the 31st makes the string invalid for the legacy formatter, which gives
      it back unchanged. */
  lemma LegacyFormatBirthdayDayPast31(dateStr: string)
    requires IsIsoShape(dateStr) && DigitsValue(dateStr[8..]) > 31
    ensures LegacyFormatBirthday(dateStr) == dateStr
  {
  }

  /** `formatDaysAgo` before formatting: whole days since `dateStr` (floor of the
      millisecond difference), which equals the difference in day numbers whatever the
      time of day; `None` when the date does not parse (the source prints NaN). */
  function DaysAgo(dateStr: string, today: Date, msOfDay: int): (r: Option<int>)
    requires Valid(today) && 0 <= msOfDay < MsPerDay
    ensures r.None? <==> ParseDate(dateStr).None?
    ensures r.Some? ==> r.value == DaysFromCivil(today) - DaysFromCivil(ParseDate(dateStr).value)
  {
    match ParseDate(dateStr)
    case None => None
    case Some(d) =>
      var diffMs := (DaysFromCivil(today) * MsPerDay + msOfDay) - DaysFromCivil(d) * MsPerDay;
      Some(diffMs / MsPerDay)
  }

  /** `formatDaysAgo`: "<N> days", or "NaN days" for a date that does not parse. */
  function FormatDaysAgo(dateStr: string, today: Date, msOfDay: int): (r: string)
    requires Valid(today) && 0 <= msOfDay < MsPerDay
    ensures ParseDate(dateStr).None? ==> r == "NaN days"
    ensures ParseDate(dateStr).Some? ==>
              r == IntToString(DaysFromCivil(today) - DaysFromCivil(ParseDate(dateStr).value)) + " days"
  {
    match DaysAgo(dateStr, today, msOfDay)
    case None => "NaN days"
    case Some(n) => IntToString(n) + " days"
  }

  /** Whole months from the birth date to today, counting a month only once its day
      of the month has been reached. */
  function CompletedMonths(b: Date, today: Date): int {
    (today.year - b.year) * 12 + (today.month - b.month) - (if today.day < b.day then 1 else 0)
  }

  /** `calculateDetailedAge` before formatting: years and months by field subtraction,
      borrowing a month when today's day is before the birth day and a year when the
      months go negative. The result splits the completed months into years and
      months 0..11. */
  function DetailedAgeParts(b: Date, today: Date): (r: (int, int))
    requires 1 <= b.month <= 12 && 1 <= today.month <= 12
    ensures 0 <= r.1 < 12
    ensures r.0 * 12 + r.1 == CompletedMonths(b, today)
  {
    var years := today.year - b.year;
    var months := today.month - b.month;
    var months1 := if today.day < b.day then months - 1 else months;
    if months1 < 0 then (years - 1, months1 + 12) else (years, months1)
  }

  /** The years of the detailed age are the age `calculateAge` reports. */
  lemma DetailedAgeYearsIsAge(birthday: string, today: Date)
    requires Valid(today) && Age(birthday, today).Some?
    ensures DetailedAgeParts(ParseDate(birthday).value, today).0 == Age(birthday, today).value
  {
  }

  /** `calculateDetailedAge`: "Y years, M months old"; a birthday that does not parse
      gives NaN in both places. */
  function DetailedAge(birthday: string, today: Date): (r: string)
    requires Valid(today)
    ensures ParseDate(birthday).None? ==> r == "NaN years, NaN months old"
    ensures ParseDate(birthday).Some? ==>
              var p := DetailedAgeParts(ParseDate(birthday).value, today);
              r == IntToString(p.0) + " years, " + IntToString(p.1) + " months old"
  {
    match ParseDate(birthday)
    case None => "NaN years, NaN months old"
    case Some(b) =>
      var p := DetailedAgeParts(b, today);
      IntToString(p.0) + " years, " + IntToString(p.1) + " months old"
  }
}

=== FILE: fields.dfy ===
/** The contact page's field tables and field inputs: which header keys are standard,
    system or custom, which input each field gets, the key an edit is saved under, and
    the two phone-number normalisers. */
module Fields {
  import opened Optional
  import opened Seqs
  import opened Text
  import opened Calendar
  import opened DateMath
  import opened Frontmatter

  /** The values of `STANDARD_FIELDS`, in declaration order. */
  const StandardFields: seq<string> :=
    ["name", "birthday", "email", "phone", "address", "relationship",
     "interactions", "created", "updated", "notes", "extras"]

  /** `SYSTEM_FIELDS`: kept in the header but never shown as editable fields. */
  const SystemFields: seq<string> := ["name", "interactions", "created", "updated", "notes", "extras"]

  /** The input kinds a field can get. */
  datatype InputKind = DateInput | TelInput | EmailInput | TextInput

  /** `SPECIAL_INPUT_FIELDS`: the fields with their own input type. */
  function SpecialInput(field: string): (r: Option<InputKind>)
    ensures r.Some? <==> field in {"birthday", "phone", "email"}
  {
    if field == "birthday" then Some(DateInput)
    else if field == "phone" then Some(TelInput)
    else if field == "email" then Some(EmailInput)
    else None
  }

  /** Every system field is a standard field. */
  lemma SystemFieldsAreStandard()
    ensures forall f :: f in SystemFields ==> f in StandardFields
  {
  }

  /** No standard field is listed twice. */
  lemma StandardFieldsDistinct()
    ensures NoDuplicates(StandardFields)
  {
  }

  /** The fields with a special input are standard and none of them is a system field. */
  lemma SpecialFieldsAreShown()
    ensures forall f :: SpecialInput(f).Some? ==> f in StandardFields && f !in SystemFields
  {
  }

  predicate NotSystem(f: string) {
    f !in SystemFields
  }

  /** The standard fields the contact page shows on their own, in declaration order. */
  const ShownStandardFields: seq<string> := ["birthday", "email", "phone", "address", "relationship"]

  /** The shown standard fields are exactly the standard fields that are not system
      fields. */
  lemma ShownStandardFieldsAreNonSystem()
    ensures forall f :: f in ShownStandardFields <==> f in StandardFields && f !in SystemFields
  {
  }

  /** The keys the custom-field list leaves out, compared lower-cased: the system fields
      and the shown standard fields. */
  function ExcludedFields(): seq<string> {
    SystemFields + ShownStandardFields
  }

  /** A header key shown in the custom-field list. */
  predicate IsCustomKey(key: string) {
    Lower(key) !in ExcludedFields()
  }

  /** Every header key falls in exactly one of three groups by its lower-cased form: a
      system field, a standard field shown on its own, or a custom field. */
  lemma FieldPartition(key: string)
    ensures var k := Lower(key);
            && (k in SystemFields || k in ShownStandardFields || IsCustomKey(key))
            && !(k in SystemFields && k in ShownStandardFields)
            && !(IsCustomKey(key) && (k in SystemFields || k in ShownStandardFields))
  {
  }

  /** The custom fields of a header, in header order. */
  function CustomFields(h: seq<(string, Value)>): (r: seq<(string, Value)>)
    ensures forall i :: 0 <= i < |r| ==> IsCustomKey(r[i].0)
    ensures forall e :: e in h && IsCustomKey(e.0) ==> e in r
    ensures IsSubsequence(r, h)
  {
    FilterIsSubsequence(h, (e: (string, Value)) => IsCustomKey(e.0));
    Filter(h, (e: (string, Value)) => IsCustomKey(e.0))
  }

  /** A standard or system key is never listed as custom, whatever its case. */
  lemma CustomFieldsExcludeKnown(h: seq<(string, Value)>, i: int)
    requires 0 <= i < |CustomFields(h)|
    ensures Lower(CustomFields(h)[i].0) !in StandardFields
  {
  }

  // ---------------------------------------------------------------------------
  // Field inputs

  /** `createInfoField` as written: the birthday and phone inputs are chosen only for the
      exact labels "Birthday" and "Phone"; every other label gets a text input. */
  function FieldKindAsWritten(caption: string): (k: InputKind)
    ensures k == DateInput <==> caption == "Birthday"
    ensures k == TelInput <==> caption == "Phone"
    ensures k != EmailInput
  {
    if caption == "Birthday" then DateInput else if caption == "Phone" then TelInput else TextInput
  }

  /** The labels the contact page passes: the shown standard fields, then the custom keys. */
  predicate RenderedLabel(caption: string) {
    caption in ShownStandardFields || IsCustomKey(caption)
  }

  /** As written, no label the contact page passes reaches the date or phone input:
      the standard fields are passed lower-case and a custom key whose lower-case form is
      "birthday" or "phone" is excluded from the custom list. */
  lemma NoSpecialInputRendered(caption: string)
    requires RenderedLabel(caption)
    ensures FieldKindAsWritten(caption) == TextInput
  {
    assert Lower("Birthday") == "birthday" && Lower("Phone") == "phone";
  }

  /** The dispatch matching the keys the page passes: the label is compared
      lower-cased. */
  function FieldKind(caption: string): (k: InputKind)
    ensures k == DateInput <==> Lower(caption) == "birthday"
    ensures k == TelInput <==> Lower(caption) == "phone"
    ensures k != EmailInput
  {
    var l := Lower(caption);
    if l == "birthday" then DateInput else if l == "phone" then TelInput else TextInput
  }

  /** With the label compared lower-cased, the birthday and phone fields get the inputs
      `SPECIAL_INPUT_FIELDS` names, and the capitalised labels keep the inputs they have
      as written. */
  lemma FieldKindMatchesSpecialInputs()
    ensures FieldKind("birthday") == SpecialInput("birthday").value
    ensures FieldKind("phone") == SpecialInput("phone").value
    ensures FieldKind("Birthday") == FieldKindAsWritten("Birthday")
    ensures FieldKind("Phone") == FieldKindAsWritten("Phone")
  {
    assert Lower("birthday") == "birthday";
    assert Lower("phone") == "phone";
    assert Lower("Birthday") == "birthday";
    assert Lower("Phone") == "phone";
  }

  /** The header key an edit is saved under: "birthday" from the date input, "phone"
      from the phone input, the lower-cased label from a text input. */
  function SaveKey(kind: InputKind, caption: string): (key: string)
    ensures kind == TextInput ==> key == Lower(caption)
  {
    match kind
    case DateInput => "birthday"
    case TelInput => "phone"
    case _ => Lower(caption)
  }

  /** Whichever input a label gets, the edit lands under the lower-cased label. */
  lemma SaveKeyIsLowerLabel(caption: string)
    ensures SaveKey(FieldKind(caption), caption) == Lower(caption)
    ensures SaveKey(FieldKindAsWritten(caption), caption) == Lower(caption)
  {
    if caption == "Birthday" {
      assert Lower(caption) == "birthday";
    } else if caption == "Phone" {
      assert Lower(caption) == "phone";
    }
  }

  /** The value the date input saves: the day it holds printed by `toISOString` up to
      the `T`, or the raw value when it holds no date. */
  function BirthdayValue(input: string): (r: string)
    ensures InputDate(input).None? ==> r == input
    ensures InputDate(input).Some? ==>
              var d := InputDate(input).value;
              && (d.year <= 9999 ==> IsIsoShape(r) && InputDate(r) == Some(d))
              && (d.year > 9999 ==> |r| == 13 && r[0] == '+' && InputDate(r[1..]) == Some(d))
  {
    match InputDate(input)
    case Some(d) =>
      IsoDayTextRoundTrip(d);
      IsoDayText(d)
    case None => input
  }

  /** The date input saves exactly the text it holds when that text has a four-digit
      year or names no date. */
  lemma BirthdayValueUnchanged(input: string)
    requires |input| == 10 || InputDate(input).None?
    ensures BirthdayValue(input) == input
  {
    if InputDate(input).Some? {
      InputDateOfIso(input);
      IsoDateStringOfParse(input);
    }
  }

  /** A year of five or more digits is saved in the expanded form: a plus sign, the year
      in six digits, then the value's month and day. */
  lemma BirthdayValueExpanded(input: string)
    requires InputDate(input).Some? && InputDate(input).value.year > 9999
    ensures BirthdayValue(input) == "+" + PadNat(InputDate(input).value.year, 6) + input[|input| - 6..]
  {
    var d := InputDate(input).value;
    var month, day := input[|input| - 5..|input| - 3], input[|input| - 2..];
    assert BirthdayValue(input) == IsoDayText(d);
    IsoDayTextExpandedPieces(d);
    PadNatOfDigits(month);
    PadNatOfDigits(day);
    InputShapeTail(input);
  }

  /** The value "10000-01-01" is saved as "+010000-01-01". */
  lemma BirthdayValueYear10000()
    ensures BirthdayValue("10000-01-01") == "+010000-01-01"
  {
    var s := "10000-01-01";
    InputDateYear10000();
    BirthdayValueExpanded(s);
    PadNatYear10000();
    Year10000Text(s);
  }

  /** The pieces of the saved text for January 1 of the year 10000. */
  lemma Year10000Text(s: string)
    requires s == "10000-01-01"
    ensures "+" + "010000" + s[|s| - 6..] == "+010000-01-01"
  {
    assert s[|s| - 6..] == "-01-01";
  }

  /** The value "10000-01-01" names January 1 of the year 10000. */
  lemma InputDateYear10000()
    ensures InputDate("10000-01-01") == Some(Date(10000, 1, 1))
  {
    var s := "10000-01-01";
    assert s[..|s| - 6] == "10000" && s[|s| - 5..|s| - 3] == "01" && s[|s| - 2..] == "01";
    DigitsOf10000();
    assert DigitsValue("01") == 1 by {
      assert "01"[..1] == "0";
    }
    InputDateOfFields(s, Date(10000, 1, 1));
  }

  /** The digits "10000" read as ten thousand. */
  lemma DigitsOf10000()
    ensures DigitsValue("10000") == 10000
  {
    assert "10000"[..4] == "1000" && "1000"[..3] == "100" && "100"[..2] == "10" && "10"[..1] == "1";
    assert DigitsValue("1") == 1 && DigitsValue("10") == 10 && DigitsValue("100") == 100;
    assert DigitsValue("1000") == 1000;
  }

  /** The year 10000 in six digits. */
  lemma PadNatYear10000()
    ensures PadNat(10000, 6) == "010000"
  {
    assert PadNat(0, 1) == "0";
    assert PadNat(1, 2) == "01";
    assert PadNat(10, 3) == "010";
    assert PadNat(100, 4) == "0100";
    assert PadNat(1000, 5) == "01000";
  }

  // ---------------------------------------------------------------------------
  // Phone numbers

  predicate IsPhoneChar(c: char) {
    IsDigit(c) || c == '+' || c == '-'
  }

  /** The phone input's sanitiser: every character other than a digit, '+' or '-' is
      removed. */
  function SanitizePhone(s: string): (r: string)
    ensures forall i :: 0 <= i < |r| ==> IsPhoneChar(r[i])
    ensures forall c :: c in r <==> c in s && IsPhoneChar(c)
    ensures IsSubsequence(r, s)
  {
    FilterIsSubsequence(s, IsPhoneChar);
    Filter(s, IsPhoneChar)
  }

  /** Sanitising twice is sanitising once. */
  lemma SanitizePhoneIdempotent(s: string)
    ensures SanitizePhone(SanitizePhone(s)) == SanitizePhone(s)
  {
    FilterIdempotent(s, IsPhoneChar);
  }

  /** A number made only of allowed characters is left alone, and sanitising works
      piecewise, so allowed characters keep their relative order. */
  lemma SanitizePhoneKeeps(a: string, b: string)
    ensures (forall i :: 0 <= i < |a| ==> IsPhoneChar(a[i])) ==> SanitizePhone(a) == a
    ensures SanitizePhone(a + b) == SanitizePhone(a) + SanitizePhone(b)
  {
    if forall i :: 0 <= i < |a| ==> IsPhoneChar(a[i]) {
      FilterAllPass(a, IsPhoneChar);
    }
    FilterConcat(a, b, IsPhoneChar);
  }

  /** The digits of a string, in order. */
  function Digits(s: string): (r: string)
    ensures AllDigits(r) && |r| <= |s|
  {
    Filter(s, IsDigit)
  }

  /** The legacy phone input's formatter: the digits regrouped as `ddd`, `ddd-rest` or
      `ddd-ddd-dddd`, keeping at most ten digits; a value without digits is left as it is. */
  function FormatPhone(value: string): (r: string)
    ensures var d := Digits(value);
            && (|d| == 0 ==> r == value)
            && (|d| > 0 ==> Digits(r) == d[..if |d| < 10 then |d| else 10])
            && (|d| > 0 ==> DigitsAndDashes(r))
  {
    var d := Digits(value);
    if |d| == 0 then value
    else
      if |d| <= 3 then
        DigitsOfDigits(d);
        assert DigitsAndDashes(d);
        Grouped(d)
      else if |d| <= 6 then
        FormatPhoneTwoGroups(d);
        Grouped(d)
      else
        FormatPhoneThreeGroups(d);
        Grouped(d)
  }

  /** A non-empty run of digits regrouped by the formatter. */
  function Grouped(d: string): string
    requires |d| > 0
  {
    if |d| <= 3 then d
    else if |d| <= 6 then d[..3] + "-" + d[3..]
    else d[..3] + "-" + d[3..6] + "-" + d[6..if |d| < 10 then |d| else 10]
  }

  /** A run of digits is its own digits. */
  lemma DigitsOfDigits(s: string)
    requires AllDigits(s)
    ensures Digits(s) == s
  {
    FilterAllPass(s, IsDigit);
  }

  /** A dash has no digits. */
  lemma DigitsOfDash()
    ensures Digits("-") == []
  {
    var dash := "-";
    assert !IsDigit(dash[0]) && dash[1..] == [];
  }

  /** The digits of `a-b`, for digit runs `a` and `b`. */
  lemma DigitsOfTwoGroups(a: string, b: string)
    requires AllDigits(a) && AllDigits(b)
    ensures Digits(a + "-" + b) == a + b
  {
    DigitsOfDash();
    DigitsOfDigits(a);
    DigitsOfDigits(b);
    FilterConcat(a, "-", IsDigit);
    assert a + [] == a;
    FilterConcat(a + "-", b, IsDigit);
  }

  /** The digits of `a-b-c`, for digit runs `a`, `b` and `c`. */
  lemma DigitsOfThreeGroups(a: string, b: string, c: string)
    requires AllDigits(a) && AllDigits(b) && AllDigits(c)
    ensures Digits(a + "-" + b + "-" + c) == a + b + c
  {
    var ab := a + "-" + b;
    DigitsOfTwoGroups(a, b);
    DigitsOfDash();
    DigitsOfDigits(c);
    FilterConcat(ab, "-", IsDigit);
    assert (a + b) + [] == a + b;
    FilterConcat(ab + "-", c, IsDigit);
  }

  /** Every character is a digit or a dash. */
  predicate DigitsAndDashes(s: string) {
    forall i :: 0 <= i < |s| ==> IsDigit(s[i]) || s[i] == '-'
  }

  /** Four to six digits are written as two groups. */
  lemma FormatPhoneTwoGroups(d: string)
    requires AllDigits(d) && 3 < |d| <= 6
    ensures Digits(d[..3] + "-" + d[3..]) == d
    ensures DigitsAndDashes(d[..3] + "-" + d[3..])
  {
    var r := d[..3] + "-" + d[3..];
    DigitsOfTwoGroups(d[..3], d[3..]);
    assert d[..3] + d[3..] == d;
    forall i | 0 <= i < |r|
      ensures IsDigit(r[i]) || r[i] == '-'
    {
      if i < 3 {
        assert r[i] == d[i];
      } else if i > 3 {
        assert r[i] == d[i - 1];
      }
    }
  }

  /** Seven digits or more are written as three groups of at most ten digits in all. */
  lemma FormatPhoneThreeGroups(d: string)
    requires AllDigits(d) && 6 < |d|
    ensures var e := if |d| < 10 then |d| else 10;
            && Digits(d[..3] + "-" + d[3..6] + "-" + d[6..e]) == d[..e]
            && DigitsAndDashes(d[..3] + "-" + d[3..6] + "-" + d[6..e])
  {
    var e := if |d| < 10 then |d| else 10;
    var r := d[..3] + "-" + d[3..6] + "-" + d[6..e];
    DigitsOfThreeGroups(d[..3], d[3..6], d[6..e]);
    assert d[..3] + d[3..6] + d[6..e] == d[..e];
    forall i | 0 <= i < |r|
      ensures IsDigit(r[i]) || r[i] == '-'
    {
      if i < 3 {
        assert r[i] == d[i];
      } else if 3 < i < 7 {
        assert r[i] == d[i - 1];
      } else if i > 7 {
        assert r[i] == d[i - 2];
      }
    }
  }

  /** Formatting an already formatted number changes nothing. */
  lemma FormatPhoneIdempotent(value: string)
    ensures FormatPhone(FormatPhone(value)) == FormatPhone(value)
  {
    var d := Digits(value);
    if |d| > 0 {
      var e := if |d| < 10 then |d| else 10;
      GroupedTruncated(d, e);
    }
  }

  /** Regrouping the first ten digits gives the same text as regrouping them all. */
  lemma GroupedTruncated(d: string, e: int)
    requires |d| > 0 && e == if |d| < 10 then |d| else 10
    ensures Grouped(d[..e]) == Grouped(d)
  {
    var d2 := d[..e];
    if |d| > 6 {
      assert d2[..3] == d[..3] && d2[3..6] == d[3..6] && d2[6..] == d[6..e];
    } else if |d| > 3 {
      assert d2[..3] == d[..3] && d2[3..] == d[3..];
    } else {
      assert d2 == d;
    }
  }
}

=== FILE: frontmatter.dfy ===
/** A contact note's header (its YAML frontmatter) as the plugin sees it once parsed:
    an ordered list of key/value entries, with the JavaScript object operations the
    plugin uses on it: property read, property write and `Object.assign`. */
module Frontmatter {
  import opened Optional
  import opened Seqs
  import opened Text

  /** One entry of a contact's `interactions` list. */
  datatype Interaction = Interaction(date: string, text: string)

  /** The header values the plugin distinguishes. */
  datatype Value =
    | Str(s: string)
    | Num(n: int)
    | Bool(b: bool)
    | Null
    | List(items: seq<Interaction>)

  /** The entries of a header object in property order. */
  type Fields = seq<(string, Value)>

  /** The property names, in order. */
  function Keys(h: Fields): (ks: seq<string>)
    ensures |ks| == |h|
    ensures forall i :: 0 <= i < |h| ==> ks[i] == h[i].0
  {
    if |h| == 0 then [] else Keys(h[..|h| - 1]) + [h[|h| - 1].0]
  }

  /** `h[k]`: the value of property `k`, `None` for undefined. When a list holds a key
      twice the later entry wins, as it does when an object literal repeats a key. */
  function Get(h: Fields, k: string): (r: Option<Value>)
    ensures r.None? <==> k !in Keys(h)
    ensures r.Some? ==> (k, r.value) in h
  {
    if |h| == 0 then None
    else if h[|h| - 1].0 == k then Some(h[|h| - 1].1)
    else
      assert Keys(h) == Keys(h[..|h| - 1]) + [h[|h| - 1].0];
      Get(h[..|h| - 1], k)
  }

  /** Appending an entry: its key now reads as its value, every other key as before. */
  lemma Snoc(h: Fields, e: (string, Value))
    ensures Keys(h + [e]) == Keys(h) + [e.0]
    ensures forall k :: Get(h + [e], k) == if e.0 == k then Some(e.1) else Get(h, k)
  {
    assert (h + [e])[..|h|] == h;
  }

  /** `h[k] = v`: an existing property keeps its place, a new one goes last. */
  function Set(h: Fields, k: string, v: Value): (r: Fields)
    ensures Get(r, k) == Some(v)
    ensures forall k' :: k' != k ==> Get(r, k') == Get(h, k')
    ensures k in Keys(h) ==> Keys(r) == Keys(h)
    ensures k !in Keys(h) ==> Keys(r) == Keys(h) + [k]
  {
    if k !in Keys(h) then
      Snoc(h, (k, v));
      h + [(k, v)]
    else
      var init, last := h[..|h| - 1], h[|h| - 1];
      assert h == init + [last];
      Snoc(init, last);
      if last.0 == k then
        Snoc(init, (k, v));
        init + [(k, v)]
      else
        var s := Set(init, k, v);
        Snoc(s, last);
        s + [last]
  }

  /** Writing a property's own value back leaves the object as it was. */
  lemma {:induction false} SetCurrentValue(h: Fields, k: string)
    requires k in Keys(h)
    ensures Set(h, k, Get(h, k).value) == h
    decreases |h|
  {
    var init, last := h[..|h| - 1], h[|h| - 1];
    assert h == init + [last];
    Snoc(init, last);
    if last.0 != k {
      SetCurrentValue(init, k);
    }
  }

  /** `Object.assign(h, d)`: every property of `d` is written into `h`, in `d`'s order. */
  function Merge(h: Fields, d: Fields): (r: Fields)
    decreases |d|
  {
    if |d| == 0 then h else Merge(Set(h, d[0].0, d[0].1), d[1..])
  }

  /** After the merge every property of `d` has `d`'s value and every other property
      keeps `h`'s: the merge is the union of the two maps, biased towards `d`. */
  lemma {:induction false} MergeGet(h: Fields, d: Fields, k: string)
    ensures Get(Merge(h, d), k) == (if k in Keys(d) then Get(d, k) else Get(h, k))
    decreases |d|
  {
    if |d| > 0 {
      var h1 := Set(h, d[0].0, d[0].1);
      assert Merge(h, d) == Merge(h1, d[1..]);
      MergeGet(h1, d[1..], k);
      DropFirstGet(d, k);
      if k in Keys(d[1..]) {
        assert Get(d, k).Some?;
      } else if k == d[0].0 {
        assert Get(h1, k) == Get(d, k);
      } else {
        assert Get(d, k).None?;
        assert Get(h1, k) == Get(h, k);
      }
    }
  }

  /** Reading a key from a list whose first entry is dropped: only the first entry's own
      key can lose its value, and only when no later entry repeats it. */
  lemma {:induction false} DropFirstGet(d: Fields, k: string)
    requires |d| > 0
    ensures k in Keys(d[1..]) ==> Get(d, k) == Get(d[1..], k)
    ensures k !in Keys(d[1..]) ==> (Get(d, k) == if d[0].0 == k then Some(d[0].1) else None)
    decreases |d|
  {
    if |d| > 1 {
      var init := d[..|d| - 1];
      assert init[1..] == d[1..][..|d| - 2];
      assert Keys(d[1..]) == Keys(init[1..]) + [d[|d| - 1].0];
      DropFirstGet(init, k);
    }
  }

  /** The merge never loses a property: its keys are `h`'s followed by `d`'s new ones. */
  lemma MergeKeys(h: Fields, d: Fields, k: string)
    ensures k in Keys(Merge(h, d)) <==> k in Keys(h) || k in Keys(d)
  {
    MergeGet(h, d, k);
  }

  /** JavaScript truthiness: empty strings, zero, `false` and null are falsy; arrays
      are truthy even when empty. */
  predicate Truthy(v: Value) {
    match v
    case Str(s) => s != ""
    case Num(n) => n != 0
    case Bool(b) => b
    case Null => false
    case List(_) => true
  }

  /** The same for a property that may be undefined. */
  predicate TruthyField(h: Fields, k: string) {
    Get(h, k).Some? && Truthy(Get(h, k).value)
  }

  /** `String(v)`: how a header value reads as text. */
  function Display(v: Value): (r: string)
    ensures v.Str? ==> r == v.s
    ensures v.Num? ==> r == IntToString(v.n)
  {
    match v
    case Str(s) => s
    case Num(n) => IntToString(n)
    case Bool(b) => if b then "true" else "false"
    case Null => "null"
    case List(xs) => Join(seq(|xs|, _ => "[object Object]"), ",")
  }

  /** `h[k] || fallback` read as text: the property's text when it is truthy, the
      fallback otherwise. */
  function TextOr(h: Fields, k: string, fallback: string): (r: string)
    ensures !TruthyField(h, k) ==> r == fallback
    ensures var v := Get(h, k); v.Some? && v.value.Str? && v.value.s != "" ==> r == v.value.s
  {
    if TruthyField(h, k) then Display(Get(h, k).value) else fallback
  }
}

=== FILE: note.dfy ===
/** The text of a contact note: finding the `---` fenced header with the regular
    expressions the plugin uses, the legacy plugin's hand-written header serialiser, and
    the text of a new contact's note. */
module Note {
  import opened Optional
  import opened Text
  import opened Frontmatter

  /** The opening fence, `---` and a line break. */
  const Open: string := "---\n"

  /** The closing fence, a line break and `---`. */
  const Close: string := "\n---"

  /** The closing fence never overlaps itself: no proper suffix is also a prefix. So a
      closing fence cannot start in the three characters before a line break that is
      itself followed by the fence. */
  lemma CloseNoStraddle(s: string, k: int, p: int)
    requires 0 <= k < |s| && s[k] == '\n'
    requires k - 3 <= p < k
    ensures !OccursAt(s, Close, p)
  {
    if 0 <= p && p + 4 <= |s| {
      assert s[p..p + 4][k - p] == s[k];
      assert Close[k - p] == '-';
    }
  }

  /** The earliest closing fence starting at or after `from`: the end of the lazy
      `[\s\S]*?` group. */
  function CloseFrom(s: string, from: nat): (r: Option<nat>)
    ensures r.Some? ==> from <= r.value && OccursAt(s, Close, r.value)
    ensures r.Some? ==> forall q :: from <= q < r.value ==> !OccursAt(s, Close, q)
    ensures r.None? ==> forall q :: from <= q ==> !OccursAt(s, Close, q)
    decreases |s| - from
  {
    if from + 4 > |s| then None
    else if OccursAt(s, Close, from) then Some(from)
    else CloseFrom(s, from + 1)
  }

  /** The closing fence search finds the first fence at or after `from`. */
  lemma CloseFromFinds(s: string, from: nat, p: nat)
    requires from <= p && OccursAt(s, Close, p)
    requires forall q :: from <= q < p ==> !OccursAt(s, Close, q)
    ensures CloseFrom(s, from) == Some(p)
  {
  }

  /** A match of `---\n([\s\S]{minLen,}?)\n---` starting at `q`: the position just after
      it. `minLen` is 0 for `*?` and 1 for `+?`. */
  function MatchAt(s: string, q: nat, minLen: nat): (r: Option<nat>)
    ensures r.Some? ==> q + 8 + minLen <= r.value <= |s| && OccursAt(s, Open, q)
    ensures r.Some? ==> OccursAt(s, Close, r.value - 4)
  {
    if OccursAt(s, Open, q) then
      match CloseFrom(s, q + 4 + minLen)
      case Some(p) => Some(p + 4)
      case None => None
    else None
  }

  /** The captured group of a match at `q` ending at `e`. */
  function Captured(s: string, q: nat, e: nat): string
    requires q + 8 <= e <= |s|
  {
    s[q + 4..e - 4]
  }

  /** `content.match(/^---\n([\s\S]*?)\n---/)[1]`: the header text of a note, `None`
      when the note does not start with a fenced header. */
  function HeaderText(content: string): (r: Option<string>)
    ensures r.Some? ==> StartsWith(content, Open)
  {
    match MatchAt(content, 0, 0)
    case Some(e) => Some(Captured(content, 0, e))
    case None => None
  }

  /** The first match of the unanchored `---\n([\s\S]+?)\n---` starting at or after
      `from`, as its start and end. */
  function FirstMatch(s: string, from: nat): (r: Option<(nat, nat)>)
    ensures r.Some? ==> from <= r.value.0 && r.value.0 + 9 <= r.value.1 <= |s|
    ensures r.Some? ==> MatchAt(s, r.value.0, 1) == Some(r.value.1)
    decreases |s| - from
  {
    if from >= |s| then None
    else match MatchAt(s, from, 1)
      case Some(e) => Some((from, e))
      case None => FirstMatch(s, from + 1)
  }

  /** `s.split(/---\n([\s\S]+?)\n---/)` from position `p`: the text between matches,
      each followed by the match's captured group, and finally the text after the last
      match. */
  function SplitFrom(s: string, p: nat): (parts: seq<string>)
    requires p <= |s|
    ensures |parts| >= 1
    ensures FirstMatch(s, p).None? <==> |parts| == 1
    decreases |s| - p
  {
    var m := FirstMatch(s, p);
    if m.None? then [s[p..]]
    else
      var q, e := m.value.0, m.value.1;
      [s[p..q], Captured(s, q, e)] + SplitFrom(s, e)
  }

  function SplitByFence(s: string): seq<string> {
    SplitFrom(s, 0)
  }

  /** The split has three or more parts exactly when the text holds a fenced block, and
      its third part is the text after the first block up to the next one. */
  lemma SplitByFenceThirdPart(s: string)
    ensures |SplitByFence(s)| >= 3 <==> FirstMatch(s, 0).Some?
    ensures FirstMatch(s, 0).Some? ==>
              var e := FirstMatch(s, 0).value.1;
              SplitByFence(s)[2] == match FirstMatch(s, e)
                                    case None => s[e..]
                                    case Some((q2, _)) => s[e..q2]
  {
    var m := FirstMatch(s, 0);
    if m.Some? {
      var e := m.value.1;
      assert SplitByFence(s) == [s[..m.value.0], Captured(s, m.value.0, e)] + SplitFrom(s, e);
      var m2 := FirstMatch(s, e);
      if m2.Some? {
        assert SplitFrom(s, e) == [s[e..m2.value.0], Captured(s, m2.value.0, m2.value.1)] + SplitFrom(s, m2.value.1);
      } else {
        assert SplitFrom(s, e) == [s[e..]];
      }
    }
  }

  // ---------------------------------------------------------------------------
  // The legacy serialiser

  /** One header line of the legacy serialiser: `key: value`, except that an
      `interactions` list is written as a YAML list of quoted `date` and `text` pairs. */
  function YamlLine(key: string, v: Value): (line: string)
    ensures !(key == "interactions" && v.List?) ==> line == key + ": " + Display(v)
  {
    if key == "interactions" && v.List? then
      key + ":\n" + Join(seq(|v.items|, i requires 0 <= i < |v.items| =>
                               "  - date: \"" + v.items[i].date + "\"\n    text: \"" + v.items[i].text + "\""), "\n")
    else key + ": " + Display(v)
  }

  /** The header text: one entry per line, in the record's order. */
  function YamlText(data: Fields): (r: string)
    ensures |data| > 0 ==> |r| > 0
  {
    var lines := seq(|data|, i requires 0 <= i < |data| => YamlLine(data[i].0, data[i].1));
    if |data| > 0 then
      assert |lines[0]| > 0 by {
        assert lines[0] == YamlLine(data[0].0, data[0].1);
      }
      JoinFirstPrefix(lines, "\n");
      Join(lines, "\n")
    else Join(lines, "\n")
  }

  /** The joined text starts with the first part. */
  lemma JoinFirstPrefix(parts: seq<string>, sep: string)
    requires |parts| > 0
    ensures |Join(parts, sep)| >= |parts[0]|
  {
  }

  /** The legacy `saveContactData` as written: nothing is written unless the note holds a
      fenced block; otherwise the header is rewritten and followed by the split's third
      part, which stops at the next fenced block. */
  function SaveLegacyAsWritten(content: string, data: Fields): (r: Option<string>)
    ensures r.Some? <==> FirstMatch(content, 0).Some?
  {
    var parts := SplitByFence(content);
    SplitByFenceThirdPart(content);
    if |parts| >= 3 then Some(Open + YamlText(data) + Close + parts[2]) else None
  }

  /** The text after the first fenced block, to the end of the note. */
  function Body(content: string): (r: Option<string>)
    ensures r.Some? <==> FirstMatch(content, 0).Some?
  {
    match FirstMatch(content, 0)
    case Some((_, e)) => Some(content[e..])
    case None => None
  }

  /** The serialiser keeping everything after the header. */
  function SaveLegacy(content: string, data: Fields): (r: Option<string>)
    ensures r.Some? <==> FirstMatch(content, 0).Some?
    ensures r.Some? ==> r.value == Open + YamlText(data) + Close + Body(content).value
  {
    match Body(content)
    case Some(rest) => Some(Open + YamlText(data) + Close + rest)
    case None => None
  }

  /** When the body holds a second fenced block, the serialiser as written drops
      everything from that block on. */
  lemma SaveLegacyAsWrittenDropsBody(content: string, data: Fields)
    requires FirstMatch(content, 0).Some?
    requires FirstMatch(content, FirstMatch(content, 0).value.1).Some?
    ensures var q2 := FirstMatch(content, FirstMatch(content, 0).value.1).value.0;
            var e := FirstMatch(content, 0).value.1;
            && SaveLegacyAsWritten(content, data).value ==
                 Open + YamlText(data) + Close + content[e..q2]
            && SaveLegacy(content, data).value == SaveLegacyAsWritten(content, data).value + content[q2..]
  {
    SplitByFenceThirdPart(content);
    var e := FirstMatch(content, 0).value.1;
    var q2 := FirstMatch(content, e).value.0;
    var head := Open + YamlText(data) + Close;
    assert SaveLegacyAsWritten(content, data) == Some(head + content[e..q2]);
    AppendSlices(head, content, e, q2);
  }

  /** Appending a text's tail is appending its two pieces in turn. */
  lemma AppendSlices(head: string, s: string, e: nat, q: nat)
    requires e <= q <= |s|
    ensures head + s[e..] == (head + s[e..q]) + s[q..]
  {
    assert s[e..] == s[e..q] + s[q..];
  }

  /** A note with a horizontal rule pair in its body, for which the serialiser as
      written loses the text from the second rule on. */
  lemma SaveLegacyAsWrittenExample(content: string)
    requires content == Example
    ensures SaveLegacyAsWritten(content, []) == Some("---\n\n---\nx\n")
    ensures SaveLegacy(content, []).value == SaveLegacyAsWritten(content, []).value + "---\ny\n---\n"
  {
    ExampleHeaderBlock(content);
    ExampleBodyBlock(content);
    SaveLegacyAsWrittenDropsBody(content, []);
    assert YamlText([]) == "";
    ExampleSlices(content);
  }

  /** The example's text after the header, up to the next block and from it on. */
  lemma ExampleSlices(content: string)
    requires content == Example
    ensures |content| == 25
    ensures Open + "" + Close + content[12..15] == "---\n\n---\nx\n"
    ensures content[15..] == "---\ny\n---\n"
  {
    assert content[12..15] == "\nx\n";
  }

  /** A note whose body holds a horizontal rule pair around a paragraph. */
  const Example: string := "---\na: 1\n---\nx\n---\ny\n---\n"

  /** The example's header block spans 0 to 12. */
  lemma ExampleHeaderBlock(content: string)
    requires content == Example
    ensures FirstMatch(content, 0) == Some((0, 12))
  {
    ExampleShape(content);
    assert forall k :: 5 <= k < 8 ==> content[k] != '\n';
    HeaderBlockShape(content);
  }

  /** The next block of the example spans 15 to 24. */
  lemma ExampleBodyBlock(content: string)
    requires content == Example
    ensures FirstMatch(content, 12) == Some((15, 24))
  {
    ExampleShape(content);
    assert forall k :: 12 <= k < 15 ==> content[k] != '-';
    BodyBlockShape(content);
  }

  /** The characters of the example the two block lemmas rely on. */
  lemma ExampleShape(content: string)
    requires content == Example
    ensures |content| == 25
    ensures content[..4] == Open && content[8..12] == Close
    ensures content[5] == ':' && content[6] == ' ' && content[7] == '1'
    ensures content[12] == '\n' && content[13] == 'x' && content[14] == '\n'
    ensures content[15..19] == Open && content[20..24] == Close
  {
    assert |content| == 25;
    assert content[..4] == Open;
    assert content[8..12] == Close;
    assert content[15..19] == Open;
    assert content[20..24] == Close;
  }

  /** A text opening with a fence, three characters other than a line break after the
      fourth, and a closing fence at 8 holds a first block from 0 to 12. */
  lemma HeaderBlockShape(s: string)
    requires |s| >= 12 && s[..4] == Open && s[8..12] == Close
    requires forall k :: 5 <= k < 8 ==> s[k] != '\n'
    ensures FirstMatch(s, 0) == Some((0, 12))
  {
    assert OccursAt(s, Open, 0);
    assert OccursAt(s, Close, 8);
    forall q | 5 <= q < 8
      ensures !OccursAt(s, Close, q)
    {
      NoCloseAt(s, q);
    }
    CloseFromFinds(s, 5, 8);
    assert MatchAt(s, 0, 1) == Some(12);
  }

  /** Three characters other than a dash, then a fence at 15 and a closing fence at 20,
      put the next block from 15 to 24. */
  lemma BodyBlockShape(s: string)
    requires |s| >= 24 && s[15..19] == Open && s[20..24] == Close
    requires forall k :: 12 <= k < 15 ==> s[k] != '-'
    ensures FirstMatch(s, 12) == Some((15, 24))
  {
    forall k | 12 <= k < 15
      ensures MatchAt(s, k, 1).None?
    {
      NoOpenAt(s, k);
    }
    assert OccursAt(s, Open, 15);
    assert OccursAt(s, Close, 20);
    CloseFromFinds(s, 20, 20);
    assert MatchAt(s, 15, 1) == Some(24);
    FirstMatchSkips(s, 12, 15);
  }

  /** No closing fence starts at a character other than a line break. */
  lemma NoCloseAt(s: string, q: nat)
    requires q < |s| && s[q] != '\n'
    ensures !OccursAt(s, Close, q)
  {
    if q + 4 <= |s| {
      assert s[q..q + 4][0] == s[q];
    }
  }

  /** No match starts at a character other than a dash. */
  lemma NoOpenAt(s: string, q: nat)
    requires q < |s| && s[q] != '-'
    ensures MatchAt(s, q, 1).None?
  {
    if q + 4 <= |s| {
      assert s[q..q + 4][0] == s[q];
    }
  }

  /** The unanchored search steps over positions where no match starts. */
  lemma FirstMatchSkips(s: string, from: nat, q: nat)
    requires from <= q < |s|
    requires forall k :: from <= k < q ==> MatchAt(s, k, 1).None?
    requires MatchAt(s, q, 1).Some?
    ensures FirstMatch(s, from) == Some((q, MatchAt(s, q, 1).value))
    decreases q - from
  {
    if from < q {
      FirstMatchSkips(s, from + 1, q);
    }
  }

  /** No closing fence anywhere in `s`. */
  ghost predicate NoClose(s: string) {
    forall p :: !OccursAt(s, Close, p)
  }

  /** In `---\n` + `header` + `\n---` + `rest`, the first closing fence at or after
      `from` is the one after the header, when the header holds none. */
  lemma FramedClose(header: string, rest: string, from: nat)
    requires NoClose(header) && 4 <= from <= 4 + |header|
    ensures CloseFrom(Open + header + Close + rest, from) == Some(4 + |header|)
  {
    var s := Open + header + Close + rest;
    var k := 4 + |header|;
    assert s[k..k + 4] == Close;
    forall q | from <= q < k
      ensures !OccursAt(s, Close, q)
    {
      if q + 4 <= k {
        assert s[q..q + 4] == header[q - 4..q];
        assert !OccursAt(header, Close, q - 4);
      } else {
        assert s[k] == '\n';
        CloseNoStraddle(s, k, q);
      }
    }
    CloseFromFinds(s, from, k);
  }

  /** A note written by the serialiser, with a non-empty header that holds no closing
      fence, is read back with the same body: saving it again gives what saving the
      original would. */
  lemma SaveLegacyRoundTrip(content: string, d1: Fields, d2: Fields)
    requires SaveLegacy(content, d1).Some?
    requires |d1| > 0 && NoClose(YamlText(d1))
    ensures var out := SaveLegacy(content, d1).value;
            Body(out) == Body(content) && SaveLegacy(out, d2) == SaveLegacy(content, d2)
  {
    var header := YamlText(d1);
    var rest := Body(content).value;
    var out := Open + header + Close + rest;
    FramedClose(header, rest, 5);
    assert OccursAt(out, Open, 0);
    assert MatchAt(out, 0, 1) == Some(8 + |header|);
    assert FirstMatch(out, 0) == Some((0, 8 + |header|));
    assert out[8 + |header|..] == rest;
  }

  // ---------------------------------------------------------------------------
  // New notes

  /** The text of a new contact's note: the header between fences, then a line break. */
  function NewNoteContent(yaml: string): (r: string)
    ensures StartsWith(r, Open)
  {
    Open + yaml + Close + "\n"
  }

  /** Opening a new note reads back the header it was written with, when the header holds
      no closing fence. */
  lemma NewNoteHeaderRoundTrip(yaml: string)
    ensures NoClose(yaml) ==> HeaderText(NewNoteContent(yaml)) == Some(yaml)
  {
    if NoClose(yaml) {
      var s := NewNoteContent(yaml);
      FramedClose(yaml, "\n", 4);
      assert OccursAt(s, Open, 0);
      assert MatchAt(s, 0, 0) == Some(8 + |yaml|);
      assert s[4..4 + |yaml|] == yaml;
    }
  }
}

=== FILE: optional.dfy ===
/** Optional values: a JavaScript value that may be null or undefined. */
module Optional {

  /** The model's stand-in for a JavaScript value that may be null or undefined. */
  datatype Option<+T> = None | Some(value: T) {

    /** The wrapped value, or `default` when there is none. */
    function GetOr(default: T): T {
      match this
      case Some(v) => v
      case None => default
    }
  }
}

=== FILE: seqs.dfy ===
/** Generic sequence operations shared by the model: filtering, de-duplication, index
    lookup and the JavaScript `splice(i, 1)`. */
module Seqs {

  /** `a` is obtained from `b` by deleting elements: the kept ones stay in order. */
  predicate IsSubsequence<T(==)>(a: seq<T>, b: seq<T>)
    decreases |b|
  {
    if |a| == 0 then true
    else if |b| == 0 then false
    else if a[0] == b[0] then IsSubsequence(a[1..], b[1..])
    else IsSubsequence(a, b[1..])
  }

  /** No value occurs twice. */
  predicate NoDuplicates<T(==)>(s: seq<T>) {
    forall i, j :: 0 <= i < j < |s| ==> s[i] != s[j]
  }

  /** `Array.prototype.filter`: the elements satisfying `p`, in their original order. */
  function Filter<T(!new)>(s: seq<T>, p: T -> bool): (r: seq<T>)
    ensures |r| <= |s|
    ensures forall i :: 0 <= i < |r| ==> p(r[i])
    ensures forall x :: x in r <==> x in s && p(x)
  {
    if |s| == 0 then []
    else if p(s[0]) then [s[0]] + Filter(s[1..], p)
    else Filter(s[1..], p)
  }

  /** Filtering never reorders: the result is a subsequence of the input. */
  lemma {:induction false} FilterIsSubsequence<T(!new)>(s: seq<T>, p: T -> bool)
    ensures IsSubsequence(Filter(s, p), s)
  {
    if |s| > 0 {
      FilterIsSubsequence(s[1..], p);
      if p(s[0]) {
        assert Filter(s, p) == [s[0]] + Filter(s[1..], p);
        assert Filter(s, p)[1..] == Filter(s[1..], p);
      } else {
        SubsequenceSkip(Filter(s, p), s);
      }
    }
  }

  /** Skipping an unmatched head of `b` keeps a subsequence a subsequence. */
  lemma {:induction false} SubsequenceSkip<T>(a: seq<T>, b: seq<T>)
    requires |b| > 0 && IsSubsequence(a, b[1..])
    ensures IsSubsequence(a, b)
    decreases |a| + |b|, 1
  {
    if |a| > 0 && a[0] == b[0] {
      // b's head is matched greedily, so a[1..] must be found in b[1..].
      SubsequenceTail(a, b[1..]);
    }
  }

  /** Dropping the head of a non-empty subsequence keeps it a subsequence. */
  lemma {:induction false} SubsequenceTail<T>(a: seq<T>, b: seq<T>)
    requires |a| > 0 && IsSubsequence(a, b)
    ensures IsSubsequence(a[1..], b)
    decreases |a| + |b|, 0
  {
    assert |b| > 0;
    if a[0] == b[0] {
      SubsequenceSkip(a[1..], b);
    } else {
      SubsequenceTail(a, b[1..]);
      SubsequenceSkip(a[1..], b);
    }
  }

  /** Filtering twice with the same predicate changes nothing the second time. */
  lemma {:induction false} FilterIdempotent<T(!new)>(s: seq<T>, p: T -> bool)
    ensures Filter(Filter(s, p), p) == Filter(s, p)
  {
    if |s| > 0 {
      FilterIdempotent(s[1..], p);
      if p(s[0]) {
        assert Filter(s, p) == [s[0]] + Filter(s[1..], p);
      }
    }
  }

  /** Filtering a concatenation filters each part. */
  lemma {:induction false} FilterConcat<T(!new)>(a: seq<T>, b: seq<T>, p: T -> bool)
    ensures Filter(a + b, p) == Filter(a, p) + Filter(b, p)
  {
    if |a| > 0 {
      var x, t := a[0], a[1..];
      assert a == [x] + t;
      assert a + b == [x] + (t + b);
      FilterConcat(t, b, p);
      FilterCons(x, t + b, p);
      FilterCons(x, t, p);
      if p(x) {
        assert [x] + (Filter(t, p) + Filter(b, p)) == ([x] + Filter(t, p)) + Filter(b, p);
      }
    } else {
      assert a + b == b;
    }
  }

  /** Filtering a sequence with a first element: that element is kept or not, then the
      rest is filtered. */
  lemma FilterCons<T(!new)>(x: T, s: seq<T>, p: T -> bool)
    ensures Filter([x] + s, p) == if p(x) then [x] + Filter(s, p) else Filter(s, p)
  {
    assert ([x] + s)[0] == x;
    assert ([x] + s)[1..] == s;
  }

  /** Joining two duplicate-free sequences with no value in common gives a
      duplicate-free sequence. */
  lemma NoDuplicatesConcat<T>(a: seq<T>, b: seq<T>)
    requires NoDuplicates(a) && NoDuplicates(b)
    requires forall x :: x in a ==> x !in b
    ensures NoDuplicates(a + b)
  {
    var s := a + b;
    forall i, j | 0 <= i < j < |s|
      ensures s[i] != s[j]
    {
      if i < |a| && j >= |a| {
        assert s[i] in a && s[j] == b[j - |a|];
      } else if i >= |a| {
        assert s[i] == b[i - |a|] && s[j] == b[j - |a|];
      }
    }
  }

  /** A slice of a duplicate-free sequence is duplicate-free, and two disjoint slices
      share no value. */
  lemma NoDuplicatesSlices<T>(s: seq<T>, i: int)
    requires NoDuplicates(s) && 0 <= i < |s|
    ensures NoDuplicates(s[..i]) && NoDuplicates(s[i + 1..])
    ensures forall x :: x in s[..i] ==> x !in s[i + 1..] && x != s[i]
    ensures s[i] !in s[i + 1..]
  {
    var pre, post := s[..i], s[i + 1..];
    forall a, b | 0 <= a < b < |pre|
      ensures pre[a] != pre[b]
    {
      assert pre[a] == s[a] && pre[b] == s[b];
    }
    forall a, b | 0 <= a < b < |post|
      ensures post[a] != post[b]
    {
      assert post[a] == s[i + 1 + a] && post[b] == s[i + 1 + b];
    }
    forall x | x in pre
      ensures x !in post && x != s[i]
    {
      var a :| 0 <= a < |pre| && pre[a] == x;
      assert s[a] == x;
      forall b | 0 <= b < |post|
        ensures post[b] != x
      {
        assert post[b] == s[i + 1 + b];
      }
    }
    forall b | 0 <= b < |post|
      ensures post[b] != s[i]
    {
      assert post[b] == s[i + 1 + b];
    }
  }

  /** Filtering keeps a sequence free of duplicates. */
  lemma {:induction false} FilterNoDuplicates<T(!new)>(s: seq<T>, p: T -> bool)
    requires NoDuplicates(s)
    ensures NoDuplicates(Filter(s, p))
  {
    if |s| > 0 {
      assert NoDuplicates(s[1..]) by {
        forall i, j | 0 <= i < j < |s[1..]|
          ensures s[1..][i] != s[1..][j]
        {
          assert s[1..][i] == s[i + 1] && s[1..][j] == s[j + 1];
        }
      }
      FilterNoDuplicates(s[1..], p);
      if p(s[0]) {
        assert s[0] !in s[1..] by {
          forall k | 0 <= k < |s[1..]|
            ensures s[1..][k] != s[0]
          {
            assert s[1..][k] == s[k + 1];
          }
        }
        NoDuplicatesConcat([s[0]], Filter(s[1..], p));
      }
    }
  }

  /** A sequence whose every element passes the filter comes through unchanged. */
  lemma {:induction false} FilterAllPass<T(!new)>(s: seq<T>, p: T -> bool)
    requires forall i :: 0 <= i < |s| ==> p(s[i])
    ensures Filter(s, p) == s
  {
    if |s| > 0 {
      FilterAllPass(s[1..], p);
    }
  }

  /** `Array.from(new Set(s))`: first occurrences only, in order of first appearance. */
  function Dedupe<T(==,!new)>(s: seq<T>): (r: seq<T>)
    ensures NoDuplicates(r)
    ensures forall x :: x in r <==> x in s
    ensures |r| <= |s|
    ensures IsSubsequence(r, s)
    ensures forall i, j :: 0 <= i < j < |r| ==> IndexOf(s, r[i]) < IndexOf(s, r[j])
  {
    if |s| == 0 then []
    else
      var init, x := s[..|s| - 1], s[|s| - 1];
      assert s == init + [x];
      var r := Dedupe(init);
      DedupeSnoc(init, x, r);
      if x in r then r else r + [x]
  }

  /** One step of `Dedupe`: given the first occurrences of `init`, appending `x` adds
      it when it is new and changes nothing otherwise. */
  lemma DedupeSnoc<T>(init: seq<T>, x: T, r: seq<T>)
    requires NoDuplicates(r) && (forall y :: y in r <==> y in init) && |r| <= |init|
    requires IsSubsequence(r, init)
    requires forall i, j :: 0 <= i < j < |r| ==> IndexOf(init, r[i]) < IndexOf(init, r[j])
    ensures var r' := if x in r then r else r + [x];
            var s := init + [x];
            && NoDuplicates(r') && (forall y :: y in r' <==> y in s) && |r'| <= |s|
            && IsSubsequence(r', s)
            && (forall i, j :: 0 <= i < j < |r'| ==> IndexOf(s, r'[i]) < IndexOf(s, r'[j]))
  {
    FirstOrderSnoc(init, x, r);
    if x in r {
      SubsequenceSnocRight(r, init, x);
    } else {
      SubsequenceSnoc(r, init, x);
      FirstOrderAppendNew(init, x, r);
    }
  }

  /** Appending to `init` keeps the first-appearance order of values already in it. */
  lemma FirstOrderSnoc<T>(init: seq<T>, x: T, r: seq<T>)
    requires forall y :: y in r ==> y in init
    requires forall i, j :: 0 <= i < j < |r| ==> IndexOf(init, r[i]) < IndexOf(init, r[j])
    ensures forall i, j :: 0 <= i < j < |r| ==> IndexOf(init + [x], r[i]) < IndexOf(init + [x], r[j])
  {
    forall i | 0 <= i < |r|
      ensures IndexOf(init + [x], r[i]) == IndexOf(init, r[i])
    {
      IndexOfSnoc(init, x, r[i]);
    }
  }

  /** A value new to `init` appears last in `init + [x]`, after everything of `r`. */
  lemma FirstOrderAppendNew<T>(init: seq<T>, x: T, r: seq<T>)
    requires x !in init && forall y :: y in r ==> y in init
    requires forall i, j :: 0 <= i < j < |r| ==> IndexOf(init + [x], r[i]) < IndexOf(init + [x], r[j])
    ensures var r' := r + [x];
            forall i, j :: 0 <= i < j < |r'| ==> IndexOf(init + [x], r'[i]) < IndexOf(init + [x], r'[j])
  {
    IndexOfSnoc(init, x, x);
    var r' := r + [x];
    forall i, j | 0 <= i < j < |r'|
      ensures IndexOf(init + [x], r'[i]) < IndexOf(init + [x], r'[j])
    {
      assert r'[i] == r[i];
      if j == |r| {
        IndexOfSnoc(init, x, r[i]);
      } else {
        assert r'[j] == r[j];
      }
    }
  }

  /** Filtering keeps the order of first appearance of the values it keeps. */
  lemma {:induction false} FilterKeepsFirstOrder<T(!new)>(s: seq<T>, p: T -> bool, x: T, y: T)
    requires x in s && y in s && p(x) && p(y)
    ensures IndexOf(Filter(s, p), x) < IndexOf(Filter(s, p), y) <==> IndexOf(s, x) < IndexOf(s, y)
  {
    var f := Filter(s, p);
    if s[0] != x && s[0] != y {
      assert x in s[1..] && y in s[1..] by {
        var i :| 0 <= i < |s| && s[i] == x;
        var j :| 0 <= j < |s| && s[j] == y;
        assert s[1..][i - 1] == x && s[1..][j - 1] == y;
      }
      FilterKeepsFirstOrder(s[1..], p, x, y);
      if p(s[0]) {
        assert f == [s[0]] + Filter(s[1..], p);
        assert f[1..] == Filter(s[1..], p);
      }
    } else if p(s[0]) {
      assert f == [s[0]] + Filter(s[1..], p);
    }
  }

  /** Appending to the longer sequence keeps a subsequence a subsequence. */
  lemma {:induction false} SubsequenceSnocRight<T>(a: seq<T>, b: seq<T>, x: T)
    requires IsSubsequence(a, b)
    ensures IsSubsequence(a, b + [x])
    decreases |b|
  {
    if |a| > 0 {
      assert (b + [x])[1..] == b[1..] + [x];
      if a[0] == b[0] {
        SubsequenceSnocRight(a[1..], b[1..], x);
      } else {
        SubsequenceSnocRight(a, b[1..], x);
      }
    }
  }

  /** Appending the same value to both sides keeps a subsequence a subsequence. */
  lemma {:induction false} SubsequenceSnoc<T>(a: seq<T>, b: seq<T>, x: T)
    requires IsSubsequence(a, b)
    ensures IsSubsequence(a + [x], b + [x])
    decreases |b|
  {
    if |a| == 0 {
      assert a + [x] == [x];
      SubsequenceOfSingleton(b, x);
    } else {
      assert (a + [x])[1..] == a[1..] + [x];
      assert (b + [x])[1..] == b[1..] + [x];
      if a[0] == b[0] {
        SubsequenceSnoc(a[1..], b[1..], x);
      } else {
        SubsequenceSnoc(a, b[1..], x);
      }
    }
  }

  /** A sequence ending in `x` has `[x]` as a subsequence. */
  lemma {:induction false} SubsequenceOfSingleton<T>(b: seq<T>, x: T)
    ensures IsSubsequence([x], b + [x])
    decreases |b|
  {
    if |b| > 0 {
      assert (b + [x])[1..] == b[1..] + [x];
      SubsequenceOfSingleton(b[1..], x);
    }
  }

  /** Appending a value moves no first occurrence, and a value new to `s` is first found
      at the appended place. */
  lemma IndexOfSnoc<T>(s: seq<T>, x: T, y: T)
    ensures y in s ==> IndexOf(s + [x], y) == IndexOf(s, y)
    ensures y !in s && y == x ==> IndexOf(s + [x], y) == |s|
  {
    if y in s {
      var k0 := IndexOf(s, y);
      assert (s + [x])[k0] == y;
    }
  }


  /** `indexOf`: the first position holding `x`, or -1 when there is none. */
  function IndexOf<T(==)>(s: seq<T>, x: T): (r: int)
    ensures -1 <= r < |s|
    ensures r == -1 <==> x !in s
    ensures 0 <= r ==> s[r] == x && x !in s[..r]
  {
    if |s| == 0 then -1
    else if s[0] == x then 0
    else
      var k := IndexOf(s[1..], x);
      if k == -1 then -1
      else
        assert s[..k + 1] == [s[0]] + s[1..][..k];
        k + 1
  }

  /** `Array.prototype.splice(start, 1)` on a copy: a negative start counts from the end,
      so `start == -1` removes the last element; a start past the end removes nothing. */
  function SpliceOne<T>(s: seq<T>, start: int): (r: seq<T>)
    ensures 0 <= start < |s| ==> r == s[..start] + s[start + 1..]
    ensures -|s| <= start < 0 ==> r == s[..|s| + start] + s[|s| + start + 1..]
    ensures start >= |s| ==> r == s
    ensures |s| > 0 && start < |s| ==> |r| == |s| - 1
  {
    var k := if start < 0 then (if |s| + start < 0 then 0 else |s| + start) else start;
    if k < |s| then s[..k] + s[k + 1..] else s
  }
}

=== FILE: settings.dfy ===
/** The settings tab: the list of relationship types (add, rename, delete), the folder
    suggestions for the contacts folder, and the columns offered as the default sort. */
module Settings {
  import opened Optional
  import opened Seqs
  import opened Text
  import Table

  // ---------------------------------------------------------------------------
  // Adding a type

  /** The name a typed value is stored under: trimmed and lower-cased, `None` when
      nothing but white space was typed. */
  function TypeName(input: string): (r: Option<string>)
    ensures r.None? <==> Trim(input) == ""
    ensures r.Some? ==> IsLower(r.value) && r.value != ""
  {
    var value := Trim(input);
    LowerIsLower(value);
    if value == "" then None else Some(Lower(value))
  }

  /** Adding a relationship type: the trimmed, lower-cased value is appended unless it is
      empty or already listed. */
  function AddType(types: seq<string>, input: string): (r: seq<string>)
    ensures NoDuplicates(types) ==> NoDuplicates(r)
    ensures TypeName(input).None? ==> r == types
    ensures TypeName(input).Some? ==> TypeName(input).value in r
    ensures TypeName(input).Some? && TypeName(input).value in types ==> r == types
    ensures TypeName(input).Some? && TypeName(input).value !in types ==> r == types + [TypeName(input).value]
    ensures forall x :: x in r <==> x in types || Some(x) == TypeName(input)
  {
    match TypeName(input)
    case None => types
    case Some(t) =>
      if t in types then types
      else
        NoDuplicatesAppend(types, t);
        types + [t]
  }

  /** Appending a value not yet listed keeps a list free of duplicates. */
  lemma NoDuplicatesAppend(types: seq<string>, t: string)
    requires t !in types
    ensures NoDuplicates(types) ==> NoDuplicates(types + [t])
  {
    if NoDuplicates(types) {
      NoDuplicatesConcat(types, [t]);
    }
  }

  // ---------------------------------------------------------------------------
  // Deleting a type

  /** Deleting a type: `splice(indexOf(type), 1)`. When the type is not listed the index
      is -1, and the splice removes the last entry instead. */
  function DeleteType(types: seq<string>, current: string): (r: seq<string>)
    ensures current in types ==>
              var i := IndexOf(types, current);
              r == types[..i] + types[i + 1..]
    ensures current !in types && |types| > 0 ==> r == types[..|types| - 1]
    ensures |types| > 0 ==> |r| == |types| - 1
    ensures |types| == 0 ==> r == []
  {
    SpliceOne(types, IndexOf(types, current))
  }

  /** Deleting a type removes it from a list without duplicates. */
  lemma DeleteTypeRemoves(types: seq<string>, current: string)
    requires NoDuplicates(types) && current in types
    ensures current !in DeleteType(types, current)
    ensures forall x :: x != current ==> (x in DeleteType(types, current) <==> x in types)
  {
    var i := IndexOf(types, current);
    var r := DeleteType(types, current);
    forall x
      ensures x in r <==> x in types && x != current
    {
      if x in types && x != current {
        var k :| 0 <= k < |types| && types[k] == x;
        if k < i {
          assert r[k] == x;
        } else {
          assert r[k - 1] == x;
        }
      }
      if x in r {
        var k :| 0 <= k < |r| && r[k] == x;
        if k < i {
          assert x == types[k];
        } else {
          assert x == types[k + 1];
        }
      }
    }
  }

  /** Deleting a type just added restores the list. */
  lemma DeleteUndoesAdd(types: seq<string>, input: string)
    requires TypeName(input).Some? && TypeName(input).value !in types
    ensures DeleteType(AddType(types, input), TypeName(input).value) == types
  {
    var t := TypeName(input).value;
    var added := types + [t];
    assert added[..|types|] == types;
    assert added[|types|] == t;
  }

  // ---------------------------------------------------------------------------
  // Renaming a type

  /** The rename does nothing only when the value typed is the type itself, in lower
      case. */
  predicate RenameIsNoOp(current: string, value: string) {
    Lower(value) == current && value == Lower(value)
  }

  /** The filter of the rename: entries whose lower-case form is not the new name. */
  function NoClash(newType: string): string -> bool {
    t => Lower(t) != newType
  }

  /** Renaming `current` to `value`: the lower-cased value takes the renamed entry's
      place, and every other entry that reads as the new name in lower case is dropped.
      A type no longer listed only has the clashing entries dropped. */
  function RenameType(types: seq<string>, current: string, value: string): (r: seq<string>)
    ensures RenameIsNoOp(current, value) ==> r == types
    ensures !RenameIsNoOp(current, value) && current in types ==> Lower(value) in r
    ensures !RenameIsNoOp(current, value) ==>
              forall x :: x in r ==> x == Lower(value) || (x in types && Lower(x) != Lower(value))
    ensures !RenameIsNoOp(current, value) && current !in types ==>
              r == Filter(types, NoClash(Lower(value)))
    ensures |r| <= |types|
  {
    if RenameIsNoOp(current, value) then types
    else
      var newType := Lower(value);
      var index := IndexOf(types, current);
      if index < 0 then Filter(types, NoClash(newType))
      else
        assert types == types[..index] + [types[index]] + types[index + 1..];
        Filter(types[..index], NoClash(newType)) + [newType] + Filter(types[index + 1..], NoClash(newType))
  }

  /** On a list without duplicates the rename keeps it without duplicates. */
  lemma RenameTypeNoDuplicates(types: seq<string>, current: string, value: string)
    requires NoDuplicates(types) && current in types && !RenameIsNoOp(current, value)
    ensures NoDuplicates(RenameType(types, current, value))
  {
    var newType := Lower(value);
    var index := IndexOf(types, current);
    var pre, post := types[..index], types[index + 1..];
    var fpre, fpost := Filter(pre, NoClash(newType)), Filter(post, NoClash(newType));
    assert RenameType(types, current, value) == fpre + [newType] + fpost;
    LowerIsLower(value);
    NoDuplicatesSlices(types, index);
    FilterNoDuplicates(pre, NoClash(newType));
    FilterNoDuplicates(post, NoClash(newType));
    forall x | x in fpre
      ensures x !in [newType]
    {
      assert NoClash(newType)(x);
    }
    NoDuplicatesConcat(fpre, [newType]);
    forall x | x in fpre + [newType]
      ensures x !in fpost
    {
      if x in fpre {
        assert x in pre;
      } else {
        assert !NoClash(newType)(x);
      }
    }
    NoDuplicatesConcat(fpre + [newType], fpost);
  }

  /** The rename keeps every entry other than the renamed one whose lower-case form
      differs from the new name. */
  lemma RenameTypeKeepsOthers(types: seq<string>, current: string, value: string, x: string)
    requires current in types && !RenameIsNoOp(current, value)
    requires x in types && x != current && Lower(x) != Lower(value)
    ensures x in RenameType(types, current, value)
  {
    var index := IndexOf(types, current);
    var k :| 0 <= k < |types| && types[k] == x;
    if k < index {
      assert x in types[..index];
    } else {
      assert x == types[index + 1..][k - index - 1];
    }
  }

  /** The rename as written: the filtered list is built, then the new name is written at
      the renamed entry's old position. When entries before that position were dropped,
      the position now holds a later entry (or lies past the end, leaving holes, shown as
      `None`), so the renamed entry survives and another one is overwritten. */
  function RenameAsWritten(types: seq<string>, current: string, value: string): (r: seq<Option<string>>)
  {
    if RenameIsNoOp(current, value) then Somes(types)
    else
      var newType := Lower(value);
      var index := IndexOf(types, current);
      if index < 0 then Somes(Filter(types, NoClash(newType)))
      else
        var kept := Filter(types[..index], NoClash(newType)) + [types[index]]
                    + Filter(types[index + 1..], NoClash(newType));
        if index < |kept| then Somes(kept[index := newType])
        else Somes(kept) + seq(index - |kept|, _ => None) + [Some(newType)]
  }

  /** Every entry present. */
  function Somes(s: seq<string>): (r: seq<Option<string>>)
    ensures |r| == |s| && forall i :: 0 <= i < |s| ==> r[i] == Some(s[i])
  {
    seq(|s|, i requires 0 <= i < |s| => Some(s[i]))
  }

  /** When nothing before the renamed entry is dropped, the rename as written is the
      intended one. */
  lemma RenameAsWrittenAgrees(types: seq<string>, current: string, value: string)
    requires current in types
    requires forall k :: 0 <= k < IndexOf(types, current) ==> Lower(types[k]) != Lower(value)
    ensures RenameAsWritten(types, current, value) == Somes(RenameType(types, current, value))
  {
    if !RenameIsNoOp(current, value) {
      var newType := Lower(value);
      var index := IndexOf(types, current);
      var pre := types[..index];
      var fpost := Filter(types[index + 1..], NoClash(newType));
      forall k | 0 <= k < |pre|
        ensures NoClash(newType)(pre[k])
      {
        assert pre[k] == types[k];
      }
      FilterAllPass(pre, NoClash(newType));
      var kept := pre + [types[index]] + fpost;
      UpdateAfterPrefix(pre, types[index], fpost, newType);
      assert RenameAsWritten(types, current, value) == Somes(kept[index := newType]);
      assert RenameType(types, current, value) == pre + [newType] + fpost;
    }
  }

  /** Overwriting the entry after a prefix replaces just that entry. */
  lemma UpdateAfterPrefix<T>(pre: seq<T>, x: T, post: seq<T>, y: T)
    ensures |pre + [x] + post| > |pre|
    ensures (pre + [x] + post)[|pre| := y] == pre + [y] + post
  {
  }

  /** Renaming "b" to "A" in ["a", "b"]: the intended rename gives ["a"], the rename as
      written keeps "b" and appends "a". */
  lemma RenameAsWrittenExample()
    ensures RenameType(["a", "b"], "b", "A") == ["a"]
    ensures RenameAsWritten(["a", "b"], "b", "A") == [Some("b"), Some("a")]
  {
    var types := ["a", "b"];
    assert Lower("A") == "a";
    assert !RenameIsNoOp("b", "A");
    assert IndexOf(types, "b") == 1;
    assert types[..1] == ["a"] && types[2..] == [];
    assert Filter(["a"], NoClash("a")) == [];
  }

  // ---------------------------------------------------------------------------
  // Folder suggestions and sort options

  /** The folder suggestions: the folder paths that contain the input, ignoring case, in
      their original order. */
  function FolderSuggestions(folders: seq<string>, input: string): (r: seq<string>)
    ensures IsSubsequence(r, folders)
    ensures forall f :: f in r <==> f in folders && Contains(Lower(f), Lower(input))
  {
    FilterIsSubsequence(folders, f => Contains(Lower(f), Lower(input)));
    Filter(folders, f => Contains(Lower(f), Lower(input)))
  }

  /** An empty input suggests every folder; the suggestions do not depend on the input's
      case. */
  lemma FolderSuggestionsEmptyInput(folders: seq<string>, input: string)
    ensures FolderSuggestions(folders, "") == folders
    ensures FolderSuggestions(folders, Lower(input)) == FolderSuggestions(folders, input)
  {
    forall i | 0 <= i < |folders|
      ensures Contains(Lower(folders[i]), Lower(""))
    {
      assert StartsWith(Lower(folders[i]), "");
    }
    FilterAllPass(folders, f => Contains(Lower(f), Lower("")));
    LowerIsLower(input);
  }

  /** The columns offered as the default sort, in menu order. The birthday label column
      is not offered; the birthday entry sorts by the raw date. */
  const SortColumnOptions: seq<Table.Column> :=
    [Table.Name, Table.Age, Table.Birthday, Table.DaysUntilBirthday, Table.Relationship, Table.LastInteraction]

  /** Six distinct columns are offered, and every column but the formatted birthday. */
  lemma SortColumnOptionsDistinct()
    ensures |SortColumnOptions| == 6 && NoDuplicates(SortColumnOptions)
    ensures forall c: Table.Column :: c in SortColumnOptions <==> c != Table.FormattedBirthday
  {
  }
}

=== FILE: sorting.dfy ===
/** `Array.prototype.sort` with a comparator, as a stable insertion sort on sequences.
    The language requires the built-in sort to be stable, so for a consistent comparator
    (one that orders its arguments as a total preorder) this is the order the engine
    produces; for an inconsistent one the engine's order is implementation-defined. */
module Sorting {

  /** `a` goes no later than `b`: the comparator does not ask to swap them. */
  predicate NotAfter<T>(cmp: (T, T) -> int, a: T, b: T) {
    cmp(a, b) <= 0
  }

  /** Adjacent elements are in the comparator's order. */
  predicate Sorted<T>(s: seq<T>, cmp: (T, T) -> int) {
    forall i :: 0 <= i < |s| - 1 ==> NotAfter(cmp, s[i], s[i + 1])
  }

  /** A comparator that never asks to swap both ways round: whenever `a` must follow `b`,
      `b` may precede `a`. */
  ghost predicate Connex<T(!new)>(cmp: (T, T) -> int) {
    forall a: T, b: T :: cmp(a, b) > 0 ==> cmp(b, a) <= 0
  }

  /** The "may precede" relation is transitive. */
  ghost predicate Transitive<T(!new)>(cmp: (T, T) -> int) {
    forall a: T, b: T, c: T :: cmp(a, b) <= 0 && cmp(b, c) <= 0 ==> cmp(a, c) <= 0
  }

  /** Inserts `x` in front of the first element it may precede. */
  function Insert<T>(x: T, s: seq<T>, cmp: (T, T) -> int): (r: seq<T>)
    ensures |r| == |s| + 1
    ensures multiset(r) == multiset(s) + multiset{x}
  {
    if |s| == 0 then [x]
    else if cmp(x, s[0]) <= 0 then [x] + s
    else
      assert s == [s[0]] + s[1..];
      [s[0]] + Insert(x, s[1..], cmp)
  }

  /** `[...s].sort(cmp)`: the input itself is a value and stays as it was. */
  function SortBy<T>(s: seq<T>, cmp: (T, T) -> int): (r: seq<T>)
    ensures |r| == |s|
    ensures multiset(r) == multiset(s)
  {
    if |s| == 0 then []
    else
      assert s == [s[0]] + s[1..];
      Insert(s[0], SortBy(s[1..], cmp), cmp)
  }

  /** Two elements the comparator asks to swap come out swapped. */
  lemma SortPairSwapped<T>(x: T, y: T, cmp: (T, T) -> int)
    requires cmp(x, y) > 0
    ensures SortBy([x, y], cmp) == [y, x]
  {
    assert [x, y][1..] == [y];
    assert SortBy([y], cmp) == [y];
    assert Insert(x, [y], cmp) == [y] + Insert(x, [], cmp);
  }

  /** Inserting into a sorted sequence keeps it sorted, for a connex comparator. */
  lemma {:induction false} InsertSorted<T(!new)>(x: T, s: seq<T>, cmp: (T, T) -> int)
    requires Connex(cmp) && Sorted(s, cmp)
    ensures Sorted(Insert(x, s, cmp), cmp)
    ensures |s| > 0 ==> var r := Insert(x, s, cmp); r[0] == x || r[0] == s[0]
  {
    if |s| > 0 && cmp(x, s[0]) > 0 {
      var t := Insert(x, s[1..], cmp);
      assert Sorted(s[1..], cmp) by {
        forall i | 0 <= i < |s[1..]| - 1
          ensures NotAfter(cmp, s[1..][i], s[1..][i + 1])
        {
          assert s[1..][i] == s[i + 1] && s[1..][i + 1] == s[i + 2];
        }
      }
      InsertSorted(x, s[1..], cmp);
      var r := [s[0]] + t;
      forall i | 0 <= i < |r| - 1
        ensures NotAfter(cmp, r[i], r[i + 1])
      {
        if i == 0 {
          assert r[1] == t[0];
          if |s| > 1 {
            assert t[0] == x || t[0] == s[1];
            assert NotAfter(cmp, s[0], s[1]);
          }
        } else {
          assert r[i] == t[i - 1] && r[i + 1] == t[i];
        }
      }
    }
  }

  /** With a connex comparator the result is sorted. */
  lemma {:induction false} SortBySorted<T(!new)>(s: seq<T>, cmp: (T, T) -> int)
    requires Connex(cmp)
    ensures Sorted(SortBy(s, cmp), cmp)
  {
    if |s| > 0 {
      SortBySorted(s[1..], cmp);
      InsertSorted(s[0], SortBy(s[1..], cmp), cmp);
    }
  }

  /** Sorting what is already sorted changes nothing. */
  lemma {:induction false} SortBySortedIdentity<T>(s: seq<T>, cmp: (T, T) -> int)
    requires Sorted(s, cmp)
    ensures SortBy(s, cmp) == s
  {
    if |s| > 0 {
      var x, t := s[0], s[1..];
      SortedTail(s, cmp);
      SortBySortedIdentity(t, cmp);
      assert SortBy(s, cmp) == Insert(x, t, cmp);
      InsertFront(x, t, cmp);
      assert [x] + t == s;
    }
  }

  /** The tail of a sorted sequence is sorted. */
  lemma SortedTail<T>(s: seq<T>, cmp: (T, T) -> int)
    requires Sorted(s, cmp) && |s| > 0
    ensures Sorted(s[1..], cmp)
    ensures |s| > 1 ==> NotAfter(cmp, s[0], s[1..][0])
  {
    forall i | 0 <= i < |s[1..]| - 1
      ensures NotAfter(cmp, s[1..][i], s[1..][i + 1])
    {
      assert s[1..][i] == s[i + 1] && s[1..][i + 1] == s[i + 2];
    }
  }

  /** An element that may precede the head is inserted in front. */
  lemma InsertFront<T>(x: T, s: seq<T>, cmp: (T, T) -> int)
    requires |s| > 0 ==> NotAfter(cmp, x, s[0])
    ensures Insert(x, s, cmp) == [x] + s
  {
  }

  /** Sorting twice is sorting once, for a connex comparator. */
  lemma SortByIdempotent<T(!new)>(s: seq<T>, cmp: (T, T) -> int)
    requires Connex(cmp)
    ensures SortBy(SortBy(s, cmp), cmp) == SortBy(s, cmp)
  {
    SortBySorted(s, cmp);
    SortBySortedIdentity(SortBy(s, cmp), cmp);
  }

  /** With a transitive comparator, adjacent order extends to every pair. */
  lemma {:induction false} SortedAllPairs<T(!new)>(s: seq<T>, cmp: (T, T) -> int, i: int, j: int)
    requires Transitive(cmp) && Sorted(s, cmp)
    requires 0 <= i < j < |s|
    ensures NotAfter(cmp, s[i], s[j])
    decreases j - i
  {
    if j > i + 1 {
      SortedAllPairs(s, cmp, i + 1, j);
      assert NotAfter(cmp, s[i], s[i + 1]);
    }
  }

  /** If the comparator always puts elements without `p` before elements with it, then in
      a sorted sequence every element after one with `p` has `p` as well. */
  lemma {:induction false} SortedSeparates<T>(s: seq<T>, cmp: (T, T) -> int, p: T -> bool, i: int, j: int)
    requires Sorted(s, cmp)
    requires forall a, b :: p(a) && !p(b) ==> cmp(a, b) > 0
    requires 0 <= i < j < |s|
    ensures p(s[i]) ==> p(s[j])
    decreases j - i
  {
    if p(s[i]) {
      assert NotAfter(cmp, s[i], s[i + 1]);
      assert p(s[i + 1]);
      if j > i + 1 {
        SortedSeparates(s, cmp, p, i + 1, j);
      }
    }
  }
}

=== FILE: table.dfy ===
/** The contact-list view: the sort configuration and its header buttons, the two row
    comparators (the legacy string comparison and the current one), the rendered cells,
    the refresh latch and the test for notes inside the contacts folder. */
module Table {
  import opened Optional
  import opened Text
  import opened Sorting
  import opened Contacts

  /** The record fields a list can be sorted by. */
  datatype Column = Name | Birthday | FormattedBirthday | Relationship | Age | DaysUntilBirthday | LastInteraction

  datatype Direction = Asc | Desc

  datatype SortConfig = SortConfig(column: Column, direction: Direction)

  /** A newly opened view sorts by age, ascending. */
  const DefaultSort: SortConfig := SortConfig(Age, Asc)

  /** `handleSort`: a click on the sorted column flips the direction, a click on another
      column sorts by it ascending. */
  function HandleSort(s: SortConfig, c: Column): (r: SortConfig)
    ensures r.column == c
    ensures s.column == c ==> r.direction != s.direction
    ensures s.column != c ==> r.direction == Asc
  {
    if s.column == c then SortConfig(c, if s.direction == Asc then Desc else Asc)
    else SortConfig(c, Asc)
  }

  /** Two clicks on the same column: the sorted column returns to where it was, a new
      column ends up descending. */
  lemma HandleSortTwice(s: SortConfig, c: Column)
    ensures s.column == c ==> HandleSort(HandleSort(s, c), c) == s
    ensures s.column != c ==> HandleSort(HandleSort(s, c), c) == SortConfig(c, Desc)
  {
  }

  /** The sortable header buttons, left to right. */
  const HeaderColumns: seq<Column> := [Name, Age, FormattedBirthday, DaysUntilBirthday, Relationship]

  /** The indicator next to a header button: an up arrow when the list is sorted by
      that column ascending, a down arrow descending, nothing otherwise. */
  function Indicator(s: SortConfig, key: Column): (r: string)
    ensures r != "" <==> key == s.column
    ensures r == "\U{2191}" <==> key == s.column && s.direction == Asc
    ensures r == "\U{2193}" <==> key == s.column && s.direction == Desc
  {
    assert "\U{2191}"[0] != "\U{2193}"[0];
    if s.column != key then ""
    else if s.direction == Asc then "\U{2191}"
    else
      assert s.direction == Desc;
      "\U{2193}"
  }

  /** The header shows exactly one arrow when the sorted column has a button and none
      otherwise. */
  lemma OneIndicator(s: SortConfig)
    ensures var shown := set i | 0 <= i < |HeaderColumns| && Indicator(s, HeaderColumns[i]) != "";
            |shown| == if s.column in HeaderColumns then 1 else 0
  {
    var shown := set i | 0 <= i < |HeaderColumns| && Indicator(s, HeaderColumns[i]) != "";
    if s.column in HeaderColumns {
      var k :| 0 <= k < |HeaderColumns| && HeaderColumns[k] == s.column;
      assert shown == {k};
    } else {
      assert shown == {};
    }
  }

  /** A column's value for sorting: text, a number, or null. */
  datatype SortValue = SNull | SNum(n: int) | SStr(s: string)

  /** `contact[column]`. */
  function ColumnValue(c: Contact, col: Column): (v: SortValue)
    ensures col in {Age, DaysUntilBirthday} ==> !v.SStr?
    ensures col !in {Age, DaysUntilBirthday} ==> !v.SNum?
    ensures col in {Name, Birthday, FormattedBirthday, Relationship} ==> v.SStr?
  {
    match col
    case Name => SStr(c.name)
    case Birthday => SStr(c.birthday)
    case FormattedBirthday => SStr(c.formattedBirthday)
    case Relationship => SStr(c.relationship)
    case Age => if c.age.Some? then SNum(c.age.value) else SNull
    case DaysUntilBirthday => if c.daysUntilBirthday.Some? then SNum(c.daysUntilBirthday.value) else SNull
    case LastInteraction => if c.lastInteraction.Some? then SStr(c.lastInteraction.value) else SNull
  }

  /** `String(value)` of a non-null sort value. */
  function ValueText(v: SortValue): (r: string)
    ensures v.SStr? ==> r == v.s
    ensures v.SNum? ==> r == IntToString(v.n)
  {
    match v
    case SNull => "null"
    case SNum(n) => IntToString(n)
    case SStr(s) => s
  }

  // ---------------------------------------------------------------------------
  // The legacy comparator

  /** The text the legacy comparator compares: null becomes "", then the value's text,
      lower-cased. */
  function LegacyKey(c: Contact, col: Column): (k: string)
    ensures ColumnValue(c, col).SNull? ==> k == ""
    ensures IsLower(k)
  {
    var v := ColumnValue(c, col);
    LowerIsLower(if v.SNull? then "" else ValueText(v));
    Lower(if v.SNull? then "" else ValueText(v))
  }

  /** The legacy `sortContacts` comparator: the lower-cased texts compared, negated for
      a descending sort. */
  function LegacyCompare(s: SortConfig, a: Contact, b: Contact): (r: int)
    ensures r == 0 <==> LegacyKey(a, s.column) == LegacyKey(b, s.column)
    ensures s.direction == Asc ==> r == CodePointCompare(LegacyKey(a, s.column), LegacyKey(b, s.column))
  {
    var cmp := CodePointCompare(LegacyKey(a, s.column), LegacyKey(b, s.column));
    CodePointCompareZeroIff(LegacyKey(a, s.column), LegacyKey(b, s.column));
    if s.direction == Asc then cmp else -cmp
  }

  /** A descending sort uses exactly the negated ascending comparison. */
  lemma LegacyDescNegates(col: Column, a: Contact, b: Contact)
    ensures LegacyCompare(SortConfig(col, Desc), a, b) == -LegacyCompare(SortConfig(col, Asc), a, b)
  {
  }

  /** The comparison ignores case: contacts whose texts differ only in case compare equal. */
  lemma LegacyCaseInsensitive(s: SortConfig, a: Contact, b: Contact)
    requires Lower(ValueText(ColumnValue(a, s.column))) == Lower(ValueText(ColumnValue(b, s.column)))
    requires ColumnValue(a, s.column).SNull? == ColumnValue(b, s.column).SNull?
    ensures LegacyCompare(s, a, b) == 0
  {
  }

  /** Swapping the contacts negates the comparison, so it never asks for both orders. */
  lemma LegacyConnex(s: SortConfig)
    ensures Connex((a, b) => LegacyCompare(s, a, b))
  {
    forall a: Contact, b: Contact
      ensures LegacyCompare(s, a, b) > 0 ==> LegacyCompare(s, b, a) <= 0
    {
      CodePointCompareAntisymmetric(LegacyKey(a, s.column), LegacyKey(b, s.column));
    }
  }

  /** The legacy `sortContacts`: a sorted copy of the list. */
  function LegacySortContacts(contacts: seq<Contact>, s: SortConfig): (r: seq<Contact>)
    ensures multiset(r) == multiset(contacts)
    ensures Sorted(r, (a, b) => LegacyCompare(s, a, b))
  {
    LegacyConnex(s);
    SortBySorted(contacts, (a, b) => LegacyCompare(s, a, b));
    SortBy(contacts, (a, b) => LegacyCompare(s, a, b))
  }

  /** Sorting ascending, every contact whose value is null or empty comes before every
      contact whose value reads as a non-empty text. */
  lemma LegacyEmptyFirst(contacts: seq<Contact>, col: Column, i: int, j: int)
    requires 0 <= i < j < |LegacySortContacts(contacts, SortConfig(col, Asc))|
    ensures var r := LegacySortContacts(contacts, SortConfig(col, Asc));
            LegacyKey(r[i], col) != "" ==> LegacyKey(r[j], col) != ""
  {
    var s := SortConfig(col, Asc);
    var r := LegacySortContacts(contacts, s);
    var p := (c: Contact) => LegacyKey(c, col) != "";
    forall a, b | p(a) && !p(b)
      ensures LegacyCompare(s, a, b) > 0
    {
      CodePointCompareAntisymmetric(LegacyKey(a, col), LegacyKey(b, col));
    }
    SortedSeparates(r, (a, b) => LegacyCompare(s, a, b), p, i, j);
  }

  /** Ages compared as text: age 10 sorts before age 9 ascending. */
  lemma LegacyAgeOrderExample(a: Contact, b: Contact)
    requires a.age == Some(10) && b.age == Some(9)
    ensures LegacyCompare(SortConfig(Age, Asc), a, b) < 0
  {
    assert NatToString(10) == "10";
    assert NatToString(9) == "9";
    assert Lower("10") == "10" && Lower("9") == "9";
  }

  // ---------------------------------------------------------------------------
  // The current comparator

  /** The current `renderTableRows` comparator as written: a null first value sorts
      after, then a null second value sorts before; two numbers compare by difference
      and anything else by text, times the direction. Two nulls compare as 1 both ways
      round. */
  function CompareAsWritten(s: SortConfig, a: Contact, b: Contact): (r: int)
    ensures ColumnValue(a, s.column).SNull? ==> r == 1
    ensures !ColumnValue(a, s.column).SNull? && ColumnValue(b, s.column).SNull? ==> r == -1
  {
    var va, vb := ColumnValue(a, s.column), ColumnValue(b, s.column);
    if va.SNull? then 1
    else if vb.SNull? then -1
    else
      var dir := if s.direction == Asc then 1 else -1;
      if va.SNum? && vb.SNum? then (va.n - vb.n) * dir
      else CodePointCompare(ValueText(va), ValueText(vb)) * dir
  }

  /** With two null values the comparator as written asks for both orders, which leaves
      their relative order to the engine's sort implementation. */
  lemma CompareAsWrittenInconsistent(s: SortConfig, a: Contact, b: Contact)
    requires ColumnValue(a, s.column).SNull? && ColumnValue(b, s.column).SNull?
    ensures CompareAsWritten(s, a, b) > 0 && CompareAsWritten(s, b, a) > 0
  {
  }

  /** The comparator with two nulls comparing equal; everything else as written. */
  function Compare(s: SortConfig, a: Contact, b: Contact): (r: int)
    ensures ColumnValue(a, s.column).SNull? && ColumnValue(b, s.column).SNull? ==> r == 0
    ensures !(ColumnValue(a, s.column).SNull? && ColumnValue(b, s.column).SNull?) ==>
              r == CompareAsWritten(s, a, b)
  {
    var va, vb := ColumnValue(a, s.column), ColumnValue(b, s.column);
    if va.SNull? && vb.SNull? then 0 else CompareAsWritten(s, a, b)
  }

  /** Two numbers are ordered by value: ascending puts the smaller first, descending the
      larger. */
  lemma CompareNumbers(s: SortConfig, a: Contact, b: Contact)
    requires ColumnValue(a, s.column).SNum? && ColumnValue(b, s.column).SNum?
    ensures var x, y := ColumnValue(a, s.column).n, ColumnValue(b, s.column).n;
            && (Compare(s, a, b) < 0 <==> (if s.direction == Asc then x < y else x > y))
            && (Compare(s, a, b) == 0 <==> x == y)
  {
  }

  /** For two values present, a descending sort uses the negated ascending comparison. */
  lemma CompareDescNegates(col: Column, a: Contact, b: Contact)
    requires !ColumnValue(a, col).SNull? && !ColumnValue(b, col).SNull?
    ensures Compare(SortConfig(col, Desc), a, b) == -Compare(SortConfig(col, Asc), a, b)
  {
  }

  /** Swapping the contacts negates the comparison. */
  lemma CompareAntisymmetric(s: SortConfig, a: Contact, b: Contact)
    ensures Compare(s, b, a) == -Compare(s, a, b)
  {
    var va, vb := ColumnValue(a, s.column), ColumnValue(b, s.column);
    if !va.SNull? && !vb.SNull? && !(va.SNum? && vb.SNum?) {
      CodePointCompareAntisymmetric(ValueText(va), ValueText(vb));
    }
  }

  /** "Not after" is transitive: the values of one column are all numbers or all texts
      (or null), and each kind is totally ordered, nulls last. */
  lemma CompareTransitive(s: SortConfig, a: Contact, b: Contact, c: Contact)
    requires Compare(s, a, b) <= 0 && Compare(s, b, c) <= 0
    ensures Compare(s, a, c) <= 0
  {
    var va, vb, vc := ColumnValue(a, s.column), ColumnValue(b, s.column), ColumnValue(c, s.column);
    if !va.SNull? && !vb.SNull? && !vc.SNull? && !va.SNum? {
      assert !vb.SNum? && !vc.SNum?;
      if s.direction == Asc {
        CodePointCompareTransitive(ValueText(va), ValueText(vb), ValueText(vc));
      } else {
        CodePointCompareAntisymmetric(ValueText(va), ValueText(vb));
        CodePointCompareAntisymmetric(ValueText(vb), ValueText(vc));
        CodePointCompareAntisymmetric(ValueText(va), ValueText(vc));
        CodePointCompareTransitive(ValueText(vc), ValueText(vb), ValueText(va));
      }
    }
  }

  /** The sorted copy `renderTableRows` draws. */
  function SortContacts(contacts: seq<Contact>, s: SortConfig): (r: seq<Contact>)
    ensures multiset(r) == multiset(contacts)
    ensures Sorted(r, (a, b) => Compare(s, a, b))
  {
    assert Connex((a, b) => Compare(s, a, b)) by {
      forall a: Contact, b: Contact
        ensures Compare(s, a, b) > 0 ==> Compare(s, b, a) <= 0
      {
        CompareAntisymmetric(s, a, b);
      }
    }
    SortBySorted(contacts, (a, b) => Compare(s, a, b));
    SortBy(contacts, (a, b) => Compare(s, a, b))
  }

  /** In either direction, every contact with a value comes before every contact
      without one. */
  lemma NullsLast(contacts: seq<Contact>, s: SortConfig, i: int, j: int)
    requires 0 <= i < j < |SortContacts(contacts, s)|
    ensures var r := SortContacts(contacts, s);
            ColumnValue(r[i], s.column).SNull? ==> ColumnValue(r[j], s.column).SNull?
  {
    var r := SortContacts(contacts, s);
    var p := (c: Contact) => ColumnValue(c, s.column).SNull?;
    SortedSeparates(r, (a, b) => Compare(s, a, b), p, i, j);
  }

  /** Sorting by a numeric column, any two contacts with values are in order of value,
      however far apart they are. */
  lemma NumbersInOrder(contacts: seq<Contact>, s: SortConfig, i: int, j: int)
    requires s.column in {Age, DaysUntilBirthday}
    requires 0 <= i < j < |SortContacts(contacts, s)|
    ensures var r := SortContacts(contacts, s);
            var x, y := ColumnValue(r[i], s.column), ColumnValue(r[j], s.column);
            x.SNum? && y.SNum? ==> (if s.direction == Asc then x.n <= y.n else x.n >= y.n)
  {
    var r := SortContacts(contacts, s);
    var cmp := (a, b) => Compare(s, a, b);
    assert Transitive(cmp) by {
      forall a: Contact, b: Contact, c: Contact
        ensures cmp(a, b) <= 0 && cmp(b, c) <= 0 ==> cmp(a, c) <= 0
      {
        if cmp(a, b) <= 0 && cmp(b, c) <= 0 {
          CompareTransitive(s, a, b, c);
        }
      }
    }
    SortedAllPairs(r, cmp, i, j);
    var x, y := ColumnValue(r[i], s.column), ColumnValue(r[j], s.column);
    if x.SNum? && y.SNum? {
      CompareNumbers(s, r[i], r[j]);
    }
  }

  /** Ages compared as numbers: age 9 sorts before age 10 ascending. */
  lemma AgeOrderExample(a: Contact, b: Contact)
    requires a.age == Some(10) && b.age == Some(9)
    ensures Compare(SortConfig(Age, Asc), a, b) > 0
  {
  }

  // ---------------------------------------------------------------------------
  // Rendering

  /** The cells of one row: name, age, birthday label, countdown and relationship. */
  datatype Row = Row(name: string, age: string, birthday: string, daysLeft: string, relationship: string)

  /** What the view shows: the empty-state message, or the table of rows. */
  datatype Screen = EmptyState(message: string) | TableOf(rows: seq<Row>)

  const EmptyMessage: string := "No contacts found. Get started by creating your first contact!"

  /** The cells of a contact's row: a missing age, label, countdown or relationship
      shows as "N/A", a countdown as "<n> days". */
  function RowOf(c: Contact): (r: Row)
    ensures r.name == c.name
    ensures r.age == "N/A" <==> c.age.None?
    ensures c.age.Some? ==> r.age == IntToString(c.age.value)
    ensures c.formattedBirthday == "" ==> r.birthday == "N/A"
    ensures c.formattedBirthday != "" ==> r.birthday == c.formattedBirthday
    ensures c.daysUntilBirthday.None? ==> r.daysLeft == "N/A"
    ensures c.daysUntilBirthday.Some? ==> r.daysLeft == IntToString(c.daysUntilBirthday.value) + " days"
    ensures c.relationship == "" ==> r.relationship == "N/A"
    ensures c.relationship != "" ==> r.relationship == c.relationship
  {
    var age := if c.age.Some? then IntToString(c.age.value) else "";
    assert c.age.Some? ==> age != "N/A" by {
      if c.age.Some? {
        assert IntToString(c.age.value)[0] != 'N';
      }
    }
    Row(
      c.name,
      if age != "" then age else "N/A",
      if c.formattedBirthday != "" then c.formattedBirthday else "N/A",
      if c.daysUntilBirthday.Some? then IntToString(c.daysUntilBirthday.value) + " days" else "N/A",
      if c.relationship != "" then c.relationship else "N/A")
  }

  /** `TableView.render`: the empty-state message and no table for an empty list,
      otherwise one row per contact in sorted order. */
  function Render(contacts: seq<Contact>, s: SortConfig): (r: Screen)
    ensures |contacts| == 0 <==> r == EmptyState(EmptyMessage)
    ensures r.TableOf? ==> |r.rows| == |contacts|
    ensures r.TableOf? ==> forall i :: 0 <= i < |r.rows| ==> r.rows[i] == RowOf(SortContacts(contacts, s)[i])
  {
    if |contacts| == 0 then EmptyState(EmptyMessage)
    else
      var sorted := SortContacts(contacts, s);
      TableOf(seq(|sorted|, i requires 0 <= i < |sorted| => RowOf(sorted[i])))
  }

  /** Every contact gets a row and every row belongs to a contact. */
  lemma RenderShowsEveryContact(contacts: seq<Contact>, s: SortConfig, c: Contact)
    requires |contacts| > 0
    ensures c in contacts ==> RowOf(c) in Render(contacts, s).rows
    ensures forall row :: row in Render(contacts, s).rows ==> exists d :: d in contacts && RowOf(d) == row
  {
    var sorted := SortContacts(contacts, s);
    var rows := Render(contacts, s).rows;
    assert forall d :: d in contacts <==> d in sorted by {
      forall d
        ensures d in contacts <==> d in sorted
      {
        assert d in contacts <==> d in multiset(contacts);
        assert d in sorted <==> d in multiset(sorted);
      }
    }
    if c in contacts {
      var i :| 0 <= i < |sorted| && sorted[i] == c;
      assert rows[i] == RowOf(c);
    }
    forall row | row in rows
      ensures exists d :: d in contacts && RowOf(d) == row
    {
      var i :| 0 <= i < |rows| && rows[i] == row;
      assert sorted[i] in contacts && RowOf(sorted[i]) == row;
    }
  }

  // ---------------------------------------------------------------------------
  // The refresh latch

  /** `isRefreshing` together with counts of refreshes begun and finished. */
  datatype Latch = Latch(busy: bool, started: nat, finished: nat)

  const Idle: Latch := Latch(false, 0, 0)

  /** Begun refreshes are the finished ones plus the one in flight, if any. */
  predicate LatchInvariant(l: Latch) {
    l.started == l.finished + (if l.busy then 1 else 0)
  }

  /** What happens to the view: `refresh()` is called, or the refresh in flight ends,
      normally or by throwing. */
  datatype Event = Call | Finish(threw: bool)

  /** `refresh()` entry: returns at once while the latch is held, otherwise takes it. */
  function Enter(l: Latch): (r: (Latch, bool))
    ensures r.1 <==> !l.busy
    ensures r.1 ==> r.0 == Latch(true, l.started + 1, l.finished)
    ensures !r.1 ==> r.0 == l
  {
    if l.busy then (l, false) else (Latch(true, l.started + 1, l.finished), true)
  }

  /** The `finally` block: the latch is released whether or not rendering threw. */
  function Release(l: Latch, threw: bool): (r: Latch)
    ensures !r.busy
    ensures l.busy ==> r.finished == l.finished + 1 && r.started == l.started
    ensures !l.busy ==> r == l
  {
    if l.busy then Latch(false, l.started, l.finished + 1) else l
  }

  function Step(l: Latch, e: Event): Latch {
    match e
    case Call => Enter(l).0
    case Finish(threw) => Release(l, threw)
  }

  /** The latch after a sequence of events. */
  function Run(l: Latch, es: seq<Event>): (r: Latch)
    ensures r.started >= l.started && r.finished >= l.finished
    decreases |es|
  {
    if |es| == 0 then l else Run(Step(l, es[0]), es[1..])
  }

  /** From an idle view, whatever happens, at most one refresh is ever in flight, and
      after a refresh ends, normally or not, the next call renders again. */
  lemma {:induction false} RunKeepsInvariant(l: Latch, es: seq<Event>)
    requires LatchInvariant(l)
    ensures LatchInvariant(Run(l, es))
    ensures Run(l, es).started - Run(l, es).finished <= 1
    decreases |es|
  {
    if |es| > 0 {
      RunKeepsInvariant(Step(l, es[0]), es[1..]);
    }
  }

  /** After any refresh ends, even by throwing, the next call is not blocked. */
  lemma CallAfterFinish(l: Latch, threw: bool)
    ensures Enter(Release(l, threw)).1
  {
  }

  // ---------------------------------------------------------------------------
  // Contacts folder membership

  /** `isContactFile`: the note's path starts with the contacts folder and a slash. */
  predicate IsContactFile(path: string, folder: string) {
    StartsWith(path, folder + "/")
  }

  /** A path is in the folder exactly when it is the folder, a slash and some rest. */
  lemma IsContactFileIff(path: string, folder: string)
    ensures IsContactFile(path, folder) <==> exists rest :: path == folder + "/" + rest
  {
    if IsContactFile(path, folder) {
      var rest := path[|folder| + 1..];
      assert path == folder + "/" + rest;
    }
    if exists rest :: path == folder + "/" + rest {
      var rest :| path == folder + "/" + rest;
      assert path[..|folder + "/"|] == folder + "/";
    }
  }
}

=== FILE: text.dfy ===
/** String operations of the JavaScript runtime that the plugin relies on,
    restricted to what the plugin's logic observes. */
module Text {
  import opened Optional

  /** `toLowerCase` on one character, restricted to ASCII: only the letters A-Z are
      folded; other cased letters are left as they are. */
  function LowerChar(c: char): (r: char)
    ensures 'A' <= c <= 'Z' ==> r as int == c as int + 32
    ensures !('A' <= c <= 'Z') ==> r == c
    ensures !('A' <= r <= 'Z')
  {
    if 'A' <= c <= 'Z' then (c as int + 32) as char else c
  }

  /** `toLowerCase` on a string, character by character, with the ASCII-only fold. */
  function Lower(s: string): (r: string)
    ensures |r| == |s|
    ensures forall i :: 0 <= i < |s| ==> r[i] == LowerChar(s[i])
  {
    seq(|s|, i requires 0 <= i < |s| => LowerChar(s[i]))
  }

  /** No character of `s` is an upper-case ASCII letter. */
  predicate IsLower(s: string) {
    forall i :: 0 <= i < |s| ==> !('A' <= s[i] <= 'Z')
  }

  lemma LowerIsLower(s: string)
    ensures IsLower(Lower(s))
    ensures Lower(Lower(s)) == Lower(s)
  {
  }

  /** A lower-case string is its own lower-case form, and only those are. */
  lemma LowerFixedPoint(s: string)
    ensures Lower(s) == s <==> IsLower(s)
  {
    if Lower(s) == s {
      LowerIsLower(s);
    }
  }

  predicate IsDigit(c: char) {
    '0' <= c <= '9'
  }

  predicate AllDigits(s: string) {
    forall i :: 0 <= i < |s| ==> IsDigit(s[i])
  }

  /** The characters `trim` and `Number` skip: WhiteSpace and LineTerminator of ECMA-262. */
  predicate IsJsSpace(c: char) {
    || c == '\t' || c == '\n' || c == '\U{000B}' || c == '\U{000C}' || c == '\r' || c == ' '
    || c == '\U{00A0}' || c == '\U{1680}' || ('\U{2000}' <= c <= '\U{200A}')
    || c == '\U{2028}' || c == '\U{2029}' || c == '\U{202F}' || c == '\U{205F}'
    || c == '\U{3000}' || c == '\U{FEFF}'
  }

  function TrimStart(s: string): (r: string)
    ensures |r| <= |s| && r == s[|s| - |r|..]
    ensures forall i :: 0 <= i < |s| - |r| ==> IsJsSpace(s[i])
    ensures |r| > 0 ==> !IsJsSpace(r[0])
  {
    if |s| > 0 && IsJsSpace(s[0]) then TrimStart(s[1..]) else s
  }

  function TrimEnd(s: string): (r: string)
    ensures |r| <= |s| && r == s[..|r|]
    ensures forall i :: |r| <= i < |s| ==> IsJsSpace(s[i])
    ensures |r| > 0 ==> !IsJsSpace(r[|r| - 1])
  {
    if |s| > 0 && IsJsSpace(s[|s| - 1]) then TrimEnd(s[..|s| - 1]) else s
  }

  /** How many leading white-space characters `trim` removes. */
  function TrimOffset(s: string): nat {
    |s| - |TrimStart(s)|
  }

  /** `trim`: the slice of `s` left after cutting white space from both ends;
      everything cut away is white space and the slice neither starts nor ends with it. */
  function Trim(s: string): (r: string)
    ensures TrimOffset(s) + |r| <= |s| && r == s[TrimOffset(s)..TrimOffset(s) + |r|]
    ensures forall k :: 0 <= k < TrimOffset(s) ==> IsJsSpace(s[k])
    ensures forall k :: TrimOffset(s) + |r| <= k < |s| ==> IsJsSpace(s[k])
    ensures |r| > 0 ==> !IsJsSpace(r[0]) && !IsJsSpace(r[|r| - 1])
  {
    var t := TrimStart(s);
    var r := TrimEnd(t);
    PrefixOfSuffix(s, t, r);
    r
  }

  /** A prefix `r` of a suffix `t` of `s` is the slice of `s` at `t`'s offset, and
      every character of `s` past it is a character of `t` past `r`. */
  lemma PrefixOfSuffix(s: string, t: string, r: string)
    requires |t| <= |s| && t == s[|s| - |t|..] && |r| <= |t| && r == t[..|r|]
    ensures r == s[|s| - |t|..|s| - |t| + |r|]
    ensures forall k :: |s| - |t| + |r| <= k < |s| ==> s[k] == t[k - (|s| - |t|)]
  {
  }

  /** A string that neither starts nor ends with white space is its own `trim`. */
  lemma TrimNoSpace(s: string)
    ensures |s| > 0 && !IsJsSpace(s[0]) && !IsJsSpace(s[|s| - 1]) ==> Trim(s) == s
  {
  }

  /** `s.startsWith(prefix)`. */
  predicate StartsWith(s: string, prefix: string) {
    |prefix| <= |s| && s[..|prefix|] == prefix
  }

  /** `needle` occurs in `s` starting at offset `i`. */
  predicate OccursAt(s: string, needle: string, i: int) {
    0 <= i <= |s| - |needle| && s[i..i + |needle|] == needle
  }

  /** `s.includes(needle)`: `needle` occurs in `s` at some position. */
  predicate Contains(s: string, needle: string)
    decreases |s|
  {
    StartsWith(s, needle) || (|s| > 0 && Contains(s[1..], needle))
  }

  /** The recursive `Contains` is the usual "occurs at some offset" property. */
  lemma {:induction false} ContainsAtOffset(s: string, needle: string)
    ensures Contains(s, needle) <==> exists i :: OccursAt(s, needle, i)
    decreases |s|
  {
    if StartsWith(s, needle) {
      assert OccursAt(s, needle, 0);
    }
    if |s| > 0 {
      ContainsAtOffset(s[1..], needle);
      if Contains(s[1..], needle) {
        var i :| OccursAt(s[1..], needle, i);
        assert s[1..][i..i + |needle|] == s[i + 1..i + 1 + |needle|];
        assert OccursAt(s, needle, i + 1);
      }
      if exists i :: OccursAt(s, needle, i) {
        var i :| OccursAt(s, needle, i);
        if i > 0 {
          assert s[1..][i - 1..i - 1 + |needle|] == s[i..i + |needle|];
          assert OccursAt(s[1..], needle, i - 1);
        }
      }
    } else {
      if exists i :: OccursAt(s, needle, i) {
        var i :| OccursAt(s, needle, i);
        assert StartsWith(s, needle);
      }
    }
  }

  /** `parts.join(sep)`. */
  function Join(parts: seq<string>, sep: string): (r: string)
    ensures |parts| == 1 ==> r == parts[0]
  {
    if |parts| == 0 then ""
    else if |parts| == 1 then parts[0]
    else parts[0] + sep + Join(parts[1..], sep)
  }

  /** `s.split(sep)` for a one-character separator: the maximal separator-free pieces. */
  function Split(s: string, sep: char): (r: seq<string>)
    ensures |r| >= 1
    ensures forall i, k :: 0 <= i < |r| && 0 <= k < |r[i]| ==> r[i][k] != sep
    decreases |s|
  {
    if |s| == 0 then [""]
    else
      var rest := Split(s[1..], sep);
      if s[0] == sep then [""] + rest
      else [[s[0]] + rest[0]] + rest[1..]
  }

  /** Joining the pieces of a split with the separator gives the string back. */
  lemma {:induction false} SplitJoin(s: string, sep: char)
    ensures Join(Split(s, sep), [sep]) == s
    decreases |s|
  {
    if |s| > 0 {
      var rest := Split(s[1..], sep);
      SplitJoin(s[1..], sep);
      JoinConsFirst(rest, [sep], s[0]);
    }
  }

  lemma {:induction false} JoinConsFirst(parts: seq<string>, sep: string, c: char)
    requires |parts| >= 1
    ensures Join([[c] + parts[0]] + parts[1..], sep) == [c] + Join(parts, sep)
  {
    var q := [[c] + parts[0]] + parts[1..];
    assert q[1..] == parts[1..];
  }

  function DigitChar(d: nat): (c: char)
    requires d < 10
    ensures IsDigit(c)
  {
    ('0' as int + d) as char
  }

  function DigitValue(c: char): (d: nat)
    requires IsDigit(c)
    ensures d < 10 && DigitChar(d) == c
  {
    c as int - '0' as int
  }

  /** The decimal numeral of `n`, without leading zeros. */
  function NatToString(n: nat): (r: string)
    ensures |r| >= 1 && AllDigits(r)
    ensures |r| > 1 ==> r[0] != '0'
  {
    if n < 10 then [DigitChar(n)] else NatToString(n / 10) + [DigitChar(n % 10)]
  }

  /** `String(i)` for an integer value: a minus sign before a negative number's magnitude. */
  function IntToString(i: int): (r: string)
    ensures |r| >= 1
    ensures i >= 0 <==> IsDigit(r[0])
  {
    if i < 0 then "-" + NatToString(-i) else NatToString(i)
  }

  /** The value of a string of decimal digits (the empty string reads as 0). */
  function DigitsValue(s: string): (n: nat)
    requires AllDigits(s)
  {
    if |s| == 0 then 0 else 10 * DigitsValue(s[..|s| - 1]) + DigitValue(s[|s| - 1])
  }

  /** Printing a number and reading the digits back gives the number. */
  lemma {:induction false} NatToStringRoundTrip(n: nat)
    ensures DigitsValue(NatToString(n)) == n
  {
    if n >= 10 {
      NatToStringRoundTrip(n / 10);
      var s := NatToString(n);
      assert s[..|s| - 1] == NatToString(n / 10);
    }
  }

  /** `Number(s)` restricted to integers: white space is skipped, an all-space or empty
      string is 0, and an optionally signed run of decimal digits is its value;
      everything else is NaN (`None`). */
  function JsNumber(s: string): (r: Option<int>)
    ensures AllDigits(s) && |s| > 0 ==> r == Some(DigitsValue(s))
    ensures |Trim(s)| == 0 ==> r == Some(0)
  {
    TrimNoSpace(s);
    var t := Trim(s);
    if |t| == 0 then Some(0)
    else if AllDigits(t) then Some(DigitsValue(t))
    else if |t| >= 2 && t[0] == '+' && AllDigits(t[1..]) then Some(DigitsValue(t[1..]))
    else if |t| >= 2 && t[0] == '-' && AllDigits(t[1..]) then Some(0 - DigitsValue(t[1..]) as int)
    else None
  }

  /** `a.localeCompare(b)` taken as the comparison of code points: -1, 0 or 1 by the
      first differing character, a proper prefix first. */
  function CodePointCompare(a: string, b: string): (r: int)
    ensures -1 <= r <= 1
    ensures |a| == 0 ==> r == (if |b| == 0 then 0 else -1)
  {
    if |a| == 0 && |b| == 0 then 0
    else if |a| == 0 then -1
    else if |b| == 0 then 1
    else if a[0] < b[0] then -1
    else if a[0] > b[0] then 1
    else CodePointCompare(a[1..], b[1..])
  }

  /** Two strings compare equal exactly when they are the same string. */
  lemma {:induction false} CodePointCompareZeroIff(a: string, b: string)
    ensures CodePointCompare(a, b) == 0 <==> a == b
  {
    if |a| > 0 && |b| > 0 && a[0] == b[0] {
      CodePointCompareZeroIff(a[1..], b[1..]);
      assert a == [a[0]] + a[1..] && b == [b[0]] + b[1..];
    }
  }

  /** Swapping the arguments negates the comparison. */
  lemma {:induction false} CodePointCompareAntisymmetric(a: string, b: string)
    ensures CodePointCompare(b, a) == -CodePointCompare(a, b)
  {
    if |a| > 0 && |b| > 0 && a[0] == b[0] {
      CodePointCompareAntisymmetric(a[1..], b[1..]);
    }
  }

  /** "Not after" is transitive. */
  lemma {:induction false} CodePointCompareTransitive(a: string, b: string, c: string)
    requires CodePointCompare(a, b) <= 0 && CodePointCompare(b, c) <= 0
    ensures CodePointCompare(a, c) <= 0
  {
    if |a| > 0 && |b| > 0 && |c| > 0 && a[0] == b[0] && b[0] == c[0] {
      CodePointCompareTransitive(a[1..], b[1..], c[1..]);
    }
  }
}
